=== FILE: README.md ===
# AI news crawler: a Dafny model of its harvesting core

The crawler collects the day's AI and technology articles into a Google Sheets workbook.

**One run.** A run does these steps in order:

1. It fixes a 24-hour collection window. The window ends at the most recent 16:00 on the Seoul clock.
2. It reads the sources sheet. It keeps the active sources whose phase is at most the target phase.
3. It builds an index from `Raw_Url` to row number over the raw-data sheet.
4. It hands each target source, one after the other, to the crawler its `Fetch_Type` names.

**The four crawlers.**

- `RSS_FULL` stores the text the feed entry carries, with its HTML stripped.
- `RSS_DEEP` has each entry's page rendered to markdown by a reader service. It then cleans the text with that source's slicing rules.
- `CRAWL_LIST` reads a list page with its links summary. It extracts a URL-to-title map from the page and filters that into candidates. It reads each candidate, up to `Max_Items`, and dates it from its text. Undated pages are kept; dated pages outside the window are dropped. Each kept page is cleaned by its source's rule.
- `API` takes the first 200 Hacker News top stories. It keeps at most 30 stories that are recent, high-scoring and whose title is relevant. It renders each kept story and runs the generic boilerplate cleaner on the text.

**Storing an item.**

- Every crawler truncates the cleaned text to `Max_Length` and appends a cut marker if it cut.
- It rejects text shorter than `MIN_TEXT_LEN` (120).
- Otherwise it upserts a row keyed by the normalized URL and appends an entry to the event log.

**How the model is built.**

- The model is functional. A `State` is the raw-data grid plus the event log.
- Each crawler is a function from a state to `Finished(state)`, or to `Escaped(state)` when an exception leaves it.
- Everything that comes from outside is a field of `Harvest.Env` and is passed in as a function:
  - HTTP, the feed parser and the reader service;
  - the date parser, the SHA-256 digest and `json.dumps`;
  - the clock and the regex engine used for the per-source patterns.
  - the two `re.findall` scans of `extract_links` (`Env.scanLinks`): the markdown links and the bare URLs of a page.

**Modules.** They follow the program's files:

| module | models |
|---|---|
| `TimeWindow` | `core/time_filter.py` |
| `UrlIdentity`, `LinkMerge`, `HtmlText` | `core/utils.py` |
| `Sheet` | the raw-data half of `core/gsheets.py` |
| `Selection`, `Dispatch`, `CrawlRun` | `main.py` |
| `Harvest` | what all crawlers share: settings, outcomes, the row record, the truncate-then-reject step |
| `FeedEntries`, `RssFull`, `RssDeep` | the two feed crawlers |
| `Candidates`, `MdDate`, `ListCrawl` | `crawlers/crawl_list.py` |
| `Relevance`, `HackerNews` | `crawlers/api_hackernews.py` |
| `Cleaning` | the per-source slicing rules and `_clean_jina_generic` |
| `Text`, `Seqs`, `Wrappers` | Python string, list and option primitives |

## Model

| member | source | states |
|---|---|---|
| `TimeWindow.CollectionWindow` | core/time_filter.py:9-34 | The window is exactly one day long, and both ends fall at 16:00 Seoul time. `now` lies in `[end, end + 1 day)`. From 16:00 on, the window ends on today's local date; before 16:00 it ends on yesterday's. |
| `TimeWindow.MostRecentCutover` | core/time_filter.py:27-32 | The window end is the latest 16:00 instant not after `now`: any 16:00 instant at or before `now` is at or before the end, and one within the last day is the end. |
| `TimeWindow.WindowsContiguous` | core/time_filter.py:27-34 | Windows computed one day apart tile the timeline: the later one starts where the earlier one ends. |
| `TimeWindow.ConsecutiveWindowsOverlap` | core/time_filter.py:54-63 | Since the test is inclusive at both ends, an instant is in two consecutive windows exactly when it is the shared 16:00 boundary. |
| `TimeWindow.IsWithinWindow` | core/time_filter.py:54-63 | A missing date is never inside the window; a present one is inside exactly when `start <= t <= end`. |
| `TimeWindow.ParseDateRobust` | core/time_filter.py:36-52 | The empty string is no date; any other string yields exactly what the date parser yields. |
| `Selection.Targets` | main.py:33-37 | The selection raises exactly when some active source has a phase `int` rejects. Otherwise it is the active sources with phase at most `TARGET_PHASE`, in sheet order. |
| `CrawlRun.Run` | main.py:27-74 | A selection error escapes with nothing done. No targets, or an index that cannot be built, ends the run with nothing done. In every case the run only appends to the log. |
| `CrawlRun.CrawlWith` | main.py:55-60 | Whichever of the four crawlers `crawler_map` picks, the crawl only appends to the log. |
| `Dispatch.KindOf` | main.py:66-67 | After stripping and upper-casing, `RSS_FULL` selects exactly the full-text feed crawler, `RSS_DEEP` the deep feed crawler, `CRAWL_LIST` the list crawler and `API` the Hacker News crawler. Any other name, and a missing one, selects none. |
| `Dispatch.Sources` | main.py:65-74 | If every crawler only appends to the log, so does the source loop. A list of sources none of which has a known fetch type changes nothing. |
| `Dispatch.UnknownKindsIgnored` | main.py:69-71 | Skipping unknown fetch types is the same as crawling only the sources with a known fetch type. |
| `Harvest.ReadInt` | crawlers/crawl_list.py:21 | `int(...)` of a configuration cell fails exactly on a malformed cell. |
| `Harvest.ItemRecord` | crawlers/crawl_list.py:140-149 | The row object carries the item id, collection time, source id, title, URL, text, JSON metadata and `Processed_YN = "N"`. |
| `Harvest.Settle` | crawlers/crawl_list.py:130-155 | Only a stored item changes the grid, by an upsert. A dropped item logs nothing. Every other outcome appends exactly one log entry. |
| `Harvest.SettleKept` | crawlers/rss_full.py:62-93 | A feed entry escapes exactly when reading its body raised, and then the state is untouched. Otherwise the outcome settles with one log entry. |
| `Harvest.StoredIndexedRewrites` | core/gsheets.py:79-85 | A stored record whose URL the index maps to an existing row rewrites that row in place. Every other row is unchanged and the sheet keeps its length. |
| `Harvest.SettleAllEffect` | crawlers/crawl_list.py:158 | Settling a source's items upserts exactly their stored records, in order, and only appends to the log. |
| `Harvest.SettleSource` | crawlers/rss_deep.py:154-156 | With no items the state is unchanged. With items, their records are upserted and the last log entry is `SOURCE_DONE`. |
| `Harvest.UpsertAllAppends` | core/gsheets.py:86-87 | Records whose URLs the index does not know are appended one row each, in order, after the existing rows. |
| `Harvest.FreshOutcomesAppend` | crawlers/api_hackernews.py:163-164 | When every item was checked against the index first, settling them keeps every existing row and appends one row per stored record. |
| `Harvest.Finish` | crawlers/crawl_list.py:130-149 | An item is stored exactly when its truncated text reaches `MIN_TEXT_LEN`, and is rejected as too short otherwise. A stored record's text is the truncated text under the given id. |
| `Sheet.BuildIndex` | core/gsheets.py:49-72 | Building fails with "empty" exactly on an empty sheet. It fails with "no Raw_Url" exactly when the stripped header row lacks that name. Otherwise it returns the stripped headers, the URL column and the URL map. |
| `Sheet.IndexExact` | core/gsheets.py:65-70 | Every mapped URL is carried by its row and by no later row. Every data row that carries a URL has that URL mapped. So duplicates map to the last row. |
| `Sheet.UrlMapExact` | core/gsheets.py:65-70 | The map over rows 2 to n holds exactly the URLs those rows carry, each mapped to the last row that carries it. |
| `Sheet.RowData` | core/gsheets.py:76 | One cell per header: the record's value for that header, or `""` when it has none. |
| `Sheet.WriteRow` | core/gsheets.py:85 | A row update overwrites cells from column A on and keeps any cells beyond the new ones. |
| `Sheet.PutRow` | core/gsheets.py:85 | Writing row i touches only row i, growing the grid when it is shorter. |
| `Sheet.Upsert` | core/gsheets.py:74-90 | A record whose URL is mapped overwrites the mapped row's leading cells and leaves every other row alone. Any other record, including one without `Raw_Url`, is appended. |
| `Sheet.StaleIndexDuplicates` | core/gsheets.py:86-90 | The map is not updated after an append, so upserting the same new URL twice appends two identical rows. |
| `Sheet.IndexAfterAppend` | core/gsheets.py:49-90 | Rebuilding the index after appending a new stripped URL gives the old map plus that URL at the new last row. |
| `Sheet.IndexSnoc` | core/gsheets.py:65-70 | Appending a row that carries a URL maps that URL to the new row and leaves the rest of the map as it was. |
| `FeedEntries.EntryLink` | crawlers/rss_full.py:39-41 | The link key wins even when it is empty. The id is used only when there is no link key. Otherwise the link is `""`. |
| `FeedEntries.EntryDateText` | crawlers/rss_full.py:47 | The published key wins even when it is empty; updated is used only when there is no published key. |
| `FeedEntries.Screen` | crawlers/rss_full.py:39-58 | An entry is kept exactly when it has a link and is either undated or dated inside the window. A kept entry carries a warning exactly when it is undated. |
| `FeedEntries.Warn` | crawlers/rss_full.py:54-58 | The undated warning appends exactly one `ITEM_NO_DATE_WARN` entry for the item's id and leaves the grid alone. |
| `FeedEntries.PublishedShadowsUpdated` | crawlers/rss_full.py:47-58 | An empty published key hides a usable updated key: the entry is kept with a warning. |
| `RssFull.EntryBody` | crawlers/rss_full.py:62-68 | The body is the first content value, else the summary, else the description, else `""`. It is missing, because indexing raises, exactly when the content list is empty. |
| `RssFull.FullItem` | crawlers/rss_full.py:62-90 | Processing fails exactly when the body is missing. Otherwise the entry is stored exactly when its HTML-stripped body, truncated with the space marker, has at least `MIN_TEXT_LEN` characters. A stored record holds the entry URL, the feed title and that truncated text. |
| `RssFull.EntryStep` | crawlers/rss_full.py:38-93 | A skipped entry changes nothing. An escape happens exactly for a kept entry whose body raises. |
| `RssFull.EntryStepLog` | crawlers/rss_full.py:38-58 | The log after one entry starts with the old log followed by the `ITEM_NO_DATE_WARN` the entry owes, if any. A kept entry adds exactly that warning plus one outcome line when its body can be read. |
| `RssFull.Entries` | crawlers/rss_full.py:38-93 | The loop only appends to the log and finishes whenever every body can be read. |
| `RssFull.Crawl` | crawlers/rss_full.py:16-99 | A malformed `Max_Length` escapes with nothing done. An HTTP failure logs only `SOURCE_HTTP_FAIL` and a raised fetch logs only `SOURCE_ERROR`. A finished crawl always logs at least one entry. |
| `RssFull.StoredEntryRewritesIndexedRow` | crawlers/rss_full.py:81-93 | Without an index check, a stored entry whose URL is already indexed rewrites that row in place. |
| `RssDeep.ScreenAll` | crawlers/rss_deep.py:39-58 | Screening keeps exactly the entries `Screen` keeps, in feed order. It leaves the grid alone, only appends to the log, and logs at most one warning per kept entry. |
| `RssDeep.ScreenAllLog` | crawlers/rss_deep.py:39-58 | Screening appends exactly `Warns`: one `ITEM_NO_DATE_WARN` for each entry kept without a parsable date, in feed order, and nothing else. `Warns` is defined independently, entry by entry from the front. |
| `RssDeep.DeepItem` | crawlers/rss_deep.py:64-151 | An entry is never skipped as already indexed. It fails exactly when the reader fails. A page that reads is stored exactly when its source-cleaned, truncated text has at least `MIN_TEXT_LEN` characters, and that text is what is stored. A non-empty feed title wins; otherwise the title is the page's markdown title. |
| `RssDeep.Screened` | crawlers/rss_deep.py:60-61 | Nothing at all is logged, not even `SOURCE_DONE`, exactly when every entry is screened out. |
| `RssDeep.Crawl` | crawlers/rss_deep.py:18-160 | A malformed `Max_Length` escapes. HTTP failures and raised fetches log one entry each, and the crawl only appends to the log. |
| `ListCrawl.PageItem` | crawlers/crawl_list.py:54-155 | A candidate is dropped exactly when its normalized URL is indexed, or when its page reads but carries a date outside the window. It fails exactly when it is new and the reader fails. A new candidate whose page reads and passes the date test is stored exactly when its rule-cleaned, truncated text has at least `MIN_TEXT_LEN` characters, and that text is what is stored. A stored record is fresh and carries the source id. A non-empty list-page title wins; otherwise the title is the page's markdown title. |
| `ListCrawl.PageCandidates` | crawlers/crawl_list.py:41-43 | The candidates have no duplicates. A URL is a candidate exactly when it is a non-empty link key that passes the fixed tests and the source's rule. |
| `ListCrawl.Crawl` | crawlers/crawl_list.py:17-164 | A malformed `Max_Length` escapes. A list-page read failure logs only `LIST_READ_FAIL`. |
| `ListCrawl.Listed` | crawlers/crawl_list.py:45-164 | No candidates logs `LIST_NO_CANDIDATE`. A malformed `Max_Items` logs `SOURCE_ERROR`. Otherwise the items are settled and `SOURCE_DONE` is logged last. |
| `ListCrawl.ListedOnlyAppends` | crawlers/crawl_list.py:50-60 | The list crawler rewrites no row. It appends at most one row per candidate, and at most `Max_Items` rows when that is not negative. |
| `HackerNews.AcceptStories` | crawlers/api_hackernews.py:113-143 | The story loop keeps the first 30 acceptable stories, in order. |
| `HackerNews.FirstAccepted` | crawlers/api_hackernews.py:113-143 | The loop that breaks at 30 yields the first 30 stories the test accepts. |
| `HackerNews.AcceptablesExact` | crawlers/api_hackernews.py:113-143 | The accepted stories are exactly the items that pass the test: every kept story passes and is an item, and every passing item is kept. |
| `HackerNews.AcceptablesInOrder` | crawlers/api_hackernews.py:113-141 | The accepted stories, as items, form a subsequence of the item list: they keep the items' order. |
| `HackerNews.AcceptablesCap` | crawlers/api_hackernews.py:141-143 | Once a prefix yields 30 stories, those are the first 30 of the whole list, so breaking early loses nothing. |
| `HackerNews.Kept` | crawlers/api_hackernews.py:110-143 | At most 30 stories are kept, and each is a story with a non-zero time inside the window, enough score, a URL and a relevant title. |
| `HackerNews.KeptSource` | crawlers/api_hackernews.py:109-143 | Every kept story is the item of one of the first 200 ids. When fewer than 30 are kept, every acceptable item among the first 200 ids is kept. |
| `HackerNews.StoryItem` | crawlers/api_hackernews.py:153-208 | A story is dropped exactly when its normalized URL is indexed. It fails exactly when it is new and the reader fails. A new story whose page reads is stored exactly when its generically cleaned, truncated text has at least `MIN_TEXT_LEN` characters, and that text is what is stored. A stored record is fresh and keyed by its item id. A non-empty story title wins; otherwise the title is the page's markdown title. |
| `HackerNews.Stories` | crawlers/api_hackernews.py:145-148 | No kept stories logs exactly `SOURCE_EMPTY`; otherwise `SOURCE_DONE` comes last. |
| `HackerNews.Crawl` | crawlers/api_hackernews.py:85-215 | A malformed `Max_Length` or `Min_Score` escapes. Fetch failures leave the grid alone and log one entry. |
| `HackerNews.CrawlOnlyAppends` | crawlers/api_hackernews.py:163-164 | Because every story is checked against the index first, the crawler never rewrites a row. |
| `HackerNews.StoriesOnlyAppend` | crawlers/api_hackernews.py:163-211 | Processing the kept stories keeps every existing row. |
| `Cleaning.DeepCleanShape` | crawlers/rss_deep.py:74-125 | A deep-feed source without a rule gets only the newline collapse and strip. Any source's text is a contiguous piece of that. |
| `Cleaning.ListCleanShape` | crawlers/crawl_list.py:85-128 | A list source without a rule gets only the newline collapse and strip. The purely slicing rules keep a contiguous piece of it. |
| `Cleaning.RunSlicingInfix` | crawlers/crawl_list.py:88-128 | A rule made only of "keep after" and "keep before" slices yields a contiguous piece of its input. |
| `Cleaning.CleanGeneric` | crawlers/api_hackernews.py:52-76 | The generic cleaner's output is stripped, has no three consecutive newlines, and is never longer than its input. |
| `Cleaning.DropPublishedHeader` | crawlers/api_hackernews.py:55 | The header removal only drops a prefix, and only when the text starts with `Published Time:` and contains a newline. |
| `Cleaning.PublishedHeaderOnce` | crawlers/api_hackernews.py:55 | Exactly the header line and the newline run after it are removed, once; what follows is kept as is. |
| `Cleaning.Truncate` | crawlers/crawl_list.py:130-131 | Text over `max_length` is cut Python-style and marked; other text is unchanged. For a non-negative limit the result starts with the kept prefix and is at most `max_length + |marker|` long. |
| `Cleaning.TruncateAndCheck` | crawlers/crawl_list.py:130-135 | Text is emitted exactly when its truncated form reaches `MIN_TEXT_LEN`, and is then that truncated form. |
| `Cleaning.EmittedBounds` | config.py:24 | Emitted text is between `MIN_TEXT_LEN` and `max_length + 20` long. A `max_length` from 0 to 99 can never emit anything. |
| `HtmlText.StripHtml` | core/utils.py:39-52 | Empty HTML gives `""`. Any result is stripped and single-spaced. |
| `HtmlText.RemoveTags` | core/utils.py:45 | Tag removal never lengthens text and leaves text without `<` unchanged. |
| `HtmlText.DecodeEntities` | core/utils.py:46-51 | Text without `&` is unchanged by the entity replacements. |
| `HtmlText.NormalizeSpaceIdempotent` | core/utils.py:52 | Whitespace normalization is idempotent. |
| `HtmlText.PlainTextFixed` | core/utils.py:39-52 | Stripped, single-spaced text without `<` or `&` comes back from `strip_html` unchanged. |
| `HtmlText.StripHtmlNormalForm` | core/utils.py:52 | The output of `strip_html` is already whitespace-normal. |
| `UrlIdentity.EnsureHttps` | core/utils.py:4-12 | The empty URL stays empty. Any other URL is stripped; then an `https://` URL is kept as it is, an `http://` URL has its scheme replaced, and anything else gets `https://` in front. |
| `UrlIdentity.EnsureHttpsIdempotent` | core/utils.py:4-12 | Upgrading twice equals upgrading once. |
| `UrlIdentity.UpgradeScheme` | core/utils.py:16 | A leading `http://` in any case becomes `https://` with the rest kept; anything else is unchanged. |
| `UrlIdentity.DropFragment` | core/utils.py:17 | On text not ending in a newline, the fragment removal keeps a prefix ending just before a `#`. On newline-free text it cuts at the first `#`. |
| `UrlIdentity.NormalizeUrl` | core/utils.py:14-32 | A normalized URL has at most one `?`, and no `#` when the input has no newline. |
| `UrlIdentity.NormalizeFiltersQuery` | core/utils.py:19-32 | Normalization keeps the path, and keeps exactly the non-tracking query parameters of the first query segment, in order. |
| `UrlIdentity.FilterQueryLaw` | core/utils.py:19-32 | Query filtering keeps the path and yields exactly the kept parameters. |
| `UrlIdentity.FilterQueryIdempotent` | core/utils.py:19-32 | Filtering an already filtered URL changes nothing. |
| `UrlIdentity.NormalizeUpgradesHttp` | core/utils.py:15-16 | A URL starting with `http://` in any case normalizes to an `https://` URL. |
| `UrlIdentity.NormalizeAddsNoScheme` | core/utils.py:15-32 | A URL without `http://` gets no scheme added: the normalized URL's path is a prefix of the stripped input. |
| `UrlIdentity.NormalFormNoHttp` | core/utils.py:14-32 | No normal form starts with `http://` in any case. |
| `UrlIdentity.NormalFormChars` | core/utils.py:14-32 | The normal form of a newline-free URL has neither newline nor `#`. |
| `UrlIdentity.NormalizeIdempotent` | core/utils.py:14-32 | Normalization is idempotent on newline-free URLs whose normal form has no surrounding whitespace. |
| `UrlIdentity.NormalizeNotIdempotentExample` | core/utils.py:15-17 | Normalization is not idempotent in general: `"a #b"` normalizes to `"a "`, which normalizes to `"a"`. |
| `UrlIdentity.MakeItemUuid` | core/utils.py:34-37 | The item id is `ITEM_` plus the first 8 hex characters of the URL's digest: 13 characters. |
| `UrlIdentity.ItemUuidCollision` | core/utils.py:34-37 | Two URLs share an id exactly when their digests agree on the first 8 characters. |
| `UrlIdentity.GetHost` | core/utils.py:87-94 | Without an http(s) scheme the host is `""`. Otherwise it is the lower-cased run of non-`/` characters after the scheme, non-empty when one follows. |
| `UrlIdentity.HostRoundTrip` | core/utils.py:87-94 | A host read back from `https://` plus that host is the same host. |
| `UrlIdentity.UniquePreserveOrder` | core/utils.py:123-131 | The output has no duplicates and no empty strings, and holds every non-empty input element. |
| `UrlIdentity.UniqueMembers` | core/utils.py:123-131 | An element is in the output exactly when it is a non-empty input element. |
| `UrlIdentity.UniqueFirstOccurrenceOrder` | core/utils.py:123-131 | The output lists elements in the order of their first occurrences in the input. |
| `UrlIdentity.UniqueIsSubseq` | core/utils.py:123-131 | The output is a subsequence of the input. |
| `UrlIdentity.UniqueOfDistinct` | core/utils.py:123-131 | A duplicate-free list of non-empty strings is its own de-duplication. |
| `UrlIdentity.UniqueIdempotent` | core/utils.py:123-131 | De-duplicating twice equals de-duplicating once. |
| `UrlIdentity.UniqueLoop` | core/utils.py:124-131 | The loop with its `seen` set computes the de-duplication. |
| `LinkMerge.TrimLinkUrl` | core/utils.py:108 | The trailing-punctuation removal keeps a prefix. What it drops is all `)`, `,`, `.`, `]`, and what it keeps does not end in one. |
| `LinkMerge.TrimLinkUrlIdempotent` | core/utils.py:108 | Trimming twice equals trimming once. |
| `LinkMerge.CleanLinks` | core/utils.py:107-111 | The links the merge loop acts on are exactly the cleaned links whose title is not junk. |
| `LinkMerge.MergeMd` | core/utils.py:112-113 | A new URL is appended with its title. A known URL keeps its place and its title is replaced only by a strictly longer one. Other URLs are untouched. |
| `LinkMerge.MergeKeys` | core/utils.py:106-113 | The markdown loop inserts each link URL once, in first-occurrence order. |
| `LinkMerge.MergeTitleBound` | core/utils.py:112-113 | Each URL's title is at least as long as every title linking to it. |
| `LinkMerge.MergeTitleChosen` | core/utils.py:112-113 | Each URL keeps the title of the first link among those with the longest title. |
| `LinkMerge.AddAllBareKeys` | core/utils.py:115-119 | The bare-URL loop appends the new URLs in first-occurrence order. |
| `LinkMerge.AddAllBareTitles` | core/utils.py:115-119 | The bare-URL loop keeps every existing title and gives each new URL the empty title. |
| `LinkMerge.ExtractLinksLaw` | core/utils.py:102-121 | The map lists the markdown URLs, then the new bare URLs, each once in first-occurrence order. A markdown URL keeps its first longest title; a bare-only URL has `""`. |
| `Candidates.StagesMember` | crawlers/crawl_list.py:166-191 | A URL survives the three filtering stages exactly when it is an input that passes the fixed tests, the deny rule and the allow rule. |
| `Candidates.FilterCandidates` | crawlers/crawl_list.py:166-193 | The candidates have no duplicates and keep input order. A URL is a candidate exactly when it is non-empty, an input, and passes every test. |
| `Candidates.CandidateHost` | crawlers/crawl_list.py:175-179 | Every candidate has the host the source's rule requires, or else the list page's host. |
| `Candidates.FilterCandidatesIdempotent` | crawlers/crawl_list.py:166-193 | Filtering the candidates again changes nothing. |
| `Candidates.AssetExample` | crawlers/crawl_list.py:172 | An image URL with a query string is an asset whatever its extension's case. |
| `Candidates.NavExample` | crawlers/crawl_list.py:183 | A `/tags/` URL is a navigation page. |
| `Candidates.NotNavExample` | crawlers/crawl_list.py:183 | `/tagged` is not a navigation page, because the nav word must end at a word boundary. |
| `Candidates.ExclusionsIgnoreCase` | crawlers/crawl_list.py:172-183 | Both exclusions ignore case: lower-casing a URL never changes whether it is an asset or a navigation page. |
| `MdDate.ExtractDate` | crawlers/crawl_list.py:195-212 | The leftmost labelled date wins. Failing that, the leftmost bare date in the first 2000 characters wins. Failing both, the result is `""`. |
| `MdDate.ExtractDateIgnoresTail` | crawlers/crawl_list.py:206-210 | Without a labelled date, text after the first 2000 characters never changes the result. |
| `MdDate.LabelledExample` | crawlers/crawl_list.py:198-204 | `Published: 2024-05-01` yields `2024-05-01`. |
| `Relevance.RelevanceIgnoresCase` | crawlers/api_hackernews.py:17-49 | A title and its lower-cased form are relevant alike. |
| `Relevance.RelevantExtend` | crawlers/api_hackernews.py:17-49 | Appending words after a space never makes a relevant title irrelevant. |
| `Relevance.AiKeywordExample` | crawlers/api_hackernews.py:17-49 | `ai` is found in "New AI model" but not inside "Email". |
| `Text.StripIdempotent` | crawlers/crawl_list.py:20 | `str.strip` is idempotent. |
| `Text.JoinSplit` | core/utils.py:19-31 | Splitting on a character and re-joining gives back the string. |
| `Text.SplitJoin` | core/utils.py:25-31 | Joining separator-free pieces and splitting again gives back the pieces. |
| `Text.CollapseNewlines` | crawlers/crawl_list.py:85 | After the collapse no three newlines follow one another. The text never grows, and it is empty exactly when the input is. |
| `Text.CollapseNewlinesFixed` | crawlers/crawl_list.py:85 | The collapse changes a text exactly when it holds three newlines in a row; any other text is its own result. |
| `Text.CollapseNewlinesKeeps` | crawlers/crawl_list.py:85 | The collapse removes newlines only: for any test that a newline fails, the characters passing it are the same sequence before and after. |
| `Text.CollapseAndStrip` | crawlers/rss_deep.py:74 | Every rendered page's normalized text is stripped, never longer than the input, and free of three consecutive newlines. |
| `Text.StripKeepsText` | crawlers/crawl_list.py:85 | `str.strip` removes whitespace only: the non-whitespace characters are the same sequence before and after. |
| `Text.CollapseAndStripKeepsText` | crawlers/rss_deep.py:74 | The page normalization removes whitespace only: the page's non-whitespace characters are the same sequence before and after. |

## Behaviour of the code worth knowing

The model follows the code in each case below. Where a source comment or docstring states an intention, it is cited next to the behaviour.

- **URL normalization is not idempotent in general.** `normalize_url` (core/utils.py:14-32) strips the URL before it deletes `#…`. Deleting a fragment can therefore expose whitespace that a second normalization strips: `"a #b"` becomes `"a "`, which becomes `"a"` (`UrlIdentity.NormalizeNotIdempotentExample`). Idempotence is proved only for URLs without newlines whose normal form has no surrounding whitespace.
- **`normalize_url` adds no scheme.** It only rewrites a leading `http://` (core/utils.py:16). Unlike `ensure_https` (core/utils.py:4-12), it leaves a URL without a scheme as it is (`UrlIdentity.NormalizeAddsNoScheme`).
- **A fragment is not always removed.** `#.*$` (core/utils.py:17) is used without MULTILINE. `.` does not cross a newline, so a `#` followed later by a newline stays.
- **The same new URL can be stored twice.** After an append, `upsert_raw_by_url` has a comment about a "rough update of map" to the last row plus one (core/gsheets.py:88-90), but no statement follows it: the URL map built once per run is never updated. So two items with the same new URL both append a row (`Sheet.StaleIndexDuplicates`). The list crawler's comment "Upsert will handle duplicates" (crawlers/crawl_list.py:80) relies on the upsert for this.
- **The feed crawlers rewrite rows.** The list and Hacker News crawlers skip a URL already in the map (crawlers/crawl_list.py:58-59, crawlers/api_hackernews.py:162-163). The two feed crawlers never look the URL up, so an already-stored URL rewrites its row (`RssFull.StoredEntryRewritesIndexedRow`).
- **A crawler can raise past its own `try`.** `Max_Length`, and for Hacker News `Min_Score`, are parsed with `int(...)` before the crawler's `try` (crawlers/rss_full.py:17, crawlers/api_hackernews.py:84-85). `main` calls the crawler without a `try` (main.py:65-75), so a malformed value ends the whole run (`CrawlRun.Run`). `Max_Items` is parsed inside the `try` (crawlers/crawl_list.py:50), so a malformed one only logs `SOURCE_ERROR`.
- **An empty content list ends the feed source.** In the full-text feed crawler `entry.content[0]` (crawlers/rss_full.py:64) raises on an empty list. That ends the source with `SOURCE_ERROR`; it does not skip the one entry.
- **Blank-line runs keep two newlines.** `re.sub(r'\n{3,}', '\n\n', …)` turns three or more newlines into two, not one.
- **The generic cleaner runs only for Hacker News.** `_clean_jina_generic` is called only at crawlers/api_hackernews.py:175. The list and deep-feed crawlers apply only the newline collapse and their source's rule.
- **Only the bare-date search is limited to the first 2000 characters.** The comment at crawlers/crawl_list.py:206-207 says the bare date is looked for early in the text. The labelled search before it (crawlers/crawl_list.py:202) scans the whole text.
- **A negative `Max_Length` follows Python slicing.** `text[:max_length]` then cuts from the end, so the length bound holds only for `Max_Length >= 0`.
- **The deep-feed crawler can log nothing for a source.** When no entry passes screening it returns early (crawlers/rss_deep.py:60-61), before `SOURCE_DONE` is logged.
- **An empty published key wins.** `entry.get("link", entry.get("id", ""))` and `entry.get("published", entry.get("updated", ""))` (crawlers/rss_full.py:39, 47) fall back only when the key is absent. An empty `link` or `published` therefore takes precedence over `id` or `updated`.

## Left out

- **I/O is not modelled.** Google Sheets calls, the reader service, HTTP fetching and feed parsing are parameters of `Harvest.Env`. Each is a deterministic function of its input.
- **Exceptions inside Sheets calls are not modelled.** Failures inside `upsert_raw_by_url` or `log_event` are left out, because those calls are outside this model. Reading the sources sheet (`read_sources`) is also left out; the sources are an input.
- **Log entries keep only their action, target and status.** Message texts, elapsed times and tracebacks are left out.
- **`Collected_At` is a fixed parameter.** It is the wall-clock timestamp written into each row.
- **`Raw_JSON` is left to `Env.dumps`.** Its contents are a datatype.
- **Concurrency is sequential.** `asyncio.gather` and the reader's semaphore and rate-limit delay are modelled as a sequential loop in input order. The real completion order is not fixed, and it matters for more than the log. New rows are appended in completion order. Two entries of a feed source with the same indexed URL both rewrite that row, so which text survives depends on the order (`RssFull.StoredEntryRewritesIndexedRow`).
- **The per-source cleaning regexes are an opaque search function.** This covers the rule patterns, the `CRAWLLIST_RULES` allow/deny patterns and the generic cleaner's boilerplate patterns. The search finds the leftmost match at or after a position. The slicing, splitting and deleting around each match are modelled exactly. Fixed patterns are modelled concretely: the asset, navigation and date patterns, the relevance keywords, `^http://`, `#.*$`, and the trailing-punctuation trim and junk-title test applied to scanned links. The two link scans themselves are not; see the next line.
- `LinkMerge.ExtractLinks`, `ListCrawl.PageLinks`: the two `re.findall` scans of `extract_links` (core/utils.py:106 and 115) are the parameter `Env.scanLinks`, which the model leaves unconstrained. Only the cleaning and merging around them is modelled, and `LinkMerge.ExtractLinksLaw` holds for any result of the scans.
- **Date parsing is the parser's `Env.parseDate`.** It stands for `dateutil.parser.parse`. Instants are integer seconds. Seoul time is taken as a fixed UTC+9, Korea's offset since 1988. The `Asia/Seoul` zone's earlier history is not modelled: UTC+8:30 in 1954-61 and daylight saving in 1987-88. The offset enters only where the window is built from the clock; testing a date against the window compares instants. So the difference would show only for a clock reading in those years.
- **`extract_title_from_md` is a parameter (`Env.mdTitle`).** Only how its result competes with the list-page or feed title is modelled.
- **Case folding and character classes are ASCII only.** Case-insensitive matching, `str.lower`/`upper`, `\w` and `\d` cover ASCII letters and digits only; Python's `\d` and `\w` also match the digits and letters of other scripts, which the model does not.
- **`extract_urls` is not modelled.** Nothing in the crawler calls it.
- **The SHA-256 function itself is not modelled.** The digest is a parameter returning 64 hex characters; only the id built from it is modelled.
- `Cleaning.Truncate`: the length bound is stated only for a non-negative `max_length`. For a negative one, Python slicing keeps all but the last characters, and the model computes that exactly.
- `UrlIdentity.NormalizeUrl`: "no `#`" is stated only for newline-free URLs, because the code's `#.*$` stops at a newline.
- `Cleaning.ListRule`: the rules follow Python 3.9 and 3.10, where the `(?m)` in the middle of the `nia_aihub` footer pattern (crawlers/crawl_list.py:128) only draws a DeprecationWarning and turns on MULTILINE for the whole pattern. From Python 3.11 `re` rejects a flag that is not at the start of the pattern. There, every `nia_aihub` page that reaches that split would raise, be caught at crawlers/crawl_list.py:154-155, log `JINA_READ_FAIL` and store nothing. That outcome is not modelled.

=== FILE: candidates.dfy ===
/** Candidate article URLs of a list page (`_filter_candidates` in crawlers/crawl_list.py) and the
    host rules of config.py (`CRAWLLIST_RULES`). The file-extension and navigation-word tests are
    modelled concretely; a rule's allow and deny regexes go through the `Finder`. */
module Candidates {
  import opened Wrappers
  import opened Seqs
  import opened Text
  import opened UrlIdentity
  import opened Cleaning

  /** A list-crawl rule: the required host and the allow and deny regexes. */
  datatype Rule = Rule(host: string, allow: seq<string>, deny: seq<string>)

  /** `CRAWLLIST_RULES`. */
  function RuleFor(sourceId: string): Option<Rule> {
    if sourceId == "deepmind_blog" then
      Some(Rule("deepmind.google",
        [@"^https://deepmind\.google/discover/blog/.*",
         @"^https://deepmind\.google/blog/(?!tags/|tag/|topics/|topic/|authors/|author/|search/)[^\/?#]+/?$"],
        [@"^https://deepmind\.google/blog/?$", @"/feed/?$"]))
    else if sourceId == "hf_daily_papers" then
      Some(Rule("huggingface.co",
        [@"^https://huggingface\.co/papers/\d{4}\.\d{5}(?:v\d+)?/?$"],
        [@"^https://huggingface\.co/papers/?$", @"/login", @"/settings"]))
    else if sourceId == "spri_reports" || sourceId == "spri_research" then
      Some(Rule("spri.kr", [@"^https://spri\.kr/posts/view/\d+(?:\?code=[^#]+)?$"], []))
    else if sourceId == "nia_aihub" then
      Some(Rule("www.nia.or.kr", [@"^https://www\.nia\.or\.kr/site/nia_kor/ex/bbs/View\.do\?cbIdx=99953&bcIdx=\d+.*$"], []))
    else None
  }

  // ---------------------------------------------------------------------------------------------
  // The fixed exclusions

  const AssetExtensions: seq<string> := ["jpg", "jpeg", "png", "gif", "webp", "svg", "css", "js", "pdf"]

  /** Where `(\?|#|$)` can match: before '?' or '#', at the end, or before a final newline. */
  predicate ExtensionEnd(u: string, j: nat) {
    j == |u| || (j < |u| && (u[j] == '?' || u[j] == '#' || (j == |u| - 1 && u[j] == '\n')))
  }

  /** `re.search(r'\.(jpg|...|pdf)(\?|#|$)', u, re.IGNORECASE)` finds a match at position `i`
      with extension number `k`. */
  predicate AssetAt(u: string, i: nat, k: nat) {
    k < |AssetExtensions| && i < |u| && u[i] == '.'
    && i + 1 + |AssetExtensions[k]| <= |u|
    && Lower(u[i + 1..i + 1 + |AssetExtensions[k]|]) == AssetExtensions[k]
    && ExtensionEnd(u, i + 1 + |AssetExtensions[k]|)
  }

  predicate IsAsset(u: string) {
    exists i, k :: 0 <= i < |u| && 0 <= k < |AssetExtensions| && AssetAt(u, i, k)
  }

  const NavWords: seq<string> :=
    ["tag", "tags", "category", "categories", "author", "about", "privacy", "terms", "login", "subscribe"]

  /** `re.search(r'/(tag|...|subscribe)\b', u, re.IGNORECASE)` finds a match at position `i`
      with word number `k`. */
  predicate NavAt(u: string, i: nat, k: nat) {
    k < |NavWords| && i < |u| && u[i] == '/'
    && i + 1 + |NavWords[k]| <= |u|
    && Lower(u[i + 1..i + 1 + |NavWords[k]|]) == NavWords[k]
    && Boundary(u, i + 1 + |NavWords[k]|)
  }

  predicate IsNav(u: string) {
    exists i, k :: 0 <= i < |u| && 0 <= k < |NavWords| && NavAt(u, i, k)
  }

  /** Some regex of `rxs` finds a match in `u` (`any(re.search(rx, u, re.I) for rx in rxs)`). */
  predicate AnyMatch(find: Finder, rxs: seq<string>, u: string) {
    exists k :: 0 <= k < |rxs| && find(RuleRegex(rxs[k]), u, 0).Some?
  }

  /** The host a candidate must have: the rule's, when there is a rule with a non-empty host,
      else the list page's. */
  function RequiredHost(rule: Option<Rule>, listUrl: string): string {
    if rule.Some? && rule.value.host != "" then rule.value.host else GetHost(listUrl)
  }

  /** The loop's per-URL test: not an asset, the required host, no navigation word. */
  predicate PassesFixed(rule: Option<Rule>, listUrl: string, u: string) {
    !IsAsset(u) && GetHost(u) == RequiredHost(rule, listUrl) && !IsNav(u)
  }

  /** The rule's deny test; an empty deny list is skipped. */
  predicate PassesDeny(find: Finder, rule: Option<Rule>, u: string) {
    rule.Some? && |rule.value.deny| > 0 ==> !AnyMatch(find, rule.value.deny, u)
  }

  /** The rule's allow test; an empty allow list is skipped. */
  predicate PassesAllow(find: Finder, rule: Option<Rule>, u: string) {
    rule.Some? && |rule.value.allow| > 0 ==> AnyMatch(find, rule.value.allow, u)
  }

  predicate PassesRule(find: Finder, rule: Option<Rule>, u: string) {
    PassesDeny(find, rule, u) && PassesAllow(find, rule, u)
  }

  /** The loop over the URLs, keeping those that pass the fixed test. */
  function FixedStage(rule: Option<Rule>, listUrl: string, urls: seq<string>): (r: seq<string>)
    ensures IsSubseq(r, urls)
    ensures forall i :: 0 <= i < |r| ==> r[i] in urls && PassesFixed(rule, listUrl, r[i])
    ensures forall i :: 0 <= i < |urls| && PassesFixed(rule, listUrl, urls[i]) ==> urls[i] in r
  {
    FilterIsSubseq(u => PassesFixed(rule, listUrl, u), urls);
    Filter(u => PassesFixed(rule, listUrl, u), urls)
  }

  /** The deny comprehension, applied when the rule has deny patterns. */
  function DenyStage(find: Finder, rule: Option<Rule>, xs: seq<string>): (r: seq<string>)
    ensures IsSubseq(r, xs)
    ensures forall i :: 0 <= i < |r| ==> r[i] in xs && PassesDeny(find, rule, r[i])
    ensures forall i :: 0 <= i < |xs| && PassesDeny(find, rule, xs[i]) ==> xs[i] in r
  {
    if rule.Some? && |rule.value.deny| > 0 then
      FilterIsSubseq(u => !AnyMatch(find, rule.value.deny, u), xs);
      Filter(u => !AnyMatch(find, rule.value.deny, u), xs)
    else
      SubseqRefl(xs);
      xs
  }

  /** The allow comprehension, applied when the rule has allow patterns. */
  function AllowStage(find: Finder, rule: Option<Rule>, xs: seq<string>): (r: seq<string>)
    ensures IsSubseq(r, xs)
    ensures forall i :: 0 <= i < |r| ==> r[i] in xs && PassesAllow(find, rule, r[i])
    ensures forall i :: 0 <= i < |xs| && PassesAllow(find, rule, xs[i]) ==> xs[i] in r
  {
    if rule.Some? && |rule.value.allow| > 0 then
      FilterIsSubseq(u => AnyMatch(find, rule.value.allow, u), xs);
      Filter(u => AnyMatch(find, rule.value.allow, u), xs)
    else
      SubseqRefl(xs);
      xs
  }

  /** The three filtering stages in order. */
  function Stages(find: Finder, rule: Option<Rule>, listUrl: string, urls: seq<string>): (r: seq<string>)
    ensures IsSubseq(r, urls)
  {
    var out := FixedStage(rule, listUrl, urls);
    var denied := DenyStage(find, rule, out);
    var allowed := AllowStage(find, rule, denied);
    SubseqTrans(denied, out, urls);
    SubseqTrans(allowed, denied, urls);
    allowed
  }

  /** A URL survives the stages exactly when it is an input that passes every test. */
  lemma StagesMember(find: Finder, rule: Option<Rule>, listUrl: string, urls: seq<string>, u: string)
    ensures u in Stages(find, rule, listUrl, urls) <==>
      u in urls && PassesFixed(rule, listUrl, u) && PassesRule(find, rule, u)
  {
    var out := FixedStage(rule, listUrl, urls);
    var denied := DenyStage(find, rule, out);
    var allowed := AllowStage(find, rule, denied);
    if u in allowed {
      var l :| 0 <= l < |allowed| && allowed[l] == u;
      var k :| 0 <= k < |denied| && denied[k] == u;
      var j :| 0 <= j < |out| && out[j] == u;
    }
    if u in urls && PassesFixed(rule, listUrl, u) && PassesRule(find, rule, u) {
      var i :| 0 <= i < |urls| && urls[i] == u;
      var j :| 0 <= j < |out| && out[j] == u;
      var k :| 0 <= k < |denied| && denied[k] == u;
    }
  }

  /** `_filter_candidates`: the fixed test, then deny, then allow, then de-duplication. The result
      holds exactly the non-empty input URLs that pass every test, once each, in input order. */
  function FilterCandidates(find: Finder, rule: Option<Rule>, listUrl: string, urls: seq<string>): (r: seq<string>)
    ensures NoDups(r) && IsSubseq(r, urls)
    ensures forall u :: u in r <==>
      u != "" && u in urls && PassesFixed(rule, listUrl, u) && PassesRule(find, rule, u)
  {
    var allowed := Stages(find, rule, listUrl, urls);
    var r := UniquePreserveOrder(allowed);
    UniqueIsSubseq(allowed);
    SubseqTrans(r, allowed, urls);
    UniqueMembers(allowed);
    forall u
      ensures u in allowed <==> u in urls && PassesFixed(rule, listUrl, u) && PassesRule(find, rule, u)
    {
      StagesMember(find, rule, listUrl, urls, u);
    }
    r
  }

  /** With a rule that names a host, every candidate has exactly that host, whatever its allow
      patterns say; without one, every candidate has the list page's host. */
  lemma CandidateHost(find: Finder, rule: Option<Rule>, listUrl: string, urls: seq<string>, i: nat)
    requires i < |FilterCandidates(find, rule, listUrl, urls)|
    ensures var c := FilterCandidates(find, rule, listUrl, urls)[i];
      if rule.Some? && rule.value.host != "" then GetHost(c) == rule.value.host else GetHost(c) == GetHost(listUrl)
  {
  }

  /** Filtering the candidates again changes nothing. */
  lemma FilterCandidatesIdempotent(find: Finder, rule: Option<Rule>, listUrl: string, urls: seq<string>)
    ensures var c := FilterCandidates(find, rule, listUrl, urls);
      FilterCandidates(find, rule, listUrl, c) == c
  {
    var c := FilterCandidates(find, rule, listUrl, urls);
    FilterKeepsAll((u: string) => PassesFixed(rule, listUrl, u), c);
    if rule.Some? && |rule.value.deny| > 0 {
      FilterKeepsAll((u: string) => !AnyMatch(find, rule.value.deny, u), c);
    }
    if rule.Some? && |rule.value.allow| > 0 {
      FilterKeepsAll((u: string) => AnyMatch(find, rule.value.allow, u), c);
    }
    UniqueOfDistinct(c);
  }

  /** Both exclusions are case-insensitive: lower-casing a URL never changes whether it is an
      asset or a navigation page. */
  lemma ExclusionsIgnoreCase(u: string)
    ensures IsAsset(Lower(u)) == IsAsset(u)
    ensures IsNav(Lower(u)) == IsNav(u)
  {
    forall i, k | 0 <= i < |u| && 0 <= k < |AssetExtensions|
      ensures AssetAt(Lower(u), i, k) == AssetAt(u, i, k)
    {
      LowerSliceLower(u, i + 1, i + 1 + |AssetExtensions[k]|);
    }
    forall i, k | 0 <= i < |u| && 0 <= k < |NavWords|
      ensures NavAt(Lower(u), i, k) == NavAt(u, i, k)
    {
      LowerSliceLower(u, i + 1, i + 1 + |NavWords[k]|);
    }
  }

  /** Lower-casing a slice of a lower-cased string gives the lower-cased slice. */
  lemma LowerSliceLower(u: string, a: nat, b: nat)
    ensures a <= b <= |u| ==> Lower(Lower(u)[a..b]) == Lower(u[a..b])
  {
    if a <= b <= |u| {
      var x, y := Lower(Lower(u)[a..b]), Lower(u[a..b]);
      assert forall j :: 0 <= j < |x| ==> x[j] == y[j];
    }
  }

  /** An image URL with a query string is an asset, whatever the extension's case. */
  lemma AssetExample()
    ensures IsAsset("https://a.kr/x.PNG?w=1")
  {
    var u := "https://a.kr/x.PNG?w=1";
    assert u[15..18] == "PNG";
    assert AssetExtensions[2] == "png";
    assert AssetAt(u, 14, 2);
  }

  /** A `/tags/` page is a navigation page. */
  lemma NavExample()
    ensures IsNav("https://a.kr/tags/ai")
  {
    var v := "https://a.kr/tags/ai";
    assert v[13..17] == "tags";
    assert NavWords[1] == "tags";
    assert NavAt(v, 12, 1);
  }

  const Tagged: string := "https://a.kr/tagged"

  /** A nav word must end at a word boundary: `/tagged` is not a navigation page. */
  lemma NotNavExample()
    ensures !IsNav(Tagged)
  {
    forall i, k | 0 <= i < |Tagged| && 0 <= k < |NavWords|
      ensures !NavAt(Tagged, i, k)
    {
      if Tagged[i] == '/' && i + 1 + |NavWords[k]| <= |Tagged| {
        TaggedSlashes(i);
        if i == 6 {
          TaggedAt6(k);
        } else if i == 7 {
          TaggedAt7(k);
        } else {
          TaggedAt12(k);
        }
      }
    }
  }

  lemma TaggedSlashes(i: nat)
    requires i < |Tagged| && Tagged[i] == '/'
    ensures i == 6 || i == 7 || i == 12
  {
  }

  /** After "https:/" comes '/', which starts no nav word. */
  lemma TaggedAt6(k: nat)
    requires k < |NavWords|
    ensures !NavAt(Tagged, 6, k)
  {
    if 7 + |NavWords[k]| <= |Tagged| {
      assert Tagged[7] == '/' && NavWords[k][0] != '/';
      Mismatch(Tagged, 6, k, 0);
    }
  }

  /** After "https://" comes "a.", and no nav word has '.' second. */
  lemma TaggedAt7(k: nat)
    requires k < |NavWords|
    ensures !NavAt(Tagged, 7, k)
  {
    if 8 + |NavWords[k]| <= |Tagged| {
      assert Tagged[9] == '.' && NavWords[k][1] != '.';
      Mismatch(Tagged, 7, k, 1);
    }
  }

  /** After "https://a.kr/" comes "tagged", which is "tag" followed by a word character. */
  lemma TaggedAt12(k: nat)
    requires k < |NavWords|
    ensures !NavAt(Tagged, 12, k)
  {
    if 13 + |NavWords[k]| <= |Tagged| {
      if k == 0 {
        assert Tagged[15] == 'g' && Tagged[16] == 'g';
        assert !Boundary(Tagged, 16);
      } else if k == 1 {
        Mismatch(Tagged, 12, k, 3);
      } else if k == 7 {
        Mismatch(Tagged, 12, k, 1);
      } else {
        Mismatch(Tagged, 12, k, 0);
      }
    }
  }

  /** One character that differs from the nav word rules out a match there. */
  lemma Mismatch(u: string, i: nat, k: nat, p: nat)
    requires k < |NavWords| && i + 1 + |NavWords[k]| <= |u| && p < |NavWords[k]|
    requires LowerChar(u[i + 1 + p]) != NavWords[k][p]
    ensures !NavAt(u, i, k)
  {
    var t := u[i + 1..i + 1 + |NavWords[k]|];
    assert Lower(t)[p] == LowerChar(t[p]);
  }
}

=== FILE: cleaning.dfy ===
/** Text cleaning shared by the crawlers: the per-source slicing rules of the list crawler
    (crawlers/crawl_list.py) and the deep feed crawler (crawlers/rss_deep.py), the generic cleaner
    of the Hacker News crawler (crawlers/api_hackernews.py), and the truncate-then-reject rule all
    four crawlers apply before emitting a record.

    The cleaning regexes are not interpreted: a `Finder` supplies the leftmost match of a named
    pattern at or after a position. The string surgery around each match is modelled exactly. */
module Cleaning {
  import opened Wrappers
  import opened Seqs
  import opened Text

  /** Every cleaning regex, named after its use. `RuleRegex` holds an allow/deny pattern of a
      list-crawl rule. */
  datatype Pattern =
    // crawl_list per-source rules
    | HfAbstractUnderlined | HfAbstractLine | HfFooter
    | SpriHeader | SpriDownloadIcons | SpriPdfDownload | SpriHtmlView | SpriShareOpen
    | SpriShareListItem | SpriShareLink | SpriFontSize
    | DeepmindShareImage | DeepmindCopyLink
    | NiaViews | NiaFooter
    // rss_deep per-source rules
    | HfBlogAnchor | NvidiaShare | NvidiaBody | GeekBullet | GeekFooter | GeekSiteGuide
    | OpenaiShare | OpenaiParagraph | OpenaiFooter | KisaHeader | KisaCopyright | KisaLoading
    // the generic cleaner
    | SkipToContent | NavWordLine | ImageLine | NavLinkLine | CookieBanner | FooterLine
    // list-crawl allow/deny rules
    | RuleRegex(rx: string)

  /** The half-open character range `[start, end)` of a match. */
  datatype Span = Span(start: nat, end: nat)

  ghost predicate ValidMatch(m: Option<Span>, s: string, from: nat) {
    m.Some? ==> from <= m.value.start < m.value.end <= |s|
  }

  /** A regex engine: the leftmost match of a pattern in `s` starting at or after `from`. None of
      the patterns used can match the empty string. */
  type Finder = f: (Pattern, string, nat) -> Option<Span> | forall p, s, from :: ValidMatch(f(p, s, from), s, from)
    witness (p: Pattern, s: string, from: nat) => None

  // ---------------------------------------------------------------------------------------------
  // Steps

  /** Where the kept text starts relative to the match: at its start (`text[m.start():]`) or
      after its end (`re.split(...)[1]`). */
  datatype Anchor = MatchStart | MatchEnd

  /** One alternative of a keep rule: on a match, `lead` followed by the stripped kept text. */
  datatype Keep = Keep(p: Pattern, at: Anchor, lead: string)

  /** One cleaning statement of the source.
      - `KeepFirstOf`: the first alternative whose pattern matches decides what is kept; with no
        match the text is unchanged (an `if m:` / `if len(parts) > 1:` chain).
      - `CutBefore`: `re.split(p, text, maxsplit=1)[0].strip()`.
      - `KeepAfterOrAll`: `re.split(p, text, maxsplit=1)[-1].strip()`.
      - `Delete`: `re.sub(p, '', text)`.
      - `Collapse`: `re.sub(r'\n{3,}', '\n\n', text).strip()`. */
  datatype Step =
    | KeepFirstOf(alts: seq<Keep>)
    | CutBefore(p: Pattern)
    | KeepAfterOrAll(p: Pattern)
    | Delete(p: Pattern)
    | Collapse

  /** `re.sub(p, '', s)` from position `from` on: every match is removed, scanning resumes at the
      end of each match. */
  function DeleteFrom(find: Finder, p: Pattern, s: string, from: nat): (r: string)
    requires from <= |s|
    ensures |r| <= |s| - from
    decreases |s| - from
  {
    match find(p, s, from)
    case None => s[from..]
    case Some(m) => s[from..m.start] + DeleteFrom(find, p, s, m.end)
  }

  function KeepAt(s: string, m: Span, at: Anchor): (r: string)
    requires m.start < m.end <= |s|
    ensures IsInfix(r, s)
  {
    var pos := if at == MatchStart then m.start else m.end;
    InfixSlice(s, pos, |s|);
    var r := Strip(s[pos..]);
    StripIsInfix(s[pos..]);
    InfixTrans(r, s[pos..], s);
    r
  }

  function ApplyKeep(find: Finder, alts: seq<Keep>, s: string): (r: string)
  {
    if |alts| == 0 then s
    else
      match find(alts[0].p, s, 0)
      case Some(m) => alts[0].lead + KeepAt(s, m, alts[0].at)
      case None => ApplyKeep(find, alts[1..], s)
  }

  function Apply(find: Finder, step: Step, s: string): (r: string)
  {
    match step
    case KeepFirstOf(alts) => ApplyKeep(find, alts, s)
    case CutBefore(p) =>
      (match find(p, s, 0)
       case Some(m) => Strip(s[..m.start])
       case None => Strip(s))
    case KeepAfterOrAll(p) =>
      (match find(p, s, 0)
       case Some(m) => Strip(s[m.end..])
       case None => Strip(s))
    case Delete(p) => DeleteFrom(find, p, s, 0)
    case Collapse => CollapseAndStrip(s)
  }

  /** The statements of a rule, in order. */
  function Run(find: Finder, steps: seq<Step>, s: string): (r: string)
    decreases |steps|
  {
    if |steps| == 0 then s else Run(find, steps[1..], Apply(find, steps[0], s))
  }

  /** A step that only keeps a contiguous piece of the text: no lead text, no deletion. */
  predicate Slicing(step: Step) {
    match step
    case KeepFirstOf(alts) => forall i :: 0 <= i < |alts| ==> alts[i].lead == ""
    case CutBefore(_) => true
    case KeepAfterOrAll(_) => true
    case Delete(_) => false
    case Collapse => false
  }

  lemma {:induction false} ApplyKeepInfix(find: Finder, alts: seq<Keep>, s: string)
    requires forall i :: 0 <= i < |alts| ==> alts[i].lead == ""
    ensures IsInfix(ApplyKeep(find, alts, s), s)
    decreases |alts|
  {
    if |alts| == 0 {
      InfixRefl(s);
    } else {
      match find(alts[0].p, s, 0)
      case Some(m) =>
        assert "" + KeepAt(s, m, alts[0].at) == KeepAt(s, m, alts[0].at);
      case None =>
        ApplyKeepInfix(find, alts[1..], s);
    }
  }

  /** A slicing step keeps a contiguous piece of its input. */
  lemma SlicingInfix(find: Finder, step: Step, s: string)
    requires Slicing(step)
    ensures IsInfix(Apply(find, step, s), s)
  {
    match step {
      case KeepFirstOf(alts) =>
        ApplyKeepInfix(find, alts, s);
      case CutBefore(p) =>
        match find(p, s, 0) {
          case Some(m) =>
            StripIsInfix(s[..m.start]);
            InfixSlice(s, 0, m.start);
            InfixTrans(Strip(s[..m.start]), s[..m.start], s);
          case None =>
            StripIsInfix(s);
        }
      case KeepAfterOrAll(p) =>
        match find(p, s, 0) {
          case Some(m) =>
            StripIsInfix(s[m.end..]);
            InfixSlice(s, m.end, |s|);
            InfixTrans(Strip(s[m.end..]), s[m.end..], s);
          case None =>
            StripIsInfix(s);
        }
    }
  }

  /** A rule made only of slicing steps keeps a contiguous piece of its input. */
  lemma {:induction false} RunSlicingInfix(find: Finder, steps: seq<Step>, s: string)
    requires forall i :: 0 <= i < |steps| ==> Slicing(steps[i])
    ensures IsInfix(Run(find, steps, s), s)
    decreases |steps|
  {
    if |steps| == 0 {
      InfixRefl(s);
    } else {
      var t := Apply(find, steps[0], s);
      SlicingInfix(find, steps[0], s);
      RunSlicingInfix(find, steps[1..], t);
      InfixTrans(Run(find, steps[1..], t), t, s);
    }
  }

  // ---------------------------------------------------------------------------------------------
  // Per-source rules

  /** The source-specific cleaning of the list crawler, applied after the newline collapse. */
  function ListRule(sourceId: string): seq<Step> {
    if sourceId == "hf_daily_papers" then
      [ KeepFirstOf([Keep(HfAbstractUnderlined, MatchEnd, "Abstract\n--------\n"),
                     Keep(HfAbstractLine, MatchEnd, "Abstract\n\n")]),
        CutBefore(HfFooter) ]
    else if sourceId == "spri_reports" || sourceId == "spri_research" then
      [ KeepFirstOf([Keep(SpriHeader, MatchEnd, "")]),
        Delete(SpriDownloadIcons), Delete(SpriPdfDownload), Delete(SpriHtmlView),
        KeepAfterOrAll(SpriShareOpen),
        Delete(SpriShareListItem), Delete(SpriShareLink),
        CutBefore(SpriFontSize),
        Collapse ]
    else if sourceId == "deepmind_blog" then
      [ KeepFirstOf([Keep(DeepmindShareImage, MatchEnd, ""), Keep(DeepmindCopyLink, MatchEnd, "")]) ]
    else if sourceId == "nia_aihub" then
      [ KeepFirstOf([Keep(NiaViews, MatchEnd, "")]), CutBefore(NiaFooter) ]
    else []
  }

  /** The source-specific cleaning of the deep feed crawler, applied after the newline collapse. */
  function DeepRule(sourceId: string): seq<Step> {
    if sourceId == "hf_blog" then
      [ KeepFirstOf([Keep(HfBlogAnchor, MatchStart, "")]) ]
    else if sourceId == "nvidia_dev_blog" then
      [ KeepFirstOf([Keep(NvidiaShare, MatchEnd, ""), Keep(NvidiaBody, MatchStart, "")]) ]
    else if sourceId == "geeknews" then
      [ KeepFirstOf([Keep(GeekBullet, MatchStart, "")]), CutBefore(GeekFooter), CutBefore(GeekSiteGuide) ]
    else if sourceId == "openai_news" then
      [ KeepFirstOf([Keep(OpenaiShare, MatchEnd, ""), Keep(OpenaiParagraph, MatchStart, "")]),
        CutBefore(OpenaiFooter) ]
    else if sourceId == "kisa_notice" then
      [ KeepFirstOf([Keep(KisaHeader, MatchEnd, "")]), CutBefore(KisaCopyright), CutBefore(KisaLoading) ]
    else []
  }

  predicate IsDeepNamed(sourceId: string) {
    sourceId in {"hf_blog", "nvidia_dev_blog", "geeknews", "openai_news", "kisa_notice"}
  }

  /** The deep feed crawler's text: newline collapse and strip, then the source's rule. */
  function DeepClean(find: Finder, sourceId: string, md: string): (r: string)
  {
    Run(find, DeepRule(sourceId), CollapseAndStrip(md))
  }

  /** A deep feed source outside the five named ones gets only the newline collapse and strip;
      the five named rules only cut the text at a first match or keep from one, so the result
      is a contiguous piece of the collapsed text. */
  lemma DeepCleanShape(find: Finder, sourceId: string, md: string)
    ensures !IsDeepNamed(sourceId) ==> DeepClean(find, sourceId, md) == CollapseAndStrip(md)
    ensures IsInfix(DeepClean(find, sourceId, md), CollapseAndStrip(md))
  {
    var steps := DeepRule(sourceId);
    assert forall i :: 0 <= i < |steps| ==> Slicing(steps[i]);
    RunSlicingInfix(find, steps, CollapseAndStrip(md));
  }

  /** The list crawler's text: newline collapse and strip, then the source's rule. */
  function ListClean(find: Finder, sourceId: string, md: string): (r: string)
  {
    Run(find, ListRule(sourceId), CollapseAndStrip(md))
  }

  predicate IsListNamed(sourceId: string) {
    sourceId in {"hf_daily_papers", "spri_reports", "spri_research", "deepmind_blog", "nia_aihub"}
  }

  /** A list source outside the named ones gets only the newline collapse and strip, so its text
      has no run of three newlines and no surrounding whitespace; the deepmind and nia rules only
      slice. */
  lemma ListCleanShape(find: Finder, sourceId: string, md: string)
    ensures !IsListNamed(sourceId) ==> ListClean(find, sourceId, md) == CollapseAndStrip(md)
    ensures sourceId == "deepmind_blog" || sourceId == "nia_aihub" ==>
      IsInfix(ListClean(find, sourceId, md), CollapseAndStrip(md))
  {
    var steps := ListRule(sourceId);
    if sourceId == "deepmind_blog" || sourceId == "nia_aihub" {
      assert forall i :: 0 <= i < |steps| ==> Slicing(steps[i]);
      RunSlicingInfix(find, steps, CollapseAndStrip(md));
    }
  }

  // ---------------------------------------------------------------------------------------------
  // The generic cleaner

  /** `re.sub(r'^Published Time:.*\n+', '', text, count=1)` without MULTILINE: when the text starts
      with "Published Time:" and its first line is followed by a newline, the first line and the
      whole newline run after it are removed; otherwise nothing changes. */
  function DropPublishedHeader(s: string): (r: string)
    ensures |r| <= |s|
    ensures r == s[|s| - |r|..]
    ensures !StartsWith(s, "Published Time:") || '\n' !in s ==> r == s
    ensures StartsWith(s, "Published Time:") && '\n' in s ==>
      var j := IndexOf(s, '\n');
      |r| < |s| - j && (|r| == 0 || r[0] != '\n')
      && forall k :: j <= k < |s| - |r| ==> s[k] == '\n'
  {
    if !StartsWith(s, "Published Time:") then s
    else
      var j := IndexOf(s, '\n');
      IndexOfIn(s, '\n');
      if j == |s| then s
      else
        SkipNewlineRun(s, j);
        s[j..][NewlineRun(s[j..])..]
  }

  /** What is left of `s` after the newline run that starts at `j`: a suffix shorter than `s[j..]`,
      not starting with a newline, with only newlines between `j` and it. */
  lemma SkipNewlineRun(s: string, j: nat)
    requires j < |s| && s[j] == '\n'
    ensures var r := s[j..][NewlineRun(s[j..])..];
      && |r| < |s| - j && r == s[|s| - |r|..] && (|r| == 0 || r[0] != '\n')
      && forall k :: j <= k < |s| - |r| ==> s[k] == '\n'
  {
    var rest := s[j..];
    var r := rest[NewlineRun(rest)..];
    assert forall k :: j <= k < |s| - |r| ==> s[k] == rest[k - j];
  }

  /** The boilerplate removals of `_clean_jina_generic`, in order. */
  const GenericDeletes: seq<Step> :=
    [Delete(SkipToContent), Delete(NavWordLine), Delete(ImageLine), Delete(NavLinkLine),
     Delete(CookieBanner), Delete(FooterLine)]

  /** `_clean_jina_generic`: the header removal, the six boilerplate removals, then the newline
      collapse and strip. */
  function CleanGeneric(find: Finder, md: string): (r: string)
    ensures IsStripped(r) && NoTripleNewline(r)
    ensures |r| <= |md|
  {
    var h := DropPublishedHeader(md);
    var d := Run(find, GenericDeletes, h);
    GenericDeletesShorter(find, h);
    CollapseAndStrip(d)
  }

  lemma GenericDeletesShorter(find: Finder, s: string)
    ensures |Run(find, GenericDeletes, s)| <= |s|
  {
    assert forall i :: 0 <= i < |GenericDeletes| ==> GenericDeletes[i].Delete?;
    RunDeletesShorter(find, GenericDeletes, s);
  }

  /** Deletion steps never lengthen the text. */
  lemma {:induction false} RunDeletesShorter(find: Finder, steps: seq<Step>, s: string)
    requires forall i :: 0 <= i < |steps| ==> steps[i].Delete?
    ensures |Run(find, steps, s)| <= |s|
    decreases |steps|
  {
    if |steps| > 0 {
      RunDeletesShorter(find, steps[1..], Apply(find, steps[0], s));
    }
  }

  /** Exactly the header line and the newline run after it go, and only once: whatever follows,
      another header line included, is kept as it is. */
  lemma PublishedHeaderOnce(a: string, nl: string, b: string)
    requires '\n' !in a && |nl| > 0 && (forall i :: 0 <= i < |nl| ==> nl[i] == '\n')
    requires |b| == 0 || b[0] != '\n'
    ensures DropPublishedHeader("Published Time:" + a + nl + b) == b
  {
    var h := "Published Time:";
    var s := h + a + nl + b;
    HeaderLineEnd(h + a, nl + b);
    assert s == (h + a) + (nl + b);
    assert s[..|h|] == h;
    NewlineRunOf(nl, b);
    assert (nl + b)[|nl|..] == b;
  }

  /** The first newline of `a + rest`, with `a` newline-free and `rest` starting with one, ends `a`. */
  lemma HeaderLineEnd(a: string, rest: string)
    requires '\n' !in a && |rest| > 0 && rest[0] == '\n'
    ensures IndexOf(a + rest, '\n') == |a| && (a + rest)[|a|..] == rest
  {
    var s := a + rest;
    assert forall k :: 0 <= k < |a| ==> s[k] == a[k];
    assert s[|a|] == '\n';
  }

  /** The newline run of `nl + b` is `nl` when `b` does not start with a newline. */
  lemma NewlineRunOf(nl: string, b: string)
    requires forall i :: 0 <= i < |nl| ==> nl[i] == '\n'
    requires |b| == 0 || b[0] != '\n'
    ensures NewlineRun(nl + b) == |nl|
  {
    var rest := nl + b;
    var k := NewlineRun(rest);
    assert forall i :: 0 <= i < |nl| ==> rest[i] == nl[i];
    assert |nl| < |rest| ==> rest[|nl|] == b[0];
  }

  // ---------------------------------------------------------------------------------------------
  // Truncate, then reject short text

  /** `config.MIN_TEXT_LEN`. */
  const MinTextLen: nat := 120

  /** The cut marker of the list, deep feed and Hacker News crawlers. */
  const NewlineMarker: string := "\n...[Max_Length cut]"
  /** The cut marker of the full-text feed crawler. */
  const SpaceMarker: string := " ...[Max_Length cut]"

  /** `if len(text) > max_length: text = text[:max_length] + marker`. A negative `max_length`
      always cuts, dropping that many characters from the end as Python slicing does. */
  function Truncate(text: string, maxLength: int, marker: string): (r: string)
    ensures |text| > maxLength ==> r == PySliceTo(text, maxLength) + marker
    ensures |text| <= maxLength ==> r == text
    ensures maxLength >= 0 ==> |r| <= maxLength + |marker|
    ensures maxLength >= 0 ==> StartsWith(r, text[..if |text| < maxLength then |text| else maxLength])
  {
    if |text| > maxLength then PySliceTo(text, maxLength) + marker else text
  }

  /** The text that is emitted, or nothing when the truncated text is under `MIN_TEXT_LEN`. */
  function TruncateAndCheck(text: string, maxLength: int, marker: string): (r: Option<string>)
    ensures r.Some? <==> |Truncate(text, maxLength, marker)| >= MinTextLen
    ensures r.Some? ==> r.value == Truncate(text, maxLength, marker)
  {
    var t := Truncate(text, maxLength, marker);
    if |t| < MinTextLen then None else Some(t)
  }

  /** Both markers are 20 characters long. */
  lemma MarkerLengths()
    ensures |NewlineMarker| == 20 && |SpaceMarker| == 20
  {
  }

  /** Emitted text is never under `MIN_TEXT_LEN` and, for a non-negative `max_length`, at most
      `max_length + 20` characters; below a `max_length` of 100 nothing is ever emitted. */
  lemma EmittedBounds(text: string, maxLength: int, marker: string)
    requires |marker| == 20
    ensures var r := TruncateAndCheck(text, maxLength, marker);
      r.Some? ==> |r.value| >= MinTextLen && (maxLength >= 0 ==> |r.value| <= maxLength + 20)
    ensures 0 <= maxLength < 100 ==> TruncateAndCheck(text, maxLength, marker).None?
  {
  }
}

=== FILE: crawl_run.dfy ===
/** One crawler run (main.py): the collection window is fixed, the target sources are selected, the
    raw-data index is built once, and the source loop runs with the four crawlers of
    `crawler_map`. Every source sees the same index. */
module CrawlRun {
  import opened Wrappers
  import opened TimeWindow
  import opened Sheet
  import opened Harvest
  import opened Selection
  import opened Dispatch
  import RssFull
  import RssDeep
  import ListCrawl
  import HackerNews

  /** The crawler `crawler_map` names for the kind; every crawler only appends to the log. */
  function CrawlWith(k: Kind, env: Env, s: Source, idx: RawIndex, w: Window, st: State): (r: Crawled)
    ensures Extends(st, r)
  {
    match k
    case FullFeed => RssFull.Crawl(env, s, idx, w, st)
    case DeepFeed => RssDeep.Crawl(env, s, idx, w, st)
    case ListPage => ListCrawl.Crawl(env, s, idx, w, st)
    case HackerNewsApi => HackerNews.Crawl(env, s, idx, w, st)
  }

  /** `main`: a selection error escapes with nothing done; no targets, or a sheet the index cannot
      be built from, end the run with nothing done; otherwise the source loop runs. */
  function Run(env: Env, sources: seq<Source>, now: int, st: State): (r: Crawled)
    ensures (exists i :: 0 <= i < |sources| && BreaksSelection(sources[i])) <==> r == Escaped(st) && Targets(sources).None?
    ensures Targets(sources) == Some([]) ==> r == Finished(st)
    ensures Targets(sources).Some? && BuildIndex(st.grid).Failure? ==> r == Finished(st)
    ensures Extends(st, r)
  {
    var w := CollectionWindow(now);
    match Targets(sources)
    case None => Escaped(st)
    case Some(ts) =>
      if |ts| == 0 then Finished(st)
      else
        match BuildIndex(st.grid)
        case Failure(_) => Finished(st)
        case Success(idx) =>
          var crawl := (k: Kind, s: Source, st0: State) => CrawlWith(k, env, s, idx, w, st0);
          Sources(crawl, ts, st)
  }
}

=== FILE: dispatch.dfy ===
/** The source loop of a crawler run (main.py): each target source is handed to the crawler its
    fetch type names, one source after the other, and a source of unknown fetch type is passed
    over. The crawlers themselves are a parameter here; `CrawlRun` supplies the four of
    `crawler_map`. */
module Dispatch {
  import opened Wrappers
  import opened Seqs
  import opened Text
  import opened Harvest

  /** The crawlers of `crawler_map`. */
  datatype Kind = FullFeed | DeepFeed | ListPage | HackerNewsApi

  /** `crawler_map.get(str(source.get("Fetch_Type", "")).strip().upper())`. */
  function KindOf(s: Source): (r: Option<Kind>)
    ensures r.Some? <==> Upper(Strip(s.fetchType.GetOr(""))) in {"RSS_FULL", "RSS_DEEP", "CRAWL_LIST", "API"}
    ensures r == Some(FullFeed) <==> Upper(Strip(s.fetchType.GetOr(""))) == "RSS_FULL"
    ensures r == Some(DeepFeed) <==> Upper(Strip(s.fetchType.GetOr(""))) == "RSS_DEEP"
    ensures r == Some(ListPage) <==> Upper(Strip(s.fetchType.GetOr(""))) == "CRAWL_LIST"
    ensures r == Some(HackerNewsApi) <==> Upper(Strip(s.fetchType.GetOr(""))) == "API"
  {
    var t := Upper(Strip(s.fetchType.GetOr("")));
    if t == "RSS_FULL" then Some(FullFeed)
    else if t == "RSS_DEEP" then Some(DeepFeed)
    else if t == "CRAWL_LIST" then Some(ListPage)
    else if t == "API" then Some(HackerNewsApi)
    else None
  }

  /** A fetch type `crawler_map` knows. */
  predicate Known(s: Source) {
    KindOf(s).Some?
  }

  /** The crawl of one source by the crawler of a kind, from a state. */
  type Crawler = (Kind, Source, State) -> Crawled

  /** The source loop. An exception leaving a crawler ends the run with the state it carries; when
      every crawler only appends to the log, so does the loop. */
  function Sources(crawl: Crawler, ts: seq<Source>, st: State): (r: Crawled)
    ensures (forall k, s, st0 :: Extends(st0, crawl(k, s, st0))) ==> Extends(st, r)
    ensures (forall i :: 0 <= i < |ts| ==> !Known(ts[i])) ==> r == Finished(st)
    decreases |ts|
  {
    if |ts| == 0 then Finished(st)
    else
      match KindOf(ts[0])
      case None => Sources(crawl, ts[1..], st)
      case Some(k) =>
        var c := crawl(k, ts[0], st);
        if c.Escaped? then c
        else
          var r := Sources(crawl, ts[1..], c.st);
          assert Extends(st, c) && Extends(c.st, r) ==> Extends(st, r) by {
            if Extends(st, c) && Extends(c.st, r) {
              ExtendsTrans(st, c.st, r);
            }
          }
          r
  }

  /** Sources of unknown fetch type change nothing: the loop over all targets ends as the loop
      over those with a known fetch type does. */
  lemma {:induction false} UnknownKindsIgnored(crawl: Crawler, ts: seq<Source>, st: State)
    ensures Sources(crawl, ts, st) == Sources(crawl, Filter(Known, ts), st)
    decreases |ts|
  {
    if |ts| > 0 {
      var rest := ts[1..];
      FilterCons(Known, ts);
      var f := Filter(Known, rest);
      if !Known(ts[0]) {
        UnknownKindsIgnored(crawl, rest, st);
      } else {
        var c := crawl(KindOf(ts[0]).value, ts[0], st);
        assert ([ts[0]] + f)[1..] == f;
        if c.Finished? {
          UnknownKindsIgnored(crawl, rest, c.st);
        }
      }
    }
  }
}

=== FILE: feed_entries.dfy ===
/** What the two feed crawlers (crawlers/rss_full.py and crawlers/rss_deep.py) do alike with a feed
    entry before its text is looked at: pick its link and its date text, and screen it against the
    window. */
module FeedEntries {
  import opened Wrappers
  import opened Seqs
  import opened TimeWindow
  import opened UrlIdentity
  import opened Harvest

  /** `entry.get("link", entry.get("id", ""))`: the id is used only when there is no link key, so
      an empty link is not replaced by the id. */
  function EntryLink(e: Entry): (r: string)
    ensures e.link.Some? ==> r == e.link.value
    ensures e.link.None? && e.id.Some? ==> r == e.id.value
    ensures e.link.None? && e.id.None? ==> r == ""
  {
    match e.link
    case Some(l) => l
    case None => e.id.GetOr("")
  }

  /** `entry.get("published", entry.get("updated", ""))`, with the same precedence. */
  function EntryDateText(e: Entry): (r: string)
    ensures e.published.Some? ==> r == e.published.value
    ensures e.published.None? && e.updated.Some? ==> r == e.updated.value
    ensures e.published.None? && e.updated.None? ==> r == ""
  {
    match e.published
    case Some(p) => p
    case None => e.updated.GetOr("")
  }

  /** The verdict on one entry: skipped, or kept, with a warning when it has no usable date. */
  datatype Verdict = Skip | Keep(warn: bool)

  /** The screening loop body: an entry without a link is skipped; a dated entry is kept only
      inside the window; an undated entry is kept with a warning. */
  function Screen(env: Env, w: Window, e: Entry): (v: Verdict)
    ensures v.Keep? <==>
      (EntryLink(e) != ""
       && (ParseDateRobust(env.parseDate, EntryDateText(e)).None?
           || IsWithinWindow(ParseDateRobust(env.parseDate, EntryDateText(e)), w)))
    ensures v.Keep? ==> (v.warn <==> ParseDateRobust(env.parseDate, EntryDateText(e)).None?)
  {
    if EntryLink(e) == "" then Skip
    else
      var pd := ParseDateRobust(env.parseDate, EntryDateText(e));
      if pd.None? then Keep(true)
      else if IsWithinWindow(pd, w) then Keep(false)
      else Skip
  }

  /** The row url of an entry. */
  function EntryUrl(e: Entry): string {
    NormalizeUrl(EntryLink(e))
  }

  /** The log entry of the warning for a kept undated entry. */
  function WarnEntry(env: Env, e: Entry): LogEntry {
    LogEntry("ITEM_NO_DATE_WARN", MakeItemUuid(env.digest, EntryUrl(e)), "WARN")
  }

  /** The warning logged for a kept undated entry. */
  function Warn(env: Env, st: State, e: Entry): (r: State)
    ensures r.grid == st.grid
    ensures r.log == st.log + [LogEntry("ITEM_NO_DATE_WARN", MakeItemUuid(env.digest, EntryUrl(e)), "WARN")]
  {
    Log(st, "ITEM_NO_DATE_WARN", MakeItemUuid(env.digest, EntryUrl(e)), "WARN")
  }

  /** The warning screening `e` owes: one when it is kept without a usable date, else none. */
  function Owed(env: Env, w: Window, e: Entry): seq<LogEntry> {
    if Screen(env, w, e) == Keep(true) then [WarnEntry(env, e)] else []
  }

  /** The warnings screening `es` owes, as a reference: one per entry kept without a usable
      date, in feed order. */
  function Warns(env: Env, w: Window, es: seq<Entry>): seq<LogEntry>
    decreases |es|
  {
    if |es| == 0 then [] else Owed(env, w, es[0]) + Warns(env, w, es[1..])
  }

  /** Screening one more entry adds its warning, if it owes one, at the end. */
  lemma {:induction false} WarnsSnoc(env: Env, w: Window, es: seq<Entry>, e: Entry)
    ensures Warns(env, w, es + [e]) == Warns(env, w, es) + Owed(env, w, e)
    decreases |es|
  {
    if |es| > 0 {
      SnocTail(es, e);
      WarnsSnoc(env, w, es[1..], e);
      AppendAssoc(Owed(env, w, es[0]), Warns(env, w, es[1..]), Owed(env, w, e));
    } else {
      assert es + [e] == [e];
    }
  }

  /** Logging the warning, or not, only appends to the log. */
  lemma WarnExtends(env: Env, st: State, e: Entry, warn: bool)
    ensures Extends(st, Finished(if warn then Warn(env, st, e) else st))
  {
    if warn {
      assert Warn(env, st, e).log[..|st.log|] == st.log;
    }
  }

  /** An entry whose published key holds text the parser rejects is kept with a warning even when
      its updated date is inside the window: the updated date is only read when there is no
      published key. */
  lemma PublishedShadowsUpdated(env: Env, w: Window, e: Entry)
    requires e.link.Some? && e.link.value != ""
    requires e.published == Some("")
    ensures Screen(env, w, e) == Keep(true)
  {
  }
}

=== FILE: hackernews.dfy ===
/** The Hacker News crawler (crawlers/api_hackernews.py): the first 200 top stories are fetched,
    the acceptable ones are kept up to 30, and each kept story whose normalized url the index does
    not know is read, cleaned, truncated and stored. */
module HackerNews {
  import opened Wrappers
  import opened Seqs
  import opened Text
  import opened TimeWindow
  import opened UrlIdentity
  import opened Cleaning
  import opened Sheet
  import opened Relevance
  import opened Harvest

  /** `MAX_ITEMS_PER_SOURCE`. */
  const MaxItems: nat := 30
  /** How many top story ids are looked at. */
  const MaxScanned: nat := 200
  const DefaultMinScore: int := 150
  const DefaultMaxLength: int := 4000

  /** The tests of the story loop, in the source's order: an item of type "story", a non-zero
      time inside the window, a score of at least `minScore`, an external url, a relevant title. */
  predicate Acceptable(s: Option<Story>, w: Window, minScore: int) {
    && s.Some? && s.value.kind == Some("story")
    && s.value.time != 0 && IsWithinWindow(Some(s.value.time), w)
    && s.value.score >= minScore
    && s.value.url != ""
    && IsRelevant(s.value.title)
  }

  /** The stories of `xs` that pass `ok`, in order. */
  function Acceptables(ok: Option<Story> -> bool, xs: seq<Option<Story>>): (r: seq<Story>)
    ensures |r| <= |xs|
  {
    if |xs| == 0 then []
    else
      var init := Acceptables(ok, xs[..|xs| - 1]);
      var x := xs[|xs| - 1];
      if ok(x) && x.Some? then init + [x.value] else init
  }

  /** The kept stories are exactly the passing entries. */
  lemma {:induction false} AcceptablesExact(ok: Option<Story> -> bool, xs: seq<Option<Story>>)
    ensures var r := Acceptables(ok, xs);
      && (forall k :: 0 <= k < |r| ==> ok(Some(r[k])) && Some(r[k]) in xs)
      && (forall j :: 0 <= j < |xs| && ok(xs[j]) && xs[j].Some? ==> xs[j].value in r)
  {
    if |xs| > 0 {
      var ys := xs[..|xs| - 1];
      AcceptablesExact(ok, ys);
      assert forall j :: 0 <= j < |ys| ==> ys[j] == xs[j];
      assert forall y :: y in ys ==> y in xs;
    }
  }

  /** Stories as the items they were read from. */
  function Wrapped(r: seq<Story>): (ws: seq<Option<Story>>)
    ensures |ws| == |r| && forall k :: 0 <= k < |r| ==> ws[k] == Some(r[k])
  {
    seq(|r|, k requires 0 <= k < |r| => Some(r[k]))
  }

  /** The kept stories keep the order of the items they come from. */
  lemma {:induction false} AcceptablesInOrder(ok: Option<Story> -> bool, xs: seq<Option<Story>>)
    ensures IsSubseq(Wrapped(Acceptables(ok, xs)), xs)
    decreases |xs|
  {
    if |xs| == 0 {
      SubseqEmpty(xs);
      assert Wrapped(Acceptables(ok, xs)) == [];
    } else {
      var ys, x := xs[..|xs| - 1], xs[|xs| - 1];
      AcceptablesInOrder(ok, ys);
      var a := Acceptables(ok, ys);
      SnocInit(xs);
      if ok(x) && x.Some? {
        SubseqExtendBoth(Wrapped(a), ys, x);
        assert Wrapped(a + [x.value]) == Wrapped(a) + [x];
      } else {
        SubseqExtend(Wrapped(a), ys, x);
      }
    }
  }

  /** The stories kept from a prefix are a prefix of the stories kept from the whole. */
  lemma {:induction false} AcceptablesPrefix(ok: Option<Story> -> bool, xs: seq<Option<Story>>, n: nat)
    requires n <= |xs|
    ensures var a := Acceptables(ok, xs);
      var p := Acceptables(ok, xs[..n]);
      |p| <= |a| && a[..|p|] == p
    decreases |xs| - n
  {
    if n < |xs| {
      AcceptablesPrefix(ok, xs, n + 1);
      assert xs[..n + 1][..n] == xs[..n];
      var p := Acceptables(ok, xs[..n]);
      var p' := Acceptables(ok, xs[..n + 1]);
      assert p'[..|p|] == p;
    } else {
      assert xs[..n] == xs;
    }
  }

  /** The story loop: it keeps the acceptable stories in order and stops once 30 are kept. It
      keeps exactly the first 30 acceptable stories, or all of them when there are fewer. */
  method AcceptStories(results: seq<Option<Story>>, w: Window, minScore: int) returns (valid: seq<Story>)
    ensures valid == PySliceTo(Acceptables(s => Acceptable(s, w, minScore), results), MaxItems)
  {
    valid := FirstAccepted(s => Acceptable(s, w, minScore), results);
  }

  /** The loop itself, for any test `ok`. */
  method FirstAccepted(ok: Option<Story> -> bool, results: seq<Option<Story>>) returns (valid: seq<Story>)
    ensures valid == PySliceTo(Acceptables(ok, results), MaxItems)
  {
    valid := [];
    var i := 0;
    while i < |results|
      invariant 0 <= i <= |results|
      invariant valid == Acceptables(ok, results[..i])
      invariant |valid| < MaxItems
    {
      assert results[..i + 1][..i] == results[..i];
      if ok(results[i]) && results[i].Some? {
        valid := valid + [results[i].value];
        if |valid| >= MaxItems {
          AcceptablesCap(ok, results, i + 1);
          return;
        }
      }
      i := i + 1;
    }
    assert results[..i] == results;
  }

  /** Once a prefix yields 30 stories, those are the first 30 of the whole. */
  lemma AcceptablesCap(ok: Option<Story> -> bool, xs: seq<Option<Story>>, n: nat)
    requires n <= |xs| && |Acceptables(ok, xs[..n])| == MaxItems
    ensures PySliceTo(Acceptables(ok, xs), MaxItems) == Acceptables(ok, xs[..n])
  {
    AcceptablesPrefix(ok, xs, n);
  }

  /** `process_story`. A story whose normalized url the index knows is dropped before the reader
      is called; otherwise the generic cleaning, the truncation and the length check decide. */
  function StoryItem(env: Env, sourceId: string, maxLength: int, idx: RawIndex, s: Story): (o: Outcome)
    ensures o.Dropped? <==> NormalizeUrl(s.url) in idx.urls
    ensures !o.Dropped? ==> o.uuid == MakeItemUuid(env.digest, NormalizeUrl(s.url))
    ensures o.ReadFailed? <==> NormalizeUrl(s.url) !in idx.urls && env.read(NormalizeUrl(s.url), false).None?
    ensures o.Stored? ==> Fresh(idx, o) && o.rec[UrlHeader] == NormalizeUrl(s.url)
    ensures o.Stored? ==> "Full_Text" in o.rec && TextBounded(o.rec["Full_Text"], maxLength)
    ensures o.Stored? ==> "Item_UUID" in o.rec && o.rec["Item_UUID"] == o.uuid
    ensures o.Stored? ==> "Source_ID" in o.rec && o.rec["Source_ID"] == sourceId
    ensures NormalizeUrl(s.url) !in idx.urls && env.read(NormalizeUrl(s.url), false).Some? ==>
      (o.Stored? <==>
         |Truncate(CleanGeneric(env.find, env.read(NormalizeUrl(s.url), false).value), maxLength, NewlineMarker)| >= MinTextLen)
    ensures o.Stored? ==>
      "Full_Text" in o.rec
      && o.rec["Full_Text"] == Truncate(CleanGeneric(env.find, env.read(NormalizeUrl(s.url), false).value), maxLength, NewlineMarker)
    ensures o.Stored? && s.title != "" ==> "Title_Org" in o.rec && o.rec["Title_Org"] == s.title
    ensures o.Stored? && s.title == "" ==>
      "Title_Org" in o.rec && o.rec["Title_Org"] == env.mdTitle(env.read(NormalizeUrl(s.url), false).value)
  {
    var raw := NormalizeUrl(s.url);
    var uuid := MakeItemUuid(env.digest, raw);
    if raw in idx.urls then Dropped
    else
      match env.read(raw, false)
      case None => ReadFailed(uuid)
      case Some(md) =>
        MarkerLengths();
        var title := if s.title != "" then s.title else env.mdTitle(md);
        Finish(env, uuid, sourceId, raw, CleanGeneric(env.find, md), maxLength, NewlineMarker,
               title, HnJson(s.id, s.score, title, raw))
  }

  function StoryItems(env: Env, sourceId: string, maxLength: int, idx: RawIndex, ss: seq<Story>): (os: seq<Outcome>)
    ensures |os| == |ss| && forall i :: 0 <= i < |ss| ==> os[i] == StoryItem(env, sourceId, maxLength, idx, ss[i])
  {
    seq(|ss|, i requires 0 <= i < |ss| => StoryItem(env, sourceId, maxLength, idx, ss[i]))
  }

  /** `ApiHackerNewsCrawler.crawl`. `Max_Length` and `Min_Score` are read before the guarded
      block, so a malformed one escapes. */
  function Crawl(env: Env, src: Source, idx: RawIndex, w: Window, st: State): (r: Crawled)
    ensures (ReadInt(src.maxLength, DefaultMaxLength).None? || ReadInt(src.minScore, DefaultMinScore).None?)
      <==> r == Escaped(st)
    ensures Extends(st, r)
    ensures r.Finished? ==> |r.st.log| > |st.log| && r.st.log[..|st.log|] == st.log
    ensures r.Finished? && !env.topStories.Body? ==> r.st.grid == st.grid
    ensures r.Finished? && env.topStories.BadStatus? ==>
      r.st.log == st.log + [LogEntry("SOURCE_HTTP_FAIL", src.sourceId.GetOr("UNKNOWN"), "FAIL")]
    ensures r.Finished? && env.topStories.Raised? ==>
      r.st.log == st.log + [LogEntry("SOURCE_ERROR", src.sourceId.GetOr("UNKNOWN"), "FAIL")]
  {
    var sid := src.sourceId.GetOr("UNKNOWN");
    match (ReadInt(src.maxLength, DefaultMaxLength), ReadInt(src.minScore, DefaultMinScore))
    case (None, _) => Escaped(st)
    case (_, None) => Escaped(st)
    case (Some(maxLength), Some(minScore)) =>
      match env.topStories
      case BadStatus => Finished(Log(st, "SOURCE_HTTP_FAIL", sid, "FAIL"))
      case Raised => Finished(Log(st, "SOURCE_ERROR", sid, "FAIL"))
      case Body(ids) => Finished(Stories(env, sid, maxLength, idx, Kept(env, ids, w, minScore), st))
  }

  /** The stories kept from the top story ids: the acceptable ones among the first 200, at most 30. */
  function Kept(env: Env, ids: seq<int>, w: Window, minScore: int): (r: seq<Story>)
    ensures |r| <= MaxItems
    ensures forall k :: 0 <= k < |r| ==> Acceptable(Some(r[k]), w, minScore)
  {
    var scanned := PySliceTo(ids, MaxScanned);
    var results := seq(|scanned|, i requires 0 <= i < |scanned| => env.item(scanned[i]));
    var ok := (s: Option<Story>) => Acceptable(s, w, minScore);
    var acc := Acceptables(ok, results);
    AcceptablesExact(ok, results);
    var r := PySliceTo(acc, MaxItems);
    assert forall k :: 0 <= k < |r| ==> r[k] == acc[k];
    assert forall k :: 0 <= k < |acc| ==> ok(Some(acc[k]));
    r
  }

  /** Where the kept stories come from: each is the item of one of the first 200 ids, and when
      fewer than 30 are kept, every acceptable item among the first 200 ids is kept. */
  lemma KeptSource(env: Env, ids: seq<int>, w: Window, minScore: int)
    ensures var r := Kept(env, ids, w, minScore);
      && (forall k :: 0 <= k < |r| ==>
            exists i :: 0 <= i < |ids| && i < MaxScanned && env.item(ids[i]) == Some(r[k]))
      && (|r| < MaxItems ==>
            forall i :: 0 <= i < |ids| && i < MaxScanned && Acceptable(env.item(ids[i]), w, minScore) ==>
              env.item(ids[i]).value in r)
  {
    var scanned := PySliceTo(ids, MaxScanned);
    var results := seq(|scanned|, i requires 0 <= i < |scanned| => env.item(scanned[i]));
    var ok := (s: Option<Story>) => Acceptable(s, w, minScore);
    var acc := Acceptables(ok, results);
    AcceptablesExact(ok, results);
    var r := Kept(env, ids, w, minScore);
    assert r == PySliceTo(acc, MaxItems);
    forall k | 0 <= k < |r|
      ensures exists i :: 0 <= i < |ids| && i < MaxScanned && env.item(ids[i]) == Some(r[k])
    {
      assert r[k] == acc[k];
      var j :| 0 <= j < |results| && results[j] == Some(acc[k]);
      assert scanned[j] == ids[j];
    }
    if |r| < MaxItems {
      assert r == acc;
      forall i | 0 <= i < |ids| && i < MaxScanned && Acceptable(env.item(ids[i]), w, minScore)
        ensures env.item(ids[i]).value in r
      {
        assert scanned[i] == ids[i] && results[i] == env.item(ids[i]);
        assert ok(results[i]);
      }
    }
  }

  /** The kept stories are processed one after the other; with none, SOURCE_EMPTY is logged. */
  function Stories(env: Env, sid: string, maxLength: int, idx: RawIndex, valid: seq<Story>, st: State): (r: State)
    ensures |r.log| > |st.log| && r.log[..|st.log|] == st.log
    ensures |valid| == 0 <==> r.log == st.log + [LogEntry("SOURCE_EMPTY", sid, "SKIP")]
    ensures |valid| > 0 ==> r.log[|r.log| - 1] == LogEntry("SOURCE_DONE", sid, "OK")
  {
    if |valid| == 0 then Log(st, "SOURCE_EMPTY", sid, "SKIP")
    else
      var r := SettleSource(st, idx, sid, StoryItems(env, sid, maxLength, idx, valid));
      assert r.log[|r.log| - 1] != LogEntry("SOURCE_EMPTY", sid, "SKIP");
      r
  }

  /** The crawler never rewrites a row: every existing row stays as it was, and one row is
      appended per stored story. */
  lemma CrawlOnlyAppends(env: Env, src: Source, idx: RawIndex, w: Window, st: State)
    requires Crawl(env, src, idx, w, st).Finished?
    ensures var g := Crawl(env, src, idx, w, st).st.grid;
      |g| >= |st.grid| && g[..|st.grid|] == st.grid
  {
    if env.topStories.Body? {
      var maxLength := ReadInt(src.maxLength, DefaultMaxLength).value;
      var valid := Kept(env, env.topStories.value, w, ReadInt(src.minScore, DefaultMinScore).value);
      StoriesOnlyAppend(env, src.sourceId.GetOr("UNKNOWN"), maxLength, idx, valid, st);
    }
  }

  /** Processing the kept stories appends one row per stored story and rewrites none. */
  lemma StoriesOnlyAppend(env: Env, sid: string, maxLength: int, idx: RawIndex, valid: seq<Story>, st: State)
    ensures var g := Stories(env, sid, maxLength, idx, valid, st).grid;
      |g| >= |st.grid| && g[..|st.grid|] == st.grid
  {
    if |valid| > 0 {
      var os := StoryItems(env, sid, maxLength, idx, valid);
      FreshOutcomesAppend(st, idx, os);
      var g := SettleAll(st, idx, os).grid;
      assert g[..|st.grid|] == st.grid;
    }
  }
}

=== FILE: harvest.dfy ===
/** What the four crawlers share: the source configuration row, the outside world as parameters,
    the run state (the raw-data grid and the event log), and how the outcome of one item changes
    that state. Log messages are free text built for people and are not modelled; an entry keeps
    its action, target and status. */
module Harvest {
  import opened Wrappers
  import opened Seqs
  import opened Text
  import opened UrlIdentity
  import opened Cleaning
  import opened Sheet
  import opened LinkMerge

  // ---------------------------------------------------------------------------------------------
  // Configuration

  /** A configuration cell that the source reads with `int(...)`: absent (the default applies), a
      number, or text that `int` rejects with an exception. */
  datatype Setting = Unset | Number(n: int) | Malformed

  /** `int(source.get(key, default))`; `None` when `int` raises. */
  function ReadInt(s: Setting, default: int): (r: Option<int>)
    ensures r.None? <==> s.Malformed?
  {
    match s
    case Unset => Some(default)
    case Number(n) => Some(n)
    case Malformed => None
  }

  /** One row of the sources sheet; `None` is a missing column. */
  datatype Source = Source(
    sourceId: Option<string>,
    targetUrl: Option<string>,
    fetchType: Option<string>,
    status: Option<string>,
    phase: Setting,
    maxLength: Setting,
    maxItems: Setting,
    minScore: Setting)

  /** `ensure_https(str(source.get("Target_URL", "")).strip())`. */
  function TargetUrl(src: Source): string {
    EnsureHttps(Strip(src.targetUrl.GetOr("")))
  }

  // ---------------------------------------------------------------------------------------------
  // The outside world

  /** An HTTP fetch: a non-200 status, an exception, or the parsed body. */
  datatype Fetched<T> = BadStatus | Raised | Body(value: T)

  /** A feed entry as the feed parser delivers it; `None` is a missing key. `content` is the list
      of content values. */
  datatype Entry = Entry(
    link: Option<string>, id: Option<string>,
    published: Option<string>, updated: Option<string>,
    title: Option<string>,
    content: Option<seq<string>>, summary: Option<string>, description: Option<string>)

  /** A Hacker News item with the source's defaults applied (`time` 0, `score` 0, `url` and
      `title` ""); `kind` is its `type`. */
  datatype Story = Story(kind: Option<string>, id: int, time: int, score: int, url: string, title: string)

  /** The metadata stored as `Raw_JSON`, one shape per crawler. */
  datatype RawJson =
    | ListJson(listUrl: string, link: string)
    | FeedJson(mode: string, feedUrl: string, title: string, link: string)
    | HnJson(hnId: int, score: int, title: string, link: string)

  /** Everything the crawlers obtain from outside, as functions:
      - `read`: the markdown reader for a URL, with or without a links summary (`None` when it raises);
      - `scanLinks`: the markdown-link and bare-URL regex scans of a page;
      - `feed`: fetching and parsing a feed URL;
      - `topStories` and `item`: the Hacker News API (`item` is `None` on a non-200 answer, an
        exception or an empty body);
      - `parseDate`, `digest`, `find`, `mdTitle`: the date parser, the SHA-256 hex digest, the
        regex engine and `extract_title_from_md`;
      - `dumps` and `collectedAt`: the JSON rendering and the collection time stamp. */
  datatype Env = Env(
    read: (string, bool) -> Option<string>,
    scanLinks: string -> (seq<MdLink>, seq<string>),
    feed: string -> Fetched<seq<Entry>>,
    topStories: Fetched<seq<int>>,
    item: int -> Option<Story>,
    parseDate: string -> Option<int>,
    digest: string -> HexDigest,
    find: Finder,
    mdTitle: string -> string,
    dumps: RawJson -> string,
    collectedAt: string)

  // ---------------------------------------------------------------------------------------------
  // Run state

  datatype LogEntry = LogEntry(action: string, target: string, status: string)

  /** The raw-data grid and the event log. */
  datatype State = State(grid: Grid, log: seq<LogEntry>)

  function Log(st: State, action: string, target: string, status: string): (r: State)
    ensures r.grid == st.grid && r.log == st.log + [LogEntry(action, target, status)]
  {
    st.(log := st.log + [LogEntry(action, target, status)])
  }

  /** How a crawl ended: normally, or with an exception that leaves the crawler (which the run
      does not catch), carrying the state reached. */
  datatype Crawled = Finished(st: State) | Escaped(st: State)

  /** `c` only appended to the log of `st`. */
  predicate Extends(st: State, c: Crawled) {
    |c.st.log| >= |st.log| && c.st.log[..|st.log|] == st.log
  }

  lemma ExtendsTrans(a: State, b: State, r: Crawled)
    requires Extends(a, Finished(b)) && Extends(b, r)
    ensures Extends(a, r)
  {
    assert r.st.log[..|a.log|] == r.st.log[..|b.log|][..|a.log|];
  }

  /** The row object every crawler writes. */
  function ItemRecord(env: Env, uuid: string, sourceId: string, title: string, rawUrl: string,
                      text: string, meta: RawJson): (r: Record)
    ensures "Item_UUID" in r && r["Item_UUID"] == uuid
    ensures "Collected_At" in r && r["Collected_At"] == env.collectedAt
    ensures "Source_ID" in r && r["Source_ID"] == sourceId
    ensures "Title_Org" in r && r["Title_Org"] == title
    ensures UrlHeader in r && r[UrlHeader] == rawUrl
    ensures "Full_Text" in r && r["Full_Text"] == text
    ensures "Raw_JSON" in r && r["Raw_JSON"] == env.dumps(meta)
    ensures "Processed_YN" in r && r["Processed_YN"] == "N"
  {
    map["Item_UUID" := uuid, "Collected_At" := env.collectedAt, "Source_ID" := sourceId,
        "Title_Org" := title, "Raw_Url" := rawUrl, "Full_Text" := text,
        "Raw_JSON" := env.dumps(meta), "Processed_YN" := "N"]
  }

  /** What happened to one item. */
  datatype Outcome =
    | Dropped                          // skipped without a log entry
    | TooShort(uuid: string)           // ITEM_SKIP_SHORT
    | Stored(uuid: string, rec: Record) // upserted, then ITEM_UPSERT
    | ReadFailed(uuid: string)         // JINA_READ_FAIL

  /** The effect of an outcome on the run state. */
  function Settle(st: State, idx: RawIndex, o: Outcome): (r: State)
    ensures o.Stored? ==> r.grid == Upsert(st.grid, idx, o.rec)
    ensures !o.Stored? ==> r.grid == st.grid
    ensures o.Dropped? <==> r.log == st.log
    ensures !o.Dropped? ==> |r.log| == |st.log| + 1 && r.log[..|st.log|] == st.log
  {
    match o
    case Dropped => st
    case TooShort(u) => Log(st, "ITEM_SKIP_SHORT", u, "SKIP")
    case Stored(u, rec) => Log(st.(grid := Upsert(st.grid, idx, rec)), "ITEM_UPSERT", u, "OK")
    case ReadFailed(u) => Log(st, "JINA_READ_FAIL", u, "FAIL")
  }

  /** A kept item of a feed: its outcome settled, or the escape of the exception raised while
      producing it, with the state reached. */
  function SettleKept(st: State, idx: RawIndex, o: Option<Outcome>): (r: Crawled)
    ensures r.Escaped? <==> o.None?
    ensures o.None? ==> r.st == st
    ensures o.Some? && !o.value.Dropped? ==> |r.st.log| == |st.log| + 1
    ensures Extends(st, r)
  {
    match o
    case None => Escaped(st)
    case Some(x) => Finished(Settle(st, idx, x))
  }

  /** `after` is `before` with row `i` rewritten to begin with the cells of `rec`; every other row
      and the number of rows unchanged. */
  predicate RowRewritten(before: Grid, after: Grid, i: int, headers: seq<string>, rec: Record) {
    && |after| == |before| && 0 <= i < |after|
    && |after[i]| >= |headers| && after[i][..|headers|] == RowData(headers, rec)
    && (forall k :: 0 <= k < |after| && k != i ==> after[k] == before[k])
  }

  /** A stored record whose url the index maps to an existing row rewrites that row in place: the
      sheet keeps its length and every other row. */
  lemma StoredIndexedRewrites(st: State, idx: RawIndex, o: Outcome)
    requires o.Stored? && UrlHeader in o.rec && o.rec[UrlHeader] in idx.urls
    requires idx.urls[o.rec[UrlHeader]] <= |st.grid|
    ensures RowRewritten(st.grid, Settle(st, idx, o).grid, idx.urls[o.rec[UrlHeader]] as int - 1, idx.headers, o.rec)
  {
    assert Settle(st, idx, o).grid == Upsert(st.grid, idx, o.rec);
  }

  /** The outcomes of a source's items, one after the other. */
  function SettleAll(st: State, idx: RawIndex, os: seq<Outcome>): (r: State)
    decreases |os|
  {
    if |os| == 0 then st else SettleAll(Settle(st, idx, os[0]), idx, os[1..])
  }

  /** The records of the stored outcomes, in order. */
  function StoredRecords(os: seq<Outcome>): (r: seq<Record>)
    ensures |r| <= |os|
  {
    if |os| == 0 then []
    else (if os[0].Stored? then [os[0].rec] else []) + StoredRecords(os[1..])
  }

  function UpsertAll(g: Grid, idx: RawIndex, recs: seq<Record>): Grid
    decreases |recs|
  {
    if |recs| == 0 then g else UpsertAll(Upsert(g, idx, recs[0]), idx, recs[1..])
  }

  /** Settling items only upserts their stored records, in order, and only appends to the log:
      nothing else in the state changes. */
  lemma {:induction false} SettleAllEffect(st: State, idx: RawIndex, os: seq<Outcome>)
    ensures SettleAll(st, idx, os).grid == UpsertAll(st.grid, idx, StoredRecords(os))
    ensures |SettleAll(st, idx, os).log| >= |st.log|
    ensures SettleAll(st, idx, os).log[..|st.log|] == st.log
    decreases |os|
  {
    if |os| > 0 {
      var st' := Settle(st, idx, os[0]);
      SettleAllEffect(st', idx, os[1..]);
      var r := SettleAll(st', idx, os[1..]);
      assert r.log[..|st.log|] == r.log[..|st'.log|][..|st.log|];
      var rest := StoredRecords(os[1..]);
      if os[0].Stored? {
        assert StoredRecords(os) == [os[0].rec] + rest;
        assert ([os[0].rec] + rest)[1..] == rest;
      } else {
        assert StoredRecords(os) == rest;
      }
    }
  }

  /** The end of a source with items: its outcomes settled in order, then SOURCE_DONE; nothing at
      all when it has none. */
  function SettleSource(st: State, idx: RawIndex, sid: string, os: seq<Outcome>): (r: State)
    ensures |os| == 0 <==> r == st
    ensures Extends(st, Finished(r))
    ensures |os| > 0 ==> |r.log| > |st.log| && r.log[|r.log| - 1] == LogEntry("SOURCE_DONE", sid, "OK")
    ensures r.grid == UpsertAll(st.grid, idx, StoredRecords(os))
  {
    if |os| == 0 then st
    else
      SettleAllEffect(st, idx, os);
      var r := Log(SettleAll(st, idx, os), "SOURCE_DONE", sid, "OK");
      assert r.log[..|st.log|] == SettleAll(st, idx, os).log[..|st.log|];
      r
  }

  /** An outcome that stores a record only for a url the index does not know. */
  predicate Fresh(idx: RawIndex, o: Outcome) {
    o.Stored? ==> UrlHeader in o.rec && o.rec[UrlHeader] !in idx.urls
  }

  /** The sheet rows of some records. */
  function Rows(headers: seq<string>, recs: seq<Record>): (r: Grid)
    ensures |r| == |recs| && forall i :: 0 <= i < |recs| ==> r[i] == RowData(headers, recs[i])
  {
    seq(|recs|, i requires 0 <= i < |recs| => RowData(headers, recs[i]))
  }

  /** Records whose urls the index does not know are appended, one row each, in order. */
  lemma {:induction false} UpsertAllAppends(g: Grid, idx: RawIndex, recs: seq<Record>)
    requires forall i :: 0 <= i < |recs| ==> UrlHeader in recs[i] && recs[i][UrlHeader] !in idx.urls
    ensures UpsertAll(g, idx, recs) == g + Rows(idx.headers, recs)
    decreases |recs|
  {
    if |recs| > 0 {
      var row := RowData(idx.headers, recs[0]);
      var rest := recs[1..];
      assert UrlHeader in recs[0] && recs[0][UrlHeader] !in idx.urls;
      UpsertAllAppends(g + [row], idx, rest);
      calc {
        UpsertAll(g, idx, recs);
        UpsertAll(Upsert(g, idx, recs[0]), idx, rest);
        UpsertAll(g + [row], idx, rest);
        (g + [row]) + Rows(idx.headers, rest);
        g + ([row] + Rows(idx.headers, rest));
        { assert Rows(idx.headers, recs) == [row] + Rows(idx.headers, rest); }
        g + Rows(idx.headers, recs);
      }
    }
  }

  lemma {:induction false} StoredRecordsFresh(idx: RawIndex, os: seq<Outcome>)
    requires forall i :: 0 <= i < |os| ==> Fresh(idx, os[i])
    ensures forall i :: 0 <= i < |StoredRecords(os)| ==>
      UrlHeader in StoredRecords(os)[i] && StoredRecords(os)[i][UrlHeader] !in idx.urls
    decreases |os|
  {
    if |os| > 0 {
      StoredRecordsFresh(idx, os[1..]);
    }
  }

  /** When every item is fresh, settling them leaves every existing row as it was and appends one
      row per stored record. */
  lemma FreshOutcomesAppend(st: State, idx: RawIndex, os: seq<Outcome>)
    requires forall i :: 0 <= i < |os| ==> Fresh(idx, os[i])
    ensures SettleAll(st, idx, os).grid == st.grid + Rows(idx.headers, StoredRecords(os))
  {
    SettleAllEffect(st, idx, os);
    StoredRecordsFresh(idx, os);
    UpsertAllAppends(st.grid, idx, StoredRecords(os));
  }

  /** The end of an item once its text is cleaned: truncation, the length check, and the record. */
  function Finish(env: Env, uuid: string, sourceId: string, rawUrl: string, cleaned: string,
                  maxLength: int, marker: string, title: string, meta: RawJson): (o: Outcome)
    requires |marker| == 20
    ensures o.TooShort? || o.Stored?
    ensures o.uuid == uuid
    ensures o.Stored? <==> TruncateAndCheck(cleaned, maxLength, marker).Some?
    ensures o.Stored? ==>
      && UrlHeader in o.rec && o.rec[UrlHeader] == rawUrl
      && "Full_Text" in o.rec && o.rec["Full_Text"] == Truncate(cleaned, maxLength, marker)
      && TextBounded(o.rec["Full_Text"], maxLength)
      && "Item_UUID" in o.rec && o.rec["Item_UUID"] == uuid
      && "Source_ID" in o.rec && o.rec["Source_ID"] == sourceId
      && "Title_Org" in o.rec && o.rec["Title_Org"] == title
      && "Processed_YN" in o.rec && o.rec["Processed_YN"] == "N"
  {
    EmittedBounds(cleaned, maxLength, marker);
    match TruncateAndCheck(cleaned, maxLength, marker)
    case None => TooShort(uuid)
    case Some(text) => Stored(uuid, ItemRecord(env, uuid, sourceId, title, rawUrl, text, meta))
  }

  /** The text of a stored record respects the truncate-then-reject rule. */
  predicate TextBounded(text: string, maxLength: int) {
    |text| >= MinTextLen && (maxLength >= 0 ==> |text| <= maxLength + 20)
  }
}

=== FILE: html_text.dfy ===
/** `strip_html` (core/utils.py): script and style blocks and then all tags become spaces, six
    entities are decoded, and whitespace is normalised to single spaces with nothing at either
    end. */
module HtmlText {
  import opened Text

  /** The first position at or after `from` where `p` occurs ignoring ASCII case, or `|s|`. */
  function FindCI(s: string, p: string, from: nat): (j: nat)
    requires from <= |s|
    ensures from <= j <= |s|
    ensures j < |s| ==> StartsWithCI(s[j..], p)
    ensures forall k :: from <= k < j ==> !StartsWithCI(s[k..], p)
    decreases |s| - from
  {
    if from == |s| then |s|
    else if StartsWithCI(s[from..], p) then from
    else FindCI(s, p, from + 1)
  }

  /** `re.sub(open + r'[\s\S]*?' + close, ' ', s, flags=re.IGNORECASE)`: scanning left to right,
      an opening marker followed anywhere later by a closing marker is replaced, up to the first
      such closing marker, by one space; scanning resumes after it. */
  function RemoveBlocks(s: string, open: string, close: string): (r: string)
    requires |open| > 0 && |close| > 0
    ensures |r| <= |s|
    decreases |s|
  {
    if |s| == 0 then ""
    else
      var j := if StartsWithCI(s, open) then FindCI(s, close, |open|) else |s|;
      if j < |s| then " " + RemoveBlocks(s[j + |close|..], open, close)
      else [s[0]] + RemoveBlocks(s[1..], open, close)
  }

  /** `re.sub(r'<[^>]+>', ' ', s)`: a '<' followed by at least one character other than '>' and
      then a '>' is replaced, through that first '>', by one space. */
  function RemoveTags(s: string): (r: string)
    ensures |r| <= |s|
    ensures '<' !in s ==> r == s
    decreases |s|
  {
    if |s| == 0 then ""
    else
      var k := if s[0] == '<' then IndexOf(s[1..], '>') else 0;
      if 1 <= k < |s| - 1 then " " + RemoveTags(s[k + 2..])
      else [s[0]] + RemoveTags(s[1..])
  }

  /** Python's `str.replace(pat, rep)`: non-overlapping occurrences, left to right. */
  function ReplaceAll(s: string, pat: string, rep: string): (r: string)
    requires |pat| > 0
    ensures pat[0] !in s ==> r == s
    decreases |s|
  {
    if |s| < |pat| then s
    else if s[..|pat|] == pat then rep + ReplaceAll(s[|pat|..], pat, rep)
    else [s[0]] + ReplaceAll(s[1..], pat, rep)
  }

  /** The six entity replacements, in the order the source applies them. */
  function DecodeEntities(s: string): (r: string)
    ensures '&' !in s ==> r == s
  {
    var a := ReplaceAll(s, "&nbsp;", " ");
    var b := ReplaceAll(a, "&amp;", "&");
    var c := ReplaceAll(b, "&lt;", "<");
    var d := ReplaceAll(c, "&gt;", ">");
    var e := ReplaceAll(d, "&#39;", "'");
    ReplaceAll(e, "&quot;", "\"")
  }

  /** Every whitespace character is a plain space and no two spaces are adjacent. */
  predicate SingleSpaced(s: string) {
    && (forall i :: 0 <= i < |s| && IsSpace(s[i]) ==> s[i] == ' ')
    && (forall i :: 0 <= i && i + 1 < |s| ==> !(s[i] == ' ' && s[i + 1] == ' '))
  }

  /** `re.sub(r'\s+', ' ', s).strip()`. */
  function NormalizeSpace(s: string): (r: string)
    ensures IsStripped(r) && SingleSpaced(r)
    ensures |r| <= |s|
  {
    var c := CollapseSpaces(s);
    var r := Strip(c);
    var a := SpaceRun(c);
    assert forall i :: 0 <= i < |r| ==> r[i] == c[a + i];
    r
  }

  /** Python's `strip_html`. */
  function StripHtml(html: string): (r: string)
    ensures html == "" ==> r == ""
    ensures IsStripped(r) && SingleSpaced(r)
  {
    if html == "" then ""
    else
      var noScript := RemoveBlocks(html, "<script", "</script>");
      var noStyle := RemoveBlocks(noScript, "<style", "</style>");
      NormalizeSpace(DecodeEntities(RemoveTags(noStyle)))
  }

  /** Collapsing whitespace runs leaves a single-spaced string unchanged. */
  lemma {:induction false} CollapseSpacesFixed(s: string)
    requires SingleSpaced(s)
    ensures CollapseSpaces(s) == s
    decreases |s|
  {
    if |s| > 0 {
      assert SingleSpaced(s[1..]) by {
        assert forall i :: 0 <= i < |s| - 1 ==> s[1..][i] == s[i + 1];
      }
      CollapseSpacesFixed(s[1..]);
      if IsSpace(s[0]) {
        assert SpaceRun(s) == 1;
      }
    }
  }

  /** Whitespace normalisation is idempotent: its output is a fixed point. */
  lemma NormalizeSpaceIdempotent(s: string)
    ensures NormalizeSpace(NormalizeSpace(s)) == NormalizeSpace(s)
  {
    var r := NormalizeSpace(s);
    CollapseSpacesFixed(r);
    StripStripped(r);
  }

  /** Text without tags or entities that is already whitespace-normal comes back unchanged. */
  lemma {:induction false} RemoveBlocksPlain(s: string, open: string, close: string)
    requires |open| > 0 && |close| > 0 && open[0] == '<' && '<' !in s
    ensures RemoveBlocks(s, open, close) == s
    decreases |s|
  {
    if |s| > 0 {
      assert !StartsWithCI(s, open) by {
        if |open| <= |s| {
          assert s[0] in s;
          assert Lower(s[..|open|])[0] == LowerChar(s[0]) != '<';
        }
      }
      RemoveBlocksPlain(s[1..], open, close);
    }
  }

  lemma PlainTextFixed(s: string)
    requires '<' !in s && '&' !in s && IsStripped(s) && SingleSpaced(s)
    ensures StripHtml(s) == s
  {
    if s != "" {
      RemoveBlocksPlain(s, "<script", "</script>");
      RemoveBlocksPlain(s, "<style", "</style>");
      CollapseSpacesFixed(s);
      StripStripped(s);
    }
  }

  /** The result of `strip_html` is already whitespace-normal: normalising it again changes
      nothing. */
  lemma StripHtmlNormalForm(html: string)
    ensures NormalizeSpace(StripHtml(html)) == StripHtml(html)
  {
    var r := StripHtml(html);
    CollapseSpacesFixed(r);
    StripStripped(r);
  }
}

=== FILE: links.dfy ===
/** The link map built by `extract_links` (core/utils.py): markdown links are merged first, the
    longest non-junk title winning for each URL, then bare URLs are added with an empty title when
    not yet present. The two regex scans are inputs: the captured `[text](url)` pairs and the
    captured bare URLs, in text order. */
module LinkMerge {
  import opened Seqs
  import opened Text

  /** A markdown link `[text](url)` as captured by the link pattern. */
  datatype MdLink = MdLink(text: string, url: string)

  /** An insertion-ordered dictionary from URL to link title: `keys` is the insertion order. */
  datatype LinkMap = LinkMap(keys: seq<string>, titles: map<string, string>)

  predicate Valid(m: LinkMap) {
    NoDups(m.keys)
    && (forall u :: u in m.titles ==> u in m.keys)
    && (forall u :: u in m.keys ==> u in m.titles)
  }

  const EmptyLinks := LinkMap([], map[])

  // ---------------------------------------------------------------------------------------------
  // URL and title clean-up

  /** The characters `re.sub(r'[),.\]]+$', '', url)` strips from the end of a captured URL. */
  predicate IsTrailPunct(c: char) {
    c == ')' || c == ',' || c == '.' || c == ']'
  }

  function TrailPunctRun(u: string): (k: nat)
    ensures k <= |u|
    ensures forall i :: |u| - k <= i < |u| ==> IsTrailPunct(u[i])
    ensures k < |u| ==> !IsTrailPunct(u[|u| - k - 1])
  {
    if |u| == 0 || !IsTrailPunct(u[|u| - 1]) then 0
    else 1 + TrailPunctRun(u[..|u| - 1])
  }

  /** A captured URL without its trailing run of ')', ',', '.' and ']'. Captured URLs hold no
      whitespace, so the regex's `$` can only match at the very end. */
  function TrimLinkUrl(u: string): (r: string)
    ensures |r| <= |u| && r == u[..|r|]
    ensures |r| == 0 || !IsTrailPunct(r[|r| - 1])
    ensures forall i :: |r| <= i < |u| ==> IsTrailPunct(u[i])
  {
    u[..|u| - TrailPunctRun(u)]
  }

  /** Trimming a trimmed URL changes nothing. */
  lemma TrimLinkUrlIdempotent(u: string)
    ensures TrimLinkUrl(TrimLinkUrl(u)) == TrimLinkUrl(u)
  {
    var r := TrimLinkUrl(u);
    assert TrailPunctRun(r) == 0;
  }

  /** `re.match(r'^!\[|read more|click|here|link', title, re.IGNORECASE)`: `re.match` anchors
      every alternative at the start of the stripped title. */
  predicate IsJunkTitle(t: string) {
    StartsWith(t, "![") || StartsWithCI(t, "read more") || StartsWithCI(t, "click")
    || StartsWithCI(t, "here") || StartsWithCI(t, "link")
  }

  /** A markdown link after clean-up: stripped title, trimmed URL. */
  datatype Titled = Titled(title: string, url: string)

  function Clean(l: MdLink): Titled {
    Titled(Strip(l.text), TrimLinkUrl(l.url))
  }

  predicate NotJunk(c: Titled) {
    !IsJunkTitle(c.title)
  }

  /** The cleaned non-junk links, in text order: what the merge loop acts on. */
  function CleanLinks(ls: seq<MdLink>): (r: seq<Titled>)
    ensures |r| <= |ls|
    ensures forall i :: 0 <= i < |r| ==> NotJunk(r[i])
    ensures forall i :: 0 <= i < |ls| && NotJunk(Clean(ls[i])) ==> Clean(ls[i]) in r
    ensures forall i :: 0 <= i < |r| ==> exists k :: 0 <= k < |ls| && r[i] == Clean(ls[k])
  {
    FilterMap(Clean, NotJunk, ls)
  }

  // ---------------------------------------------------------------------------------------------
  // Markdown links

  /** One step of the markdown loop on a non-junk link: the URL gets this title when it is new or
      when the title is strictly longer than the one it has. */
  function MergeMd(m: LinkMap, c: Titled): (r: LinkMap)
    requires Valid(m)
    ensures Valid(r)
    ensures c.url in r.titles && |c.title| <= |r.titles[c.url]|
    ensures c.url in m.titles ==> r.keys == m.keys && |m.titles[c.url]| <= |r.titles[c.url]|
    ensures c.url !in m.titles ==> r.keys == m.keys + [c.url] && r.titles[c.url] == c.title
    ensures c.url in m.titles && r.titles[c.url] != m.titles[c.url] ==>
      r.titles[c.url] == c.title && |c.title| > |m.titles[c.url]|
    ensures forall u :: u in m.titles && u != c.url ==> u in r.titles && r.titles[u] == m.titles[u]
    ensures forall u :: u in r.titles && u != c.url ==> u in m.titles
  {
    if c.url !in m.titles then LinkMap(m.keys + [c.url], m.titles[c.url := c.title])
    else if |c.title| > |m.titles[c.url]| then LinkMap(m.keys, m.titles[c.url := c.title])
    else m
  }

  /** The markdown loop over the cleaned links, in text order. */
  function MergeAll(cs: seq<Titled>): (r: LinkMap)
    ensures Valid(r)
  {
    if |cs| == 0 then EmptyLinks
    else MergeMd(MergeAll(cs[..|cs| - 1]), cs[|cs| - 1])
  }

  function Urls(cs: seq<Titled>): (r: seq<string>)
    ensures |r| == |cs| && forall i :: 0 <= i < |cs| ==> r[i] == cs[i].url
  {
    seq(|cs|, i requires 0 <= i < |cs| => cs[i].url)
  }

  lemma UrlsSnoc(cs: seq<Titled>, c: Titled)
    ensures Urls(cs + [c]) == Urls(cs) + [c.url]
  {
    var a := Urls(cs + [c]);
    var b := Urls(cs) + [c.url];
    assert |a| == |b|;
    forall i | 0 <= i < |a|
      ensures a[i] == b[i]
    {
      if i < |cs| {
        assert (cs + [c])[i] == cs[i];
      }
    }
  }

  /** The markdown loop inserts the URLs of the cleaned links, each once in first-occurrence
      order. */
  lemma {:induction false} MergeKeys(cs: seq<Titled>)
    ensures MergeAll(cs).keys == Distinct(Urls(cs))
  {
    if |cs| > 0 {
      var init := cs[..|cs| - 1];
      var c := cs[|cs| - 1];
      var d := Distinct(Urls(init));
      calc {
        MergeAll(cs).keys;
        MergeMd(MergeAll(init), c).keys;
        { MergeMdKeys(MergeAll(init), c); MergeKeys(init); }
        if c.url in d then d else d + [c.url];
        { DistinctSnoc(Urls(init), c.url); }
        Distinct(Urls(init) + [c.url]);
        { UrlsSnoc(init, c); assert init + [c] == cs; }
        Distinct(Urls(cs));
      }
    }
  }

  /** One markdown step appends the URL to the keys exactly when it is new. */
  lemma MergeMdKeys(m: LinkMap, c: Titled)
    requires Valid(m)
    ensures MergeMd(m, c).keys == if c.url in m.keys then m.keys else m.keys + [c.url]
  {
  }

  /** Every cleaned link's URL ends up with a title at least as long as that link's title. */
  lemma {:induction false} MergeTitleBound(cs: seq<Titled>)
    ensures forall i :: 0 <= i < |cs| ==>
      cs[i].url in MergeAll(cs).titles && |cs[i].title| <= |MergeAll(cs).titles[cs[i].url]|
  {
    if |cs| > 0 {
      var init := cs[..|cs| - 1];
      var m := MergeAll(init);
      MergeTitleBound(init);
      assert MergeAll(cs) == MergeMd(m, cs[|cs| - 1]);
      forall i | 0 <= i < |init|
        ensures cs[i].url in MergeAll(cs).titles && |cs[i].title| <= |MergeAll(cs).titles[cs[i].url]|
      {
        assert cs[i] == init[i];
        MergeMdKeepsTitle(m, cs[|cs| - 1], cs[i].url);
      }
    }
  }

  /** A markdown step never loses a URL or shortens its title. */
  lemma MergeMdKeepsTitle(m: LinkMap, c: Titled, u: string)
    requires Valid(m) && u in m.titles
    ensures u in MergeMd(m, c).titles && |m.titles[u]| <= |MergeMd(m, c).titles[u]|
  {
  }

  /** Link `i` is the first of the links to URL `u` with the longest title `t`: it carries `t`,
      and every earlier link to `u` has a strictly shorter title. */
  ghost predicate FirstLongestAt(cs: seq<Titled>, u: string, t: string, i: int) {
    && 0 <= i < |cs| && cs[i] == Titled(t, u)
    && forall k :: 0 <= k < i && cs[k].url == u ==> |cs[k].title| < |t|
  }

  /** The title kept for each URL is that of the first link to it among those with the longest
      title. */
  lemma {:induction false} MergeTitleChosen(cs: seq<Titled>, u: string)
    requires u in MergeAll(cs).titles
    ensures exists i :: FirstLongestAt(cs, u, MergeAll(cs).titles[u], i)
  {
    var n := |cs| - 1;
    var init := cs[..n];
    var c := cs[n];
    var m := MergeAll(init);
    assert MergeAll(cs) == MergeMd(m, c);
    var t := MergeAll(cs).titles[u];
    MergeMdTitle(m, c, u);
    if u in m.titles && t == m.titles[u] {
      MergeTitleChosen(init, u);
      var i :| FirstLongestAt(init, u, t, i);
      FirstLongestExtend(cs, u, t, i);
    } else {
      FirstLongestLast(cs, u, t);
    }
  }

  lemma FirstLongestExtend(cs: seq<Titled>, u: string, t: string, i: int)
    requires |cs| > 0 && FirstLongestAt(cs[..|cs| - 1], u, t, i)
    ensures FirstLongestAt(cs, u, t, i)
  {
    assert forall k :: 0 <= k <= i ==> cs[k] == cs[..|cs| - 1][k];
  }

  /** The last link is the first with the longest title when its title is longer than the one
      merged from the links before it. */
  lemma FirstLongestLast(cs: seq<Titled>, u: string, t: string)
    requires |cs| > 0 && cs[|cs| - 1] == Titled(t, u)
    requires var m := MergeAll(cs[..|cs| - 1]); u in m.titles ==> |t| > |m.titles[u]|
    ensures FirstLongestAt(cs, u, t, |cs| - 1)
  {
    var init := cs[..|cs| - 1];
    MergeTitleBound(init);
    forall k | 0 <= k < |init|
      ensures cs[k].url != u || |cs[k].title| < |t|
    {
      assert cs[k] == init[k];
    }
  }

  /** After a markdown step a URL has its old title, or is the step's URL and has the step's
      title, which is then strictly longer than any old one. */
  lemma MergeMdTitle(m: LinkMap, c: Titled, u: string)
    requires Valid(m) && u in MergeMd(m, c).titles
    ensures var r := MergeMd(m, c);
      || (u in m.titles && r.titles[u] == m.titles[u])
      || (u == c.url && r.titles[u] == c.title && (u in m.titles ==> |c.title| > |m.titles[u]|))
  {
  }

  // ---------------------------------------------------------------------------------------------
  // Bare URLs

  /** One step of the bare-URL loop on a trimmed URL: a new URL gets the empty title, a known one
      is left alone. */
  function AddBare(m: LinkMap, u: string): (r: LinkMap)
    requires Valid(m)
    ensures Valid(r)
    ensures u in m.titles ==> r == m
    ensures u !in m.titles ==> r.keys == m.keys + [u] && r.titles == m.titles[u := ""]
  {
    if u in m.titles then m else LinkMap(m.keys + [u], m.titles[u := ""])
  }

  function AddAllBare(m: LinkMap, us: seq<string>): (r: LinkMap)
    requires Valid(m)
    ensures Valid(r)
  {
    if |us| == 0 then m else AddBare(AddAllBare(m, us[..|us| - 1]), us[|us| - 1])
  }

  function TrimAll(us: seq<string>): (r: seq<string>)
    ensures |r| == |us| && forall i :: 0 <= i < |us| ==> r[i] == TrimLinkUrl(us[i])
  {
    seq(|us|, i requires 0 <= i < |us| => TrimLinkUrl(us[i]))
  }

  /** The bare-URL loop appends the new URLs in first-occurrence order. */
  lemma {:induction false} AddAllBareKeys(m: LinkMap, us: seq<string>, s: seq<string>)
    requires Valid(m) && m.keys == Distinct(s)
    ensures AddAllBare(m, us).keys == Distinct(s + us)
  {
    if |us| == 0 {
      assert s + us == s;
    } else {
      var init, x := us[..|us| - 1], us[|us| - 1];
      AddAllBareKeys(m, init, s);
      AddBareKeys(AddAllBare(m, init), x, s + init);
      AppendSnoc(s, us);
    }
  }

  /** One bare URL extends the distinct key list as appending it to the URLs seen would. */
  lemma AddBareKeys(m: LinkMap, x: string, s: seq<string>)
    requires Valid(m) && m.keys == Distinct(s)
    ensures AddBare(m, x).keys == Distinct(s + [x])
  {
    assert x in m.titles <==> x in m.keys;
    DistinctSnoc(s, x);
  }

  /** The bare-URL loop keeps every existing title and gives each new URL the empty title. */
  lemma {:induction false} AddAllBareTitles(m: LinkMap, us: seq<string>)
    requires Valid(m)
    ensures forall u :: u in m.titles ==> u in AddAllBare(m, us).titles && AddAllBare(m, us).titles[u] == m.titles[u]
    ensures forall u :: u in AddAllBare(m, us).titles && u !in m.titles ==> AddAllBare(m, us).titles[u] == ""
    ensures forall u :: u in AddAllBare(m, us).titles <==> u in m.titles || u in us
  {
    if |us| > 0 {
      var init := us[..|us| - 1];
      AddAllBareTitles(m, init);
      assert us == init + [us[|us| - 1]];
    }
  }

  // ---------------------------------------------------------------------------------------------
  // extract_links

  /** Python's `extract_links` given the two regex scans of the text. */
  function ExtractLinks(mds: seq<MdLink>, bares: seq<string>): (r: LinkMap)
    ensures Valid(r)
  {
    AddAllBare(MergeAll(CleanLinks(mds)), TrimAll(bares))
  }

  /** The keys are the URLs of the non-junk markdown links followed by the new bare URLs, each
      once in first-occurrence order; a URL with a non-junk markdown link keeps the first longest
      of their titles, and every other URL has the empty title. */
  lemma ExtractLinksLaw(mds: seq<MdLink>, bares: seq<string>, u: string)
    ensures var cs := CleanLinks(mds);
      ExtractLinks(mds, bares).keys == Distinct(Urls(cs) + TrimAll(bares))
    ensures var cs := CleanLinks(mds);
      u in ExtractLinks(mds, bares).titles <==> u in Urls(cs) || u in TrimAll(bares)
    ensures var cs := CleanLinks(mds);
      u in Urls(cs) ==> exists i :: FirstLongestAt(cs, u, ExtractLinks(mds, bares).titles[u], i)
    ensures var cs := CleanLinks(mds);
      u in ExtractLinks(mds, bares).titles && u !in Urls(cs) ==> ExtractLinks(mds, bares).titles[u] == ""
  {
    var cs := CleanLinks(mds);
    var m := MergeAll(cs);
    MergeKeys(cs);
    AddAllBareKeys(m, TrimAll(bares), Urls(cs));
    AddAllBareTitles(m, TrimAll(bares));
    if u in Urls(cs) {
      MergeTitleChosen(cs, u);
    }
  }
}

=== FILE: list_crawl.dfy ===
/** The list-page crawler (crawlers/crawl_list.py): the list page is read with its links summary,
    its links are filtered into candidates, and each candidate (up to `Max_Items`) whose normalized
    url the index does not know is read, dated, cleaned by its source's rule, truncated and
    stored. */
module ListCrawl {
  import opened Wrappers
  import opened Seqs
  import opened Text
  import opened TimeWindow
  import opened UrlIdentity
  import opened Cleaning
  import opened Sheet
  import opened LinkMerge
  import opened Candidates
  import opened MdDate
  import opened Harvest

  const DefaultMaxLength: int := 4000
  const DefaultMaxItems: int := 8

  /** The instant of an article page's guessed publication date, if the parser understands it. */
  function PageDate(env: Env, md: string): Option<int> {
    ParseDateRobust(env.parseDate, ExtractDate(md))
  }

  /** A dated page is kept only inside the window; an undated page is kept. */
  predicate DateAdmits(pd: Option<int>, w: Window) {
    pd.None? || IsWithinWindow(pd, w)
  }

  /** `process_candidate` for the normalized url of candidate `c`. The title found on the list page
      is looked up under the normalized url and wins over the article's own title. */
  function PageItem(env: Env, sourceId: string, maxLength: int, listUrl: string,
                    titles: map<string, string>, idx: RawIndex, w: Window, c: string): (o: Outcome)
    ensures var raw := NormalizeUrl(c);
      o.Dropped? <==>
        (raw in idx.urls
         || (env.read(raw, false).Some? && !DateAdmits(PageDate(env, env.read(raw, false).value), w)))
    ensures !o.Dropped? ==> o.uuid == MakeItemUuid(env.digest, NormalizeUrl(c))
    ensures o.ReadFailed? <==> NormalizeUrl(c) !in idx.urls && env.read(NormalizeUrl(c), false).None?
    ensures o.Stored? ==> Fresh(idx, o) && o.rec[UrlHeader] == NormalizeUrl(c)
    ensures o.Stored? ==> "Full_Text" in o.rec && TextBounded(o.rec["Full_Text"], maxLength)
    ensures o.Stored? ==> "Source_ID" in o.rec && o.rec["Source_ID"] == sourceId
    ensures var raw := NormalizeUrl(c);
      raw !in idx.urls && env.read(raw, false).Some? && DateAdmits(PageDate(env, env.read(raw, false).value), w) ==>
        (o.Stored? <==>
           |Truncate(ListClean(env.find, sourceId, env.read(raw, false).value), maxLength, NewlineMarker)| >= MinTextLen)
    ensures o.Stored? ==>
      "Full_Text" in o.rec
      && o.rec["Full_Text"] == Truncate(ListClean(env.find, sourceId, env.read(NormalizeUrl(c), false).value), maxLength, NewlineMarker)
    ensures o.Stored? && NormalizeUrl(c) in titles && titles[NormalizeUrl(c)] != "" ==>
      "Title_Org" in o.rec && o.rec["Title_Org"] == titles[NormalizeUrl(c)]
    ensures o.Stored? && !(NormalizeUrl(c) in titles && titles[NormalizeUrl(c)] != "") ==>
      "Title_Org" in o.rec && o.rec["Title_Org"] == env.mdTitle(env.read(NormalizeUrl(c), false).value)
  {
    var raw := NormalizeUrl(c);
    var uuid := MakeItemUuid(env.digest, raw);
    var listTitle := if raw in titles then titles[raw] else "";
    if raw in idx.urls then Dropped
    else
      match env.read(raw, false)
      case None => ReadFailed(uuid)
      case Some(md) =>
        if !DateAdmits(PageDate(env, md), w) then Dropped
        else
          MarkerLengths();
          var title := if listTitle != "" then listTitle else env.mdTitle(md);
          Finish(env, uuid, sourceId, raw, ListClean(env.find, sourceId, md), maxLength, NewlineMarker,
                 title, ListJson(listUrl, raw))
  }

  function PageItems(env: Env, sourceId: string, maxLength: int, listUrl: string,
                     titles: map<string, string>, idx: RawIndex, w: Window, cs: seq<string>): (os: seq<Outcome>)
    ensures |os| == |cs|
    ensures forall i :: 0 <= i < |cs| ==> os[i] == PageItem(env, sourceId, maxLength, listUrl, titles, idx, w, cs[i])
  {
    seq(|cs|, i requires 0 <= i < |cs| => PageItem(env, sourceId, maxLength, listUrl, titles, idx, w, cs[i]))
  }

  /** The link map of a list page. */
  function PageLinks(env: Env, page: string): (r: LinkMap)
    ensures Valid(r)
  {
    ExtractLinks(env.scanLinks(page).0, env.scanLinks(page).1)
  }

  /** The candidates of a list page: its link urls, filtered. */
  function PageCandidates(env: Env, sourceId: string, listUrl: string, page: string): (r: seq<string>)
    ensures NoDups(r)
    ensures forall u :: u in r <==>
      u != "" && u in PageLinks(env, page).keys
      && PassesFixed(RuleFor(sourceId), listUrl, u) && PassesRule(env.find, RuleFor(sourceId), u)
  {
    var urls := UniquePreserveOrder(PageLinks(env, page).keys);
    var r := FilterCandidates(env.find, RuleFor(sourceId), listUrl, urls);
    UniqueMembers(PageLinks(env, page).keys);
    r
  }

  /** The source id as the list crawler reads it: stripped, "" when missing. */
  function ListSourceId(src: Source): string {
    Strip(src.sourceId.GetOr(""))
  }

  /** `CrawlListCrawler.crawl`. `Max_Length` is read before the guarded block, so a malformed one
      escapes; `Max_Items` is read inside it, so a malformed one ends the source with
      SOURCE_ERROR. */
  function Crawl(env: Env, src: Source, idx: RawIndex, w: Window, st: State): (r: Crawled)
    ensures ReadInt(src.maxLength, DefaultMaxLength).None? <==> r == Escaped(st)
    ensures Extends(st, r)
    ensures r.Finished? ==> |r.st.log| > |st.log| && r.st.log[..|st.log|] == st.log
    ensures r.Finished? && env.read(TargetUrl(src), true).None? ==>
      r.st == Log(st, "LIST_READ_FAIL", ListSourceId(src), "FAIL")
  {
    var sid := ListSourceId(src);
    match ReadInt(src.maxLength, DefaultMaxLength)
    case None => Escaped(st)
    case Some(maxLength) =>
      var listUrl := TargetUrl(src);
      match env.read(listUrl, true)
      case None => Finished(Log(st, "LIST_READ_FAIL", sid, "FAIL"))
      case Some(page) =>
        var cands := PageCandidates(env, sid, listUrl, page);
        Finished(Listed(env, sid, listUrl, src.maxItems, maxLength, idx, w, PageLinks(env, page).titles, cands, st))
  }

  /** What follows a successful read of the list page, given its candidates. */
  function Listed(env: Env, sid: string, listUrl: string, maxItems: Setting, maxLength: int, idx: RawIndex,
                  w: Window, titles: map<string, string>, cands: seq<string>, st: State): (r: State)
    ensures |r.log| > |st.log| && r.log[..|st.log|] == st.log
    ensures |cands| == 0 ==> r == Log(st, "LIST_NO_CANDIDATE", sid, "SKIP")
    ensures |cands| > 0 && ReadInt(maxItems, DefaultMaxItems).None? ==> r == Log(st, "SOURCE_ERROR", sid, "FAIL")
    ensures |cands| > 0 && ReadInt(maxItems, DefaultMaxItems).Some? ==>
      r.log[|r.log| - 1] == LogEntry("SOURCE_DONE", sid, "OK")
  {
    if |cands| == 0 then Log(st, "LIST_NO_CANDIDATE", sid, "SKIP")
    else
      match ReadInt(maxItems, DefaultMaxItems)
      case None => Log(st, "SOURCE_ERROR", sid, "FAIL")
      case Some(n) =>
        var os := PageItems(env, sid, maxLength, listUrl, titles, idx, w, PySliceTo(cands, n));
        SettleAllEffect(st, idx, os);
        Log(SettleAll(st, idx, os), "SOURCE_DONE", sid, "OK")
  }

  /** The list crawler never rewrites a row, and appends at most one row per candidate it
      processes: at most `Max_Items` when that is not negative, and never more than there are
      candidates. */
  lemma ListedOnlyAppends(env: Env, sid: string, listUrl: string, maxItems: Setting, maxLength: int, idx: RawIndex,
                          w: Window, titles: map<string, string>, cands: seq<string>, st: State)
    ensures var g := Listed(env, sid, listUrl, maxItems, maxLength, idx, w, titles, cands, st).grid;
      && |g| >= |st.grid| && g[..|st.grid|] == st.grid
      && |g| - |st.grid| <= |cands|
      && (ReadInt(maxItems, DefaultMaxItems).Some? && ReadInt(maxItems, DefaultMaxItems).value >= 0 ==>
            |g| - |st.grid| <= ReadInt(maxItems, DefaultMaxItems).value)
  {
    if |cands| > 0 && ReadInt(maxItems, DefaultMaxItems).Some? {
      var n := ReadInt(maxItems, DefaultMaxItems).value;
      var os := PageItems(env, sid, maxLength, listUrl, titles, idx, w, PySliceTo(cands, n));
      forall i | 0 <= i < |os|
        ensures Fresh(idx, os[i])
      {
      }
      FreshOutcomesAppend(st, idx, os);
      var g := SettleAll(st, idx, os).grid;
      assert g[..|st.grid|] == st.grid;
    }
  }
}

=== FILE: md_date.dfy ===
/** The publication-date guess of the list crawler (`_extract_date_from_md` in
    crawlers/crawl_list.py), with both regexes modelled concretely:

    - labelled: `(?:Published|Date|작성일|배포일)[:\-\s]*(<iso>|<month>)` with IGNORECASE, searched
      over the whole text, where <iso> is `[0-9]{4}[.\-][0-9]{2}[.\-][0-9]{2}` and <month> is
      `[A-Z][a-z]{2}\s\d{1,2},?\s\d{4}`;
    - bare: `\b(20[2-9][0-9][.\-][0-1][0-9][.\-][0-3][0-9])\b`, searched in the first 2000
      characters only.

    The separator run before the date is greedy, and backing off it cannot help since a date
    starts with a letter or digit; likewise `\d{1,2}` and `,?` never need to back off. So each
    pattern has at most one match at a given position, computed below. */
module MdDate {
  import opened Wrappers
  import opened Seqs
  import opened Text

  predicate IsDigit(c: char) { '0' <= c <= '9' }
  predicate IsLetter(c: char) { ('a' <= c <= 'z') || ('A' <= c <= 'Z') }
  predicate IsDateSep(c: char) { c == '.' || c == '-' }

  /** `[:\-\s]`. */
  predicate IsLabelSep(c: char) { c == ':' || c == '-' || IsSpace(c) }

  /** The end of the run of separator characters starting at `j`. */
  function SepRunEnd(s: string, j: nat): (k: nat)
    requires j <= |s|
    ensures j <= k <= |s|
    ensures forall m :: j <= m < k ==> IsLabelSep(s[m])
    ensures k < |s| ==> !IsLabelSep(s[k])
    decreases |s| - j
  {
    if j < |s| && IsLabelSep(s[j]) then SepRunEnd(s, j + 1) else j
  }

  /** `[0-9]{4}[.\-][0-9]{2}[.\-][0-9]{2}` at `j`. */
  predicate IsoAt(s: string, j: nat) {
    j + 10 <= |s|
    && IsDigit(s[j]) && IsDigit(s[j + 1]) && IsDigit(s[j + 2]) && IsDigit(s[j + 3])
    && IsDateSep(s[j + 4]) && IsDigit(s[j + 5]) && IsDigit(s[j + 6])
    && IsDateSep(s[j + 7]) && IsDigit(s[j + 8]) && IsDigit(s[j + 9])
  }

  /** The end of `[A-Z][a-z]{2}\s\d{1,2},?\s\d{4}` (case-insensitive) matched at `j`, if it matches. */
  function MonthDateEnd(s: string, j: nat): (r: Option<nat>)
    ensures r.Some? ==> j + 10 <= r.value <= j + 12 <= |s| + 2 && r.value <= |s|
  {
    if !(j + 5 <= |s| && IsLetter(s[j]) && IsLetter(s[j + 1]) && IsLetter(s[j + 2])
         && IsSpace(s[j + 3]) && IsDigit(s[j + 4])) then None
    else
      var d := if j + 5 < |s| && IsDigit(s[j + 5]) then j + 6 else j + 5;
      var c := if d < |s| && s[d] == ',' then d + 1 else d;
      if c + 5 <= |s| && IsSpace(s[c])
         && IsDigit(s[c + 1]) && IsDigit(s[c + 2]) && IsDigit(s[c + 3]) && IsDigit(s[c + 4])
      then Some(c + 5)
      else None
  }

  /** The date group starting at `j`: the ISO alternative is tried first. */
  function DateGroupAt(s: string, j: nat): (r: Option<string>)
    ensures r.Some? ==> j + |r.value| <= |s| && r.value == s[j..j + |r.value|]
  {
    if IsoAt(s, j) then Some(s[j..j + 10])
    else
      match MonthDateEnd(s, j)
      case Some(e) => Some(s[j..e])
      case None => None
  }

  const Labels: seq<string> := ["published", "date", "작성일", "배포일"]

  /** The length of the label that starts at `i`, if one does; no two labels share a first letter. */
  function LabelAt(s: string, i: nat): (r: Option<nat>)
    requires i <= |s|
    ensures r.Some? ==> 0 < r.value && i + r.value <= |s|
  {
    if StartsWithCI(s[i..], Labels[0]) then Some(|Labels[0]|)
    else if StartsWithCI(s[i..], Labels[1]) then Some(|Labels[1]|)
    else if StartsWithCI(s[i..], Labels[2]) then Some(|Labels[2]|)
    else if StartsWithCI(s[i..], Labels[3]) then Some(|Labels[3]|)
    else None
  }

  /** The date captured by the labelled pattern when the search tries position `i`. */
  function LabelledAt(s: string, i: nat): Option<string>
    requires i <= |s|
  {
    match LabelAt(s, i)
    case None => None
    case Some(n) => DateGroupAt(s, SepRunEnd(s, i + n))
  }

  /** The leftmost position at or after `from` where the labelled pattern matches. */
  function FindLabelled(s: string, from: nat): (r: Option<nat>)
    requires from <= |s|
    ensures r.Some? ==> from <= r.value <= |s| && LabelledAt(s, r.value).Some?
    ensures forall k :: from <= k <= |s| && (r.None? || k < r.value) ==> LabelledAt(s, k).None?
    decreases |s| - from
  {
    if LabelledAt(s, from).Some? then Some(from)
    else if from == |s| then None
    else FindLabelled(s, from + 1)
  }

  /** `\b(20[2-9][0-9][.\-][0-1][0-9][.\-][0-3][0-9])\b` at `i`. */
  predicate BareAt(h: string, i: nat) {
    i + 10 <= |h| && Boundary(h, i) && Boundary(h, i + 10)
    && h[i] == '2' && h[i + 1] == '0' && '2' <= h[i + 2] <= '9' && IsDigit(h[i + 3])
    && IsDateSep(h[i + 4]) && '0' <= h[i + 5] <= '1' && IsDigit(h[i + 6])
    && IsDateSep(h[i + 7]) && '0' <= h[i + 8] <= '3' && IsDigit(h[i + 9])
  }

  /** The leftmost position at or after `from` where the bare date pattern matches. */
  function FindBare(h: string, from: nat): (r: Option<nat>)
    ensures r.Some? ==> from <= r.value && BareAt(h, r.value)
    ensures forall k :: from <= k && (r.None? || k < r.value) ==> !BareAt(h, k)
    decreases |h| - from
  {
    if from + 10 > |h| then None
    else if BareAt(h, from) then Some(from)
    else FindBare(h, from + 1)
  }

  /** How much of the text the bare search sees. */
  const HeadLength: nat := 2000

  /** `_extract_date_from_md`: the leftmost labelled date; failing that the leftmost bare date in
      the first 2000 characters; failing that "". */
  function ExtractDate(md: string): (r: string)
    ensures (exists i :: 0 <= i <= |md| && LabelledAt(md, i).Some?) ==>
      exists i :: 0 <= i <= |md| && LabelledAt(md, i) == Some(r)
        && forall k :: 0 <= k < i ==> LabelledAt(md, k).None?
    ensures (forall i :: 0 <= i <= |md| ==> LabelledAt(md, i).None?) ==>
      var h := PySliceTo(md, HeadLength);
      && (r == "" <==> forall i: nat :: !BareAt(h, i))
      && (r != "" ==>
            exists i: nat :: BareAt(h, i) && r == h[i..i + 10] && i + 10 <= HeadLength
              && forall k :: 0 <= k < i ==> !BareAt(h, k))
  {
    match FindLabelled(md, 0)
    case Some(i) => LabelledAt(md, i).value
    case None =>
      var h := PySliceTo(md, HeadLength);
      match FindBare(h, 0)
      case Some(i) => h[i..i + 10]
      case None => ""
  }

  /** The bare date is looked for in the first 2000 characters only: when neither text has a
      labelled date, what follows those characters never changes the result. */
  lemma ExtractDateIgnoresTail(md: string, tail: string)
    requires |md| >= HeadLength
    requires forall i :: 0 <= i <= |md| ==> LabelledAt(md, i).None?
    requires forall i :: 0 <= i <= |md + tail| ==> LabelledAt(md + tail, i).None?
    ensures ExtractDate(md + tail) == ExtractDate(md)
  {
    assert PySliceTo(md + tail, HeadLength) == PySliceTo(md, HeadLength);
    assert FindLabelled(md, 0).None?;
    assert FindLabelled(md + tail, 0).None?;
  }

  const LabelledText: string := "Published: 2024-05-01"

  lemma LabelledTextLabel()
    ensures LabelAt(LabelledText, 0) == Some(9)
  {
    var s := LabelledText;
    assert s[0..] == s;
    assert s[..9] == "Published";
    assert Lower(s[..9]) == "published" by {
      assert LowerChar('P') == 'p';
      assert Lower("Published")[0] == 'p';
    }
    assert StartsWithCI(s, "published");
  }

  lemma LabelledTextDate()
    ensures LabelledAt(LabelledText, 0) == Some("2024-05-01")
  {
    LabelledTextLabel();
    LabelledTextSep();
    LabelledTextIso();
  }

  lemma LabelledTextSep()
    ensures SepRunEnd(LabelledText, 9) == 11
  {
    var s := LabelledText;
    assert s[9] == ':' && s[10] == ' ' && s[11] == '2';
    assert SepRunEnd(s, 11) == 11;
  }

  lemma LabelledTextIso()
    ensures DateGroupAt(LabelledText, 11) == Some("2024-05-01")
  {
    var s := LabelledText;
    assert IsoAt(s, 11);
    assert s[11..21] == "2024-05-01";
  }

  /** A labelled ISO date is returned as written. */
  lemma LabelledExample()
    ensures ExtractDate(LabelledText) == "2024-05-01"
  {
    LabelledTextDate();
    assert FindLabelled(LabelledText, 0) == Some(0);
  }
}

=== FILE: relevance.dfy ===
/** The title relevance test of the Hacker News crawler (`RELEVANCE_PATTERN` in
    crawlers/api_hackernews.py): a title is relevant when any keyword pattern matches somewhere in
    it, ignoring case. Each keyword starts at a word boundary; most also end at one.

    A keyword pattern is a string over lower-case letters, spaces and two wildcards: '.' is the
    regex `.` (any character but a newline) and '~' is `.?` (optionally one such character). The
    source's alternations (`agen(t|tic)`, `vector.?(db|database|store|search)`, `series.[a-d]`, ...)
    are spelled out as one keyword per alternative, which matches the same titles. */
module Relevance {
  import opened Text

  datatype Keyword = Keyword(pat: string, endsAtBoundary: bool)

  function W(p: string): Keyword { Keyword(p, true) }
  function Prefix(p: string): Keyword { Keyword(p, false) }

  const Keywords: seq<Keyword> := [
    // AI / ML
    W("ai"), W("artificial.intelligence"), W("machine.learning"), W("ml"),
    W("deep.learning"), Prefix("neural.net"), Prefix("transformer"), W("llm"), W("gpt"),
    W("chatgpt"), W("openai"), W("anthropic"), W("claude"), W("gemini"),
    W("gemma"), W("llama"), W("mistral"), W("diffusion"), W("stable.diffusion"),
    W("agent"), W("agentic"), W("rag"), Prefix("fine~tun"), Prefix("prompt"), Prefix("embedding"),
    W("vector~db"), W("vector~database"), W("vector~store"), W("vector~search"),
    W("nlp"), W("computer.vision"),
    W("reinforcement.learning"), W("rlhf"), W("dpo"),
    Prefix("robot"), W("autonomous"), W("self.driving"),
    W("generative"), W("generation"), W("foundation.model"), W("open~source~model"),
    W("multimodal"), Prefix("speech"), W("tts"), W("stt"), W("ocr"),
    Prefix("image.gen"), Prefix("video.gen"), Prefix("text.to"),
    // Software engineering
    W("python"), W("rust"), W("typescript"), W("javascript"),
    W("golang"), W("kubernetes"), W("docker"), W("wasm"),
    W("api"), W("sdk"), W("open~source"), W("github"),
    W("compiler"), W("kernel"), W("linux"),
    W("cloud"), W("aws"), W("gcp"), W("azure"),
    W("database"), Prefix("postgres"), W("sqlite"), W("redis"),
    W("gpu"), W("nvidia"), W("cuda"), W("tpu"),
    W("serverless"), Prefix("edge.comput"),
    // Tech industry
    W("startup"), W("funding"), W("series.a"), W("series.b"), W("series.c"), W("series.d"), W("ipo"),
    W("google"), W("meta"), W("microsoft"), W("apple"), W("amazon"),
    W("deepseek"), W("deep~mind"), W("hugging~face"),
    // Data, security, infrastructure
    Prefix("cyber"), W("security"), W("privacy"), Prefix("encrypt"),
    W("data~science"), W("data~engineer"), W("data~pipeline"), W("mlops"),
    W("scale"), W("scaling"), W("scalability"), W("performance"), W("benchmark")
  ]

  /** The rest `p` of a keyword pattern matches `t` from position `i` (with backtracking over the
      optional wildcards), followed by a word boundary when `endB` is set. */
  predicate MatchesFrom(p: string, t: string, i: nat, endB: bool)
    decreases |p|
  {
    if |p| == 0 then i <= |t| && (!endB || Boundary(t, i))
    else if p[0] == '.' then i < |t| && t[i] != '\n' && MatchesFrom(p[1..], t, i + 1, endB)
    else if p[0] == '~' then
      MatchesFrom(p[1..], t, i, endB) || (i < |t| && t[i] != '\n' && MatchesFrom(p[1..], t, i + 1, endB))
    else i < |t| && LowerChar(t[i]) == p[0] && MatchesFrom(p[1..], t, i + 1, endB)
  }

  /** Keyword `k` matches `t` at position `i`. */
  predicate KeywordAt(k: Keyword, t: string, i: nat) {
    i <= |t| && Boundary(t, i) && MatchesFrom(k.pat, t, i, k.endsAtBoundary)
  }

  /** Some keyword of `ks` matches somewhere in `t`. */
  predicate AnyKeyword(ks: seq<Keyword>, t: string) {
    exists k, i :: 0 <= k < |ks| && 0 <= i <= |t| && KeywordAt(ks[k], t, i)
  }

  /** `RELEVANCE_PATTERN.search(title)` finds a match. */
  predicate IsRelevant(t: string) {
    AnyKeyword(Keywords, t)
  }

  /** Lower-casing a title keeps word boundaries where they are. */
  lemma BoundaryLower(t: string, i: nat)
    ensures Boundary(Lower(t), i) == Boundary(t, i)
  {
  }

  lemma {:induction false} MatchesFromLower(p: string, t: string, i: nat, endB: bool)
    ensures MatchesFrom(p, Lower(t), i, endB) == MatchesFrom(p, t, i, endB)
    decreases |p|
  {
    if |p| == 0 {
      BoundaryLower(t, i);
    } else {
      MatchesFromLower(p[1..], t, i + 1, endB);
      if p[0] == '~' {
        MatchesFromLower(p[1..], t, i, endB);
      }
      if i < |t| {
        assert Lower(t)[i] == LowerChar(t[i]);
      }
    }
  }

  /** Relevance ignores letter case: a title and its lower-cased form are relevant alike. */
  lemma RelevanceIgnoresCase(t: string)
    ensures IsRelevant(Lower(t)) == IsRelevant(t)
  {
    AnyKeywordLower(Keywords, t);
  }

  lemma AnyKeywordLower(ks: seq<Keyword>, t: string)
    ensures AnyKeyword(ks, Lower(t)) == AnyKeyword(ks, t)
  {
    forall k, i | 0 <= k < |ks| && 0 <= i <= |t|
      ensures KeywordAt(ks[k], Lower(t), i) == KeywordAt(ks[k], t, i)
    {
      BoundaryLower(t, i);
      MatchesFromLower(ks[k].pat, t, i, ks[k].endsAtBoundary);
    }
  }

  /** A match inside `t` is still a match once more words follow after a space. */
  lemma {:induction false} MatchesFromExtend(p: string, t: string, b: string, i: nat, endB: bool)
    requires MatchesFrom(p, t, i, endB)
    ensures MatchesFrom(p, t + " " + b, i, endB)
    decreases |p|
  {
    var u := t + " " + b;
    assert forall j :: 0 <= j < |t| ==> u[j] == t[j];
    assert u[|t|] == ' ';
    if |p| == 0 {
      assert Boundary(u, i) == Boundary(t, i);
    } else if p[0] == '~' && MatchesFrom(p[1..], t, i, endB) {
      MatchesFromExtend(p[1..], t, b, i, endB);
    } else {
      MatchesFromExtend(p[1..], t, b, i + 1, endB);
    }
  }

  /** Appending words after a space never makes a relevant title irrelevant. */
  lemma RelevantExtend(t: string, b: string)
    requires IsRelevant(t)
    ensures IsRelevant(t + " " + b)
  {
    AnyKeywordExtend(Keywords, t, b);
  }

  lemma AnyKeywordExtend(ks: seq<Keyword>, t: string, b: string)
    requires AnyKeyword(ks, t)
    ensures AnyKeyword(ks, t + " " + b)
  {
    var u := t + " " + b;
    var k, i :| 0 <= k < |ks| && 0 <= i <= |t| && KeywordAt(ks[k], t, i);
    MatchesFromExtend(ks[k].pat, t, b, i, ks[k].endsAtBoundary);
    assert forall j :: 0 <= j < |t| ==> u[j] == t[j];
    assert u[|t|] == ' ';
    assert Boundary(u, i) == Boundary(t, i);
    assert KeywordAt(ks[k], u, i);
  }

  /** A keyword must start and end on word boundaries: "ai" is found in "New AI model" but not
      inside "Email". */
  lemma AiKeywordExample()
    ensures KeywordAt(W("ai"), "New AI model", 4)
    ensures forall i :: 0 <= i <= 5 ==> !KeywordAt(W("ai"), "Email", i)
  {
    var t := "New AI model";
    assert t[3] == ' ' && t[4] == 'A' && t[5] == 'I' && t[6] == ' ';
    assert Boundary(t, 4);
    assert MatchesFrom("", t, 6, true);
    assert MatchesFrom("i", t, 5, true);
    var e := "Email";
    assert e[0] == 'E' && e[1] == 'm' && e[2] == 'a' && e[3] == 'i' && e[4] == 'l';
    forall i | 0 <= i <= 5
      ensures !KeywordAt(W("ai"), e, i)
    {
      assert 0 < i < 5 ==> !Boundary(e, i);
      assert i == 0 ==> !MatchesFrom("ai", e, i, true);
      assert i == 5 ==> !MatchesFrom("ai", e, i, true);
    }
  }
}

=== FILE: rss_deep.dfy ===
/** The deep feed crawler (crawlers/rss_deep.py): the feed's entries are screened first (logging a
    warning for each undated entry kept), then each kept entry's page is read, cleaned by its
    source's rule, truncated and stored. There is no check against the index. */
module RssDeep {
  import opened Wrappers
  import opened Seqs
  import opened TimeWindow
  import opened UrlIdentity
  import opened Cleaning
  import opened Sheet
  import opened Harvest
  import opened FeedEntries

  const DefaultMaxLength: int := 4000

  /** The screening loop: the kept entries in feed order, and the state with one warning logged per
      kept undated entry. */
  function ScreenAll(env: Env, w: Window, es: seq<Entry>, st: State): (r: (seq<Entry>, State))
    ensures r.1.grid == st.grid
    ensures |r.1.log| >= |st.log| && r.1.log[..|st.log|] == st.log
    ensures |r.1.log| - |st.log| <= |r.0|
    ensures r.0 == Filter((e: Entry) => Screen(env, w, e).Keep?, es)
    decreases |es|
  {
    if |es| == 0 then ([], st)
    else
      var init := ScreenAll(env, w, es[..|es| - 1], st);
      var e := es[|es| - 1];
      match Screen(env, w, e)
      case Skip => init
      case Keep(warn) =>
        var st1 := if warn then Warn(env, init.1, e) else init.1;
        assert st1.log[..|st.log|] == st1.log[..|init.1.log|][..|st.log|];
        (init.0 + [e], st1)
  }

  /** Screening logs exactly the warnings `Warns` owes, in feed order, and nothing else. */
  lemma {:induction false} ScreenAllLog(env: Env, w: Window, es: seq<Entry>, st: State)
    ensures ScreenAll(env, w, es, st).1 == State(st.grid, st.log + Warns(env, w, es))
    decreases |es|
  {
    if |es| > 0 {
      var init := es[..|es| - 1];
      var e := es[|es| - 1];
      ScreenAllLog(env, w, init, st);
      WarnsSnoc(env, w, init, e);
      SnocInit(es);
      ScreenAllStep(env, w, es, st);
      AppendAssoc(st.log, Warns(env, w, init), Owed(env, w, e));
    }
  }

  /** One step of the screening loop: the last entry's warning, if owed, is logged last. */
  lemma ScreenAllStep(env: Env, w: Window, es: seq<Entry>, st: State)
    requires |es| > 0
    ensures ScreenAll(env, w, es, st).1.log
         == ScreenAll(env, w, es[..|es| - 1], st).1.log + Owed(env, w, es[|es| - 1])
    ensures ScreenAll(env, w, es, st).1.grid == ScreenAll(env, w, es[..|es| - 1], st).1.grid
  {
  }

  /** `process_entry`: never skipped; the reader's failure is logged. The feed's title wins when it
      is present and not empty. */
  function DeepItem(env: Env, sid: string, maxLength: int, feedUrl: string, e: Entry): (o: Outcome)
    ensures !o.Dropped?
    ensures o.uuid == MakeItemUuid(env.digest, EntryUrl(e))
    ensures o.ReadFailed? <==> env.read(EntryUrl(e), false).None?
    ensures o.Stored? ==> UrlHeader in o.rec && o.rec[UrlHeader] == EntryUrl(e)
    ensures o.Stored? ==> "Full_Text" in o.rec && TextBounded(o.rec["Full_Text"], maxLength)
    ensures o.Stored? ==>
      && "Full_Text" in o.rec
      && o.rec["Full_Text"] == Truncate(DeepClean(env.find, sid, env.read(EntryUrl(e), false).value), maxLength, NewlineMarker)
    ensures env.read(EntryUrl(e), false).Some? ==>
      (o.Stored? <==>
         |Truncate(DeepClean(env.find, sid, env.read(EntryUrl(e), false).value), maxLength, NewlineMarker)| >= MinTextLen)
    ensures o.Stored? && e.title.Some? && e.title.value != "" ==>
      "Title_Org" in o.rec && o.rec["Title_Org"] == e.title.value
    ensures o.Stored? && !(e.title.Some? && e.title.value != "") ==>
      "Title_Org" in o.rec && o.rec["Title_Org"] == env.mdTitle(env.read(EntryUrl(e), false).value)
  {
    var raw := EntryUrl(e);
    var uuid := MakeItemUuid(env.digest, raw);
    match env.read(raw, false)
    case None => ReadFailed(uuid)
    case Some(md) =>
      MarkerLengths();
      var title := if e.title.Some? && e.title.value != "" then e.title.value else env.mdTitle(md);
      Finish(env, uuid, sid, raw, DeepClean(env.find, sid, md), maxLength, NewlineMarker, title,
             FeedJson("RSS_DEEP", feedUrl, title, raw))
  }

  function DeepItems(env: Env, sid: string, maxLength: int, feedUrl: string, es: seq<Entry>): (os: seq<Outcome>)
    ensures |os| == |es| && forall i :: 0 <= i < |es| ==> os[i] == DeepItem(env, sid, maxLength, feedUrl, es[i])
  {
    seq(|es|, i requires 0 <= i < |es| => DeepItem(env, sid, maxLength, feedUrl, es[i]))
  }

  /** What follows a successful feed fetch: screening, then the kept entries, then SOURCE_DONE;
      when no entry is kept nothing at all is logged. */
  function Screened(env: Env, sid: string, maxLength: int, feedUrl: string, idx: RawIndex, w: Window,
                    es: seq<Entry>, st: State): (r: State)
    ensures Extends(st, Finished(r))
    ensures (forall j :: 0 <= j < |es| ==> Screen(env, w, es[j]).Skip?) <==> r == st
  {
    var (kept, st1) := ScreenAll(env, w, es, st);
    var r := SettleSource(st1, idx, sid, DeepItems(env, sid, maxLength, feedUrl, kept));
    ExtendsTrans(st, st1, Finished(r));
    assert |kept| == 0 ==> st1 == st by {
      if |kept| == 0 { assert st1.log == st1.log[..|st.log|]; }
    }
    assert |kept| > 0 ==> kept[0] in es && Screen(env, w, kept[0]).Keep?;
    r
  }

  /** `RssDeepCrawler.crawl`. `Max_Length` is read before the guarded block, so a malformed one
      escapes. */
  function Crawl(env: Env, src: Source, idx: RawIndex, w: Window, st: State): (r: Crawled)
    ensures ReadInt(src.maxLength, DefaultMaxLength).None? <==> r == Escaped(st)
    ensures Extends(st, r)
    ensures r.Finished? ==> |r.st.log| >= |st.log| && r.st.log[..|st.log|] == st.log
    ensures r.Finished? && env.feed(TargetUrl(src)).BadStatus? ==>
      r.st == Log(st, "SOURCE_HTTP_FAIL", src.sourceId.GetOr("UNKNOWN"), "FAIL")
    ensures r.Finished? && env.feed(TargetUrl(src)).Raised? ==>
      r.st == Log(st, "SOURCE_ERROR", src.sourceId.GetOr("UNKNOWN"), "FAIL")
  {
    var sid := src.sourceId.GetOr("UNKNOWN");
    match ReadInt(src.maxLength, DefaultMaxLength)
    case None => Escaped(st)
    case Some(maxLength) =>
      var feedUrl := TargetUrl(src);
      match env.feed(feedUrl)
      case BadStatus => Finished(Log(st, "SOURCE_HTTP_FAIL", sid, "FAIL"))
      case Raised => Finished(Log(st, "SOURCE_ERROR", sid, "FAIL"))
      case Body(es) => Finished(Screened(env, sid, maxLength, feedUrl, idx, w, es, st))
  }
}

=== FILE: rss_full.dfy ===
/** The full-text feed crawler (crawlers/rss_full.py): each screened entry is stored with the text
    the feed itself carries, one entry after the other. There is no reader call and no check
    against the index, so an entry already in the sheet rewrites its row. */
module RssFull {
  import opened Wrappers
  import opened Seqs
  import opened TimeWindow
  import opened UrlIdentity
  import opened Cleaning
  import opened Sheet
  import opened HtmlText
  import opened Harvest
  import opened FeedEntries

  const DefaultMaxLength: int := 4000

  /** The entry's own text: the first content value, else the summary, else the description, else
      "". `None` when the content list is empty, where indexing it raises. */
  function EntryBody(e: Entry): (r: Option<string>)
    ensures r.None? <==> e.content == Some([])
    ensures e.content.Some? && |e.content.value| > 0 ==> r == Some(e.content.value[0])
    ensures e.content.None? && e.summary.Some? ==> r == e.summary
    ensures e.content.None? && e.summary.None? ==> r == Some(e.description.GetOr(""))
  {
    match e.content
    case Some(cs) => if |cs| == 0 then None else Some(cs[0])
    case None =>
      match e.summary
      case Some(s) => Some(s)
      case None => Some(e.description.GetOr(""))
  }

  /** The text, title and record of a kept entry; `None` when reading its body raises. */
  function FullItem(env: Env, sid: string, maxLength: int, feedUrl: string, e: Entry): (o: Option<Outcome>)
    ensures o.None? <==> EntryBody(e).None?
    ensures o.Some? ==> o.value.TooShort? || o.value.Stored?
    ensures o.Some? ==>
      (o.value.Stored? <==> |Truncate(StripHtml(EntryBody(e).value), maxLength, SpaceMarker)| >= MinTextLen)
    ensures o.Some? ==> o.value.uuid == MakeItemUuid(env.digest, EntryUrl(e))
    ensures o.Some? && o.value.Stored? ==>
      && UrlHeader in o.value.rec && o.value.rec[UrlHeader] == EntryUrl(e)
      && "Full_Text" in o.value.rec
      && o.value.rec["Full_Text"] == Truncate(StripHtml(EntryBody(e).value), maxLength, SpaceMarker)
      && TextBounded(o.value.rec["Full_Text"], maxLength)
      && "Title_Org" in o.value.rec && o.value.rec["Title_Org"] == e.title.GetOr("")
  {
    var raw := EntryUrl(e);
    var uuid := MakeItemUuid(env.digest, raw);
    match EntryBody(e)
    case None => None
    case Some(body) =>
      MarkerLengths();
      var title := e.title.GetOr("");
      Some(Finish(env, uuid, sid, raw, StripHtml(body), maxLength, SpaceMarker, title,
                  FeedJson("RSS_FULL", feedUrl, title, raw)))
  }

  /** A kept entry, from the state after its warning: its outcome settled, or the escape of the
      exception its body raised. */
  function KeptEntry(env: Env, sid: string, maxLength: int, feedUrl: string, idx: RawIndex,
                     e: Entry, st: State): (r: Crawled)
    ensures Extends(st, r)
    ensures r.Escaped? <==> EntryBody(e).None?
    ensures |r.st.log| == |st.log| + (if EntryBody(e).Some? then 1 else 0)
  {
    SettleKept(st, idx, FullItem(env, sid, maxLength, feedUrl, e))
  }

  /** One pass of the entry loop. `Escaped` carries the state when the entry's body raised. */
  function EntryStep(env: Env, sid: string, maxLength: int, feedUrl: string, idx: RawIndex, w: Window,
                     e: Entry, st: State): (r: Crawled)
    ensures Extends(st, r)
    ensures r.Escaped? <==> Screen(env, w, e).Keep? && EntryBody(e).None?
    ensures Screen(env, w, e).Skip? ==> r == Finished(st)
  {
    match Screen(env, w, e)
    case Skip => Finished(st)
    case Keep(warn) =>
      var st1 := if warn then Warn(env, st, e) else st;
      var r := KeptEntry(env, sid, maxLength, feedUrl, idx, e, st1);
      WarnExtends(env, st, e, warn);
      ExtendsTrans(st, st1, r);
      r
  }

  /** The log after one entry begins with the warning it owes, if any, and grows by that warning
      plus the one line its outcome logs when its body can be read. */
  lemma EntryStepLog(env: Env, sid: string, maxLength: int, feedUrl: string, idx: RawIndex, w: Window,
                     e: Entry, st: State)
    ensures var r := EntryStep(env, sid, maxLength, feedUrl, idx, w, e, st);
      && |r.st.log| >= |st.log| + |Owed(env, w, e)|
      && r.st.log[..|st.log| + |Owed(env, w, e)|] == st.log + Owed(env, w, e)
      && (Screen(env, w, e).Keep? ==>
            |r.st.log| == |st.log| + |Owed(env, w, e)| + (if EntryBody(e).Some? then 1 else 0))
  {
    var v := Screen(env, w, e);
    if v.Keep? {
      var st1 := if v.warn then Warn(env, st, e) else st;
      var r := KeptEntry(env, sid, maxLength, feedUrl, idx, e, st1);
      assert EntryStep(env, sid, maxLength, feedUrl, idx, w, e, st) == r;
      assert st1.log == st.log + Owed(env, w, e);
      assert r.st.log[..|st1.log|] == st1.log;
    }
  }

  /** The entry loop; the entries after one whose body raised are not looked at. */
  function Entries(env: Env, sid: string, maxLength: int, feedUrl: string, idx: RawIndex, w: Window,
                   es: seq<Entry>, st: State): (r: Crawled)
    ensures Extends(st, r)
    ensures (forall i :: 0 <= i < |es| ==> EntryBody(es[i]).Some?) ==> r.Finished?
    decreases |es|
  {
    if |es| == 0 then Finished(st)
    else
      match EntryStep(env, sid, maxLength, feedUrl, idx, w, es[0], st)
      case Escaped(st1) => Escaped(st1)
      case Finished(st1) =>
        var r := Entries(env, sid, maxLength, feedUrl, idx, w, es[1..], st1);
        assert forall i :: 0 <= i < |es| - 1 ==> es[1..][i] == es[i + 1];
        ExtendsTrans(st, st1, r);
        r
  }

  /** `RssFullCrawler.crawl`. `Max_Length` is read before the guarded block, so a malformed one
      escapes; a failing entry ends the source with SOURCE_ERROR; otherwise SOURCE_DONE closes it. */
  function Crawl(env: Env, src: Source, idx: RawIndex, w: Window, st: State): (r: Crawled)
    ensures ReadInt(src.maxLength, DefaultMaxLength).None? <==> r == Escaped(st)
    ensures Extends(st, r)
    ensures r.Finished? ==> |r.st.log| > |st.log| && r.st.log[..|st.log|] == st.log
    ensures r.Finished? && env.feed(TargetUrl(src)).BadStatus? ==>
      r.st == Log(st, "SOURCE_HTTP_FAIL", src.sourceId.GetOr("UNKNOWN"), "FAIL")
    ensures r.Finished? && env.feed(TargetUrl(src)).Raised? ==>
      r.st == Log(st, "SOURCE_ERROR", src.sourceId.GetOr("UNKNOWN"), "FAIL")
  {
    var sid := src.sourceId.GetOr("UNKNOWN");
    match ReadInt(src.maxLength, DefaultMaxLength)
    case None => Escaped(st)
    case Some(maxLength) =>
      var feedUrl := TargetUrl(src);
      match env.feed(feedUrl)
      case BadStatus => Finished(Log(st, "SOURCE_HTTP_FAIL", sid, "FAIL"))
      case Raised => Finished(Log(st, "SOURCE_ERROR", sid, "FAIL"))
      case Body(es) =>
        match Entries(env, sid, maxLength, feedUrl, idx, w, es, st)
        case Finished(st1) => Finished(Log(st1, "SOURCE_DONE", sid, "OK"))
        case Escaped(st1) => Finished(Log(st1, "SOURCE_ERROR", sid, "FAIL"))
  }

  /** Without the index check, an entry whose url is already indexed at an existing row rewrites
      that row in place instead of being skipped: the sheet keeps its length. */
  lemma StoredEntryRewritesIndexedRow(env: Env, sid: string, maxLength: int, feedUrl: string,
                                      idx: RawIndex, e: Entry, st: State)
    ensures var o := FullItem(env, sid, maxLength, feedUrl, e);
      o.Some? && o.value.Stored? && EntryUrl(e) in idx.urls && idx.urls[EntryUrl(e)] <= |st.grid| ==>
        RowRewritten(st.grid, Settle(st, idx, o.value).grid, idx.urls[EntryUrl(e)] as int - 1, idx.headers, o.value.rec)
  {
    var o := FullItem(env, sid, maxLength, feedUrl, e);
    if o.Some? && o.value.Stored? && EntryUrl(e) in idx.urls && idx.urls[EntryUrl(e)] <= |st.grid| {
      assert UrlHeader in o.value.rec && o.value.rec[UrlHeader] == EntryUrl(e);
      StoredIndexedRewrites(st, idx, o.value);
    }
  }
}

=== FILE: selection.dfy ===
/** The selection of the sources a run crawls (main.py): the active sources whose phase is at
    most the target phase, in sheet order. */
module Selection {
  import opened Wrappers
  import opened Seqs
  import opened Text
  import opened Harvest

  /** `TARGET_PHASE`. */
  const TargetPhase: int := 1
  const DefaultPhase: int := 999

  /** `str(s.get("Status", "")).lower() == "active"`. */
  predicate IsActive(s: Source) {
    Lower(s.status.GetOr("")) == "active"
  }

  /** A source the run crawls: active, with a phase at most the target phase. */
  predicate IsTarget(s: Source) {
    IsActive(s) && ReadInt(s.phase, DefaultPhase).Some? && ReadInt(s.phase, DefaultPhase).value <= TargetPhase
  }

  /** An active source whose phase `int` rejects; the status test comes first, so an inactive
      source's phase is never read. */
  predicate BreaksSelection(s: Source) {
    IsActive(s) && s.phase.Malformed?
  }

  /** The target list comprehension: `None` when it raises. */
  function Targets(sources: seq<Source>): (r: Option<seq<Source>>)
    ensures r.None? <==> exists i :: 0 <= i < |sources| && BreaksSelection(sources[i])
    ensures r.Some? ==> r.value == Filter(IsTarget, sources)
    decreases |sources|
  {
    if |sources| == 0 then Some([])
    else
      var s := sources[0];
      var rest := sources[1..];
      FilterCons(IsTarget, sources);
      ExistsCons(BreaksSelection, sources);
      if BreaksSelection(s) then None
      else
        match Targets(rest)
        case None => None
        case Some(ts) => Some(if IsTarget(s) then [s] + ts else ts)
  }
}

=== FILE: seqs.dfy ===
/** Generic facts about sequences: subsequences, filtering, duplicates and Python-style prefixes. */
module Seqs {

  /** `idx` lists, in strictly increasing order, the positions of `b` that spell out `a`. */
  ghost predicate Embeds<T>(idx: seq<nat>, a: seq<T>, b: seq<T>) {
    && |idx| == |a|
    && (forall k :: 0 <= k < |idx| ==> idx[k] < |b| && a[k] == b[idx[k]])
    && (forall k, l :: 0 <= k < l < |idx| ==> idx[k] < idx[l])
  }

  /** `a` is `b` with some elements removed and the rest kept in order. */
  ghost predicate IsSubseq<T>(a: seq<T>, b: seq<T>) {
    exists idx :: Embeds(idx, a, b)
  }

  /** No element occurs twice. */
  predicate NoDups<T(==)>(s: seq<T>) {
    forall i, j :: 0 <= i < j < |s| ==> s[i] != s[j]
  }

  /** Dropping the last element keeps a sequence duplicate-free, and that element is not among
      the rest. */
  lemma NoDupsInit<T>(s: seq<T>)
    requires NoDups(s) && |s| > 0
    ensures NoDups(s[..|s| - 1]) && s[|s| - 1] !in s[..|s| - 1]
  {
    var n := |s| - 1;
    forall i | 0 <= i < n
      ensures s[..n][i] != s[n]
    {
      assert s[..n][i] == s[i];
    }
  }

  lemma SubseqMember<T>(a: seq<T>, b: seq<T>, x: T)
    requires IsSubseq(a, b) && x in a
    ensures x in b
  {
    var idx: seq<nat> :| Embeds(idx, a, b);
    var k :| 0 <= k < |a| && a[k] == x;
    assert b[idx[k]] == x;
  }

  lemma SubseqRefl<T>(a: seq<T>)
    ensures IsSubseq(a, a)
  {
    var idx := seq(|a|, k requires 0 <= k < |a| => k);
    assert Embeds(idx, a, a);
  }

  lemma SubseqEmpty<T>(b: seq<T>)
    ensures IsSubseq([], b)
  {
    var idx: seq<nat> := [];
    assert Embeds(idx, [], b);
  }

  /** Appending an element to the larger sequence keeps a subsequence a subsequence. */
  lemma SubseqExtend<T>(a: seq<T>, b: seq<T>, x: T)
    requires IsSubseq(a, b)
    ensures IsSubseq(a, b + [x])
  {
    var idx: seq<nat> :| Embeds(idx, a, b);
    assert Embeds(idx, a, b + [x]);
  }

  /** Appending the same element to both sides keeps a subsequence a subsequence. */
  lemma SubseqExtendBoth<T>(a: seq<T>, b: seq<T>, x: T)
    requires IsSubseq(a, b)
    ensures IsSubseq(a + [x], b + [x])
  {
    var idx: seq<nat> :| Embeds(idx, a, b);
    var idx': seq<nat> := idx + [|b|];
    assert Embeds(idx', a + [x], b + [x]);
  }

  lemma SubseqTrans<T>(a: seq<T>, b: seq<T>, c: seq<T>)
    requires IsSubseq(a, b) && IsSubseq(b, c)
    ensures IsSubseq(a, c)
  {
    var i1: seq<nat> :| Embeds(i1, a, b);
    var i2: seq<nat> :| Embeds(i2, b, c);
    var idx := seq(|a|, k requires 0 <= k < |a| => i2[i1[k]]);
    assert Embeds(idx, a, c);
  }

  /** A prefix is a subsequence. */
  lemma PrefixIsSubseq<T>(s: seq<T>, n: nat)
    requires n <= |s|
    ensures IsSubseq(s[..n], s)
  {
    var idx := seq(n, k requires 0 <= k < n => k);
    assert Embeds(idx, s[..n], s);
  }

  /** The images under `f` of the elements of `s` that satisfy `p` once mapped, in their original
      order (`[f(x) for x in s]` filtered by `p`). */
  function FilterMap<A, B>(f: A -> B, p: B -> bool, s: seq<A>): (r: seq<B>)
    ensures |r| <= |s|
    ensures forall i :: 0 <= i < |r| ==> p(r[i])
    ensures forall i :: 0 <= i < |s| && p(f(s[i])) ==> f(s[i]) in r
    ensures forall i :: 0 <= i < |r| ==> exists k :: 0 <= k < |s| && r[i] == f(s[k])
    decreases |s|
  {
    if |s| == 0 then []
    else
      var init := s[..|s| - 1];
      var y := f(s[|s| - 1]);
      var r := FilterMap(f, p, init);
      assert forall i :: 0 <= i < |init| ==> s[i] == init[i];
      if !p(y) then r
      else
        var r' := r + [y];
        assert forall i :: 0 <= i < |r| ==> r'[i] == r[i];
        assert r'[|r|] == f(s[|s| - 1]);
        r'
  }

  /** The elements of `s` satisfying `p`, in their original order (a list comprehension with a condition). */
  function Filter<T>(p: T -> bool, s: seq<T>): (r: seq<T>)
    ensures |r| <= |s|
    ensures forall i :: 0 <= i < |r| ==> r[i] in s && p(r[i])
    ensures forall i :: 0 <= i < |s| && p(s[i]) ==> s[i] in r
  {
    if |s| == 0 then []
    else
      var init := Filter(p, s[..|s| - 1]);
      var x := s[|s| - 1];
      assert s == s[..|s| - 1] + [x];
      if p(x) then init + [x] else init
  }

  /** What filtering keeps is a subsequence of its input. */
  lemma {:induction false} FilterIsSubseq<T>(p: T -> bool, s: seq<T>)
    ensures IsSubseq(Filter(p, s), s)
    decreases |s|
  {
    if |s| == 0 {
      SubseqEmpty(s);
    } else {
      var init, x := s[..|s| - 1], s[|s| - 1];
      assert s == init + [x];
      FilterIsSubseq(p, init);
      if p(x) {
        SubseqExtendBoth(Filter(p, init), init, x);
      } else {
        SubseqExtend(Filter(p, init), init, x);
      }
    }
  }

  /** Filtering keeps a sequence whose elements all pass unchanged. */
  lemma {:induction false} FilterKeepsAll<T>(p: T -> bool, s: seq<T>)
    requires forall i :: 0 <= i < |s| ==> p(s[i])
    ensures Filter(p, s) == s
  {
    if |s| > 0 {
      assert s == s[..|s| - 1] + [s[|s| - 1]];
      FilterKeepsAll(p, s[..|s| - 1]);
    }
  }

  /** Filtering the concatenation of two sequences filters each part. */
  lemma {:induction false} FilterAppend<T>(p: T -> bool, a: seq<T>, b: seq<T>)
    ensures Filter(p, a + b) == Filter(p, a) + Filter(p, b)
    decreases |b|
  {
    if |b| > 0 {
      var b' := b[..|b| - 1];
      assert a + b == (a + b') + [b[|b| - 1]];
      assert (a + b)[..|a + b| - 1] == a + b';
      FilterAppend(p, a, b');
    } else {
      assert a + b == a;
    }
  }

  /** Filtering looks at the first element, then filters the rest. */
  lemma FilterCons<T>(p: T -> bool, s: seq<T>)
    requires |s| > 0
    ensures Filter(p, s) == (if p(s[0]) then [s[0]] + Filter(p, s[1..]) else Filter(p, s[1..]))
  {
    FilterAppend(p, [s[0]], s[1..]);
    assert [s[0]] + s[1..] == s;
    FilterSingle(p, s[0]);
  }

  /** Some element of a non-empty sequence satisfies `p` exactly when its head does or some
      element of its tail does. */
  lemma ExistsCons<T>(p: T -> bool, s: seq<T>)
    requires |s| > 0
    ensures (exists i :: 0 <= i < |s| && p(s[i])) <==> p(s[0]) || exists i :: 0 <= i < |s| - 1 && p(s[1..][i])
  {
    if exists i :: 0 <= i < |s| && p(s[i]) {
      var i :| 0 <= i < |s| && p(s[i]);
      if i > 0 {
        assert s[1..][i - 1] == s[i];
      }
    }
    if exists i :: 0 <= i < |s| - 1 && p(s[1..][i]) {
      var i :| 0 <= i < |s| - 1 && p(s[1..][i]);
      assert s[1..][i] == s[i + 1];
    }
  }

  lemma FilterSingle<T>(p: T -> bool, x: T)
    ensures Filter(p, [x]) == if p(x) then [x] else []
  {
    assert [x][..0] == [];
  }

  /** Filtering a sequence none of whose elements passes gives the empty sequence. */
  lemma FilterNone<T>(p: T -> bool, s: seq<T>)
    requires forall i :: 0 <= i < |s| ==> !p(s[i])
    ensures Filter(p, s) == []
  {
  }

  /** Python's `s[:n]`: a non-negative `n` keeps at most `n` leading elements; a negative `n`
      drops `-n` elements from the end. */
  function PySliceTo<T>(s: seq<T>, n: int): (r: seq<T>)
    ensures |r| <= |s| && r == s[..|r|]
    ensures n >= 0 ==> |r| == if n < |s| then n else |s|
    ensures n < 0 ==> |r| == if |s| + n > 0 then |s| + n else 0
  {
    if n >= 0 then (if n < |s| then s[..n] else s)
    else (if |s| + n > 0 then s[..|s| + n] else [])
  }

  /** The position of the first occurrence of `x` in `s`, or `|s|` when absent. */
  function FirstIndex<T(==)>(s: seq<T>, x: T): (i: nat)
    ensures i <= |s|
    ensures i < |s| <==> x in s
    ensures i < |s| ==> s[i] == x
    ensures forall k :: 0 <= k < i ==> s[k] != x
  {
    if |s| == 0 then 0
    else if s[0] == x then 0
    else 1 + FirstIndex(s[1..], x)
  }

  /** The first occurrence of an element of a prefix is found inside that prefix. */
  lemma FirstIndexPrefix<T>(s: seq<T>, n: nat, x: T)
    requires n <= |s| && x in s[..n]
    ensures FirstIndex(s, x) == FirstIndex(s[..n], x)
  {
    var i := FirstIndex(s[..n], x);
    assert s[i] == x;
    assert forall k :: 0 <= k < i ==> s[k] == s[..n][k];
  }

  /** The elements of `s` in first-occurrence order, each once (an insertion-ordered set). */
  function Distinct<T(==)>(s: seq<T>): (r: seq<T>)
    ensures NoDups(r)
    ensures forall i :: 0 <= i < |r| ==> r[i] in s
    ensures forall i :: 0 <= i < |s| ==> s[i] in r
  {
    if |s| == 0 then []
    else
      var init := s[..|s| - 1];
      var r := Distinct(init);
      var x := s[|s| - 1];
      assert forall i :: 0 <= i < |init| ==> s[i] == init[i];
      if x in r then r else r + [x]
  }

  /** A slice of a slice is a slice of the whole. */
  lemma SliceSlice<T>(c: seq<T>, k: int, l: int, i: int, j: int)
    requires 0 <= k <= l <= |c| && 0 <= i <= j <= l - k
    ensures c[k..l][i..j] == c[k + i..k + j]
  {
    var b := c[k..l];
    forall m | 0 <= m < j - i
      ensures b[i..j][m] == c[k + i..k + j][m]
    {
      assert b[i..j][m] == b[i + m] == c[k + i + m];
    }
  }

  /** Appending a non-empty sequence is appending all but its last element, then that element. */
  lemma AppendSnoc<T>(s: seq<T>, t: seq<T>)
    requires |t| > 0
    ensures s + t == (s + t[..|t| - 1]) + [t[|t| - 1]]
  {
    assert t == t[..|t| - 1] + [t[|t| - 1]];
  }

  /** A non-empty sequence is its initial part followed by its last element. */
  lemma SnocInit<T>(s: seq<T>)
    requires |s| > 0
    ensures s[..|s| - 1] + [s[|s| - 1]] == s
  {
  }

  /** Appending an element keeps the head and appends to the tail. */
  lemma SnocTail<T>(s: seq<T>, x: T)
    requires |s| > 0
    ensures (s + [x])[0] == s[0] && (s + [x])[1..] == s[1..] + [x]
  {
  }

  /** Concatenation is associative. */
  lemma AppendAssoc<T>(a: seq<T>, b: seq<T>, c: seq<T>)
    ensures (a + b) + c == a + (b + c)
  {
  }

  /** Appending one element: it joins the end of the distinct list unless already there. */
  lemma DistinctSnoc<T>(s: seq<T>, x: T)
    ensures Distinct(s + [x]) == if x in Distinct(s) then Distinct(s) else Distinct(s) + [x]
  {
    assert (s + [x])[..|s|] == s;
  }
}

=== FILE: sheet.dfy ===
/** The raw-data worksheet of core/gsheets.py: the index from `Raw_Url` to row number built once per
    run, and the upsert that either overwrites the indexed row or appends a new one. A worksheet is
    its grid of cell strings, row 0 being the header row; sheet row numbers are 1-based. */
module Sheet {
  import opened Wrappers
  import opened Seqs
  import opened Text

  type Grid = seq<seq<string>>

  /** A 1-based sheet row number. */
  type RowNumber = n: nat | n >= 1 witness 1

  /** A record to write: column name to cell text. */
  type Record = map<string, string>

  /** What `build_raw_url_index` returns besides the worksheet handle. */
  datatype RawIndex = RawIndex(headers: seq<string>, urlCol: nat, urls: map<string, RowNumber>)

  datatype IndexError = SheetEmpty | NoRawUrlColumn

  const UrlHeader: string := "Raw_Url"

  function StripAll(xs: seq<string>): (r: seq<string>)
    ensures |r| == |xs| && forall i :: 0 <= i < |xs| ==> r[i] == Strip(xs[i])
  {
    seq(|xs|, i requires 0 <= i < |xs| => Strip(xs[i]))
  }

  /** The url found in a row, if the row reaches the url column and the stripped cell is not empty. */
  function RowUrl(row: seq<string>, col: nat): Option<string> {
    if |row| > col && Strip(row[col]) != "" then Some(Strip(row[col])) else None
  }

  /** The url of every row, the header row included. */
  function RowUrls(all: Grid, col: nat): (r: seq<Option<string>>)
    ensures |r| == |all| && forall i :: 0 <= i < |all| ==> r[i] == RowUrl(all[i], col)
  {
    seq(|all|, i requires 0 <= i < |all| => RowUrl(all[i], col))
  }

  /** The map built from rows 1 to `n - 1` (the header row excluded) of the row urls `keys`, row
      `i` getting row number `i + 1`: a later row with the same url overwrites an earlier one. */
  function UrlMap(keys: seq<Option<string>>, n: nat): (m: map<string, RowNumber>)
    requires n <= |keys|
    ensures forall u :: u in m ==> 2 <= m[u] <= n
    decreases n
  {
    if n <= 1 then map[]
    else
      var m := UrlMap(keys, n - 1);
      if keys[n - 1].Some? then m[keys[n - 1].value := n] else m
  }

  /** `build_raw_url_index`. */
  function BuildIndex(all: Grid): (r: Result<RawIndex, IndexError>)
    ensures |all| == 0 <==> r == Failure(SheetEmpty)
    ensures r == Failure(NoRawUrlColumn) <==> |all| > 0 && UrlHeader !in StripAll(all[0])
    ensures r.Success? ==>
      && r.value.headers == StripAll(all[0])
      && r.value.urlCol < |r.value.headers| && r.value.headers[r.value.urlCol] == UrlHeader
      && (forall k :: 0 <= k < r.value.urlCol ==> r.value.headers[k] != UrlHeader)
      && r.value.urls == UrlMap(RowUrls(all, r.value.urlCol), |all|)
  {
    if |all| == 0 then Failure(SheetEmpty)
    else
      var headers := StripAll(all[0]);
      var col := FirstIndex(headers, UrlHeader);
      if col == |headers| then Failure(NoRawUrlColumn)
      else Success(RawIndex(headers, col, UrlMap(RowUrls(all, col), |all|)))
  }

  /** Every mapped url is carried by the row it is mapped to, and by no later row. */
  lemma {:induction false} UrlMapSound(keys: seq<Option<string>>, n: nat, u: string)
    requires n <= |keys| && u in UrlMap(keys, n)
    ensures keys[UrlMap(keys, n)[u] - 1] == Some(u)
    ensures forall j :: UrlMap(keys, n)[u] <= j < n ==> keys[j] != Some(u)
    decreases n
  {
    var m := UrlMap(keys, n - 1);
    if keys[n - 1] != Some(u) {
      UrlMapSound(keys, n - 1, u);
    }
  }

  /** Every row below the header that carries a url has its url mapped. */
  lemma {:induction false} UrlMapComplete(keys: seq<Option<string>>, n: nat, j: nat)
    requires n <= |keys| && 1 <= j < n && keys[j].Some?
    ensures keys[j].value in UrlMap(keys, n)
    decreases n
  {
    if j < n - 1 {
      UrlMapComplete(keys, n - 1, j);
    }
  }

  /** The map depends only on the rows it reads. */
  lemma {:induction false} UrlMapPrefix(keys: seq<Option<string>>, extra: seq<Option<string>>, n: nat)
    requires n <= |keys|
    ensures UrlMap(keys + extra, n) == UrlMap(keys, n)
    decreases n
  {
    if n > 1 {
      UrlMapPrefix(keys, extra, n - 1);
      assert (keys + extra)[n - 1] == keys[n - 1];
    }
  }

  /** The map built from rows 1 to `n - 1` maps exactly the urls those rows carry, each to the last
      row carrying it. */
  lemma UrlMapExact(keys: seq<Option<string>>, n: nat)
    requires n <= |keys|
    ensures var m := UrlMap(keys, n);
      forall u :: u in m ==>
        keys[m[u] - 1] == Some(u) && forall j :: m[u] <= j < n ==> keys[j] != Some(u)
    ensures forall j :: 1 <= j < n && keys[j].Some? ==> keys[j].value in UrlMap(keys, n)
  {
    var m := UrlMap(keys, n);
    forall u | u in m
      ensures keys[m[u] - 1] == Some(u) && forall j :: m[u] <= j < n ==> keys[j] != Some(u)
    {
      UrlMapSound(keys, n, u);
    }
    forall j | 1 <= j < n && keys[j].Some?
      ensures keys[j].value in m
    {
      UrlMapComplete(keys, n, j);
    }
  }

  /** The index built from a sheet maps exactly the urls its rows carry, each to the last row
      carrying it. */
  lemma IndexExact(all: Grid)
    requires BuildIndex(all).Success?
    ensures var idx := BuildIndex(all).value;
      (forall u :: u in idx.urls ==>
        idx.urls[u] <= |all| && RowUrl(all[idx.urls[u] - 1], idx.urlCol) == Some(u)
        && forall j :: idx.urls[u] <= j < |all| ==> RowUrl(all[j], idx.urlCol) != Some(u))
      && (forall j :: 1 <= j < |all| && RowUrl(all[j], idx.urlCol).Some? ==>
        RowUrl(all[j], idx.urlCol).value in idx.urls)
  {
    var idx := BuildIndex(all).value;
    var keys := RowUrls(all, idx.urlCol);
    UrlMapExact(keys, |all|);
    assert forall j :: 0 <= j < |all| ==> keys[j] == RowUrl(all[j], idx.urlCol);
  }

  /** `row_data`: one cell per header, the record's value or "" when it has none. */
  function RowData(headers: seq<string>, data: Record): (r: seq<string>)
    ensures |r| == |headers|
    ensures forall i :: 0 <= i < |headers| ==> (headers[i] in data ==> r[i] == data[headers[i]])
    ensures forall i :: 0 <= i < |headers| ==> (headers[i] !in data ==> r[i] == "")
  {
    seq(|headers|, i requires 0 <= i < |headers| => if headers[i] in data then data[headers[i]] else "")
  }

  /** `sheet.update("A<row>", [cells])`: the cells overwrite the row from column A; cells further
      right keep their values. */
  function WriteRow(prev: seq<string>, cells: seq<string>): (r: seq<string>)
    ensures |r| == if |prev| > |cells| then |prev| else |cells|
    ensures r[..|cells|] == cells
    ensures forall k :: |cells| <= k < |prev| ==> r[k] == prev[k]
  {
    if |prev| > |cells| then cells + prev[|cells|..] else cells
  }

  /** Writes `cells` at 0-based row `i`, growing the grid with empty rows when it is shorter. */
  function PutRow(g: Grid, i: nat, cells: seq<string>): (r: Grid)
    ensures |r| == if i < |g| then |g| else i + 1
    ensures r[i] == WriteRow(if i < |g| then g[i] else [], cells)
    ensures forall k :: 0 <= k < |g| && k != i ==> r[k] == g[k]
  {
    if i < |g| then g[i := WriteRow(g[i], cells)]
    else
      var pad: Grid := seq(i - |g|, _ => []);
      var r := g + pad + [cells];
      assert WriteRow([], cells) == cells;
      r
  }

  /** `upsert_raw_by_url`: a record whose `Raw_Url` is in the map overwrites the mapped row; any
      other record (including one without `Raw_Url`) is appended. The map itself is not updated. */
  function Upsert(g: Grid, idx: RawIndex, data: Record): (r: Grid)
    ensures UrlHeader in data && data[UrlHeader] in idx.urls ==>
      var i: nat := idx.urls[data[UrlHeader]] as int - 1;
      |r| == (if i < |g| then |g| else i + 1)
      && |r[i]| >= |idx.headers| && r[i][..|idx.headers|] == RowData(idx.headers, data)
      && forall k :: 0 <= k < |g| && k != i ==> r[k] == g[k]
    ensures !(UrlHeader in data && data[UrlHeader] in idx.urls) ==> r == g + [RowData(idx.headers, data)]
  {
    var cells := RowData(idx.headers, data);
    if UrlHeader in data && data[UrlHeader] in idx.urls then
      PutRow(g, idx.urls[data[UrlHeader]] as int - 1, cells)
    else g + [cells]
  }

  /** Because the map is not updated after an append, upserting the same new url twice in one run
      appends two rows carrying it. */
  lemma StaleIndexDuplicates(g: Grid, idx: RawIndex, data: Record)
    requires UrlHeader in data && data[UrlHeader] !in idx.urls
    ensures var g2 := Upsert(Upsert(g, idx, data), idx, data);
      |g2| == |g| + 2 && g2[|g|] == g2[|g| + 1] == RowData(idx.headers, data)
  {
  }

  /** Rebuilding the index after an append finds the appended url at the new last row, provided the
      url is already stripped and non-empty. */
  lemma IndexAfterAppend(g: Grid, data: Record)
    requires BuildIndex(g).Success? && UrlHeader in data
    requires data[UrlHeader] != "" && IsStripped(data[UrlHeader])
    ensures var idx := BuildIndex(g).value;
      var g' := Upsert(g, idx, data);
      data[UrlHeader] !in idx.urls ==>
        BuildIndex(g').Success? && BuildIndex(g').value.headers == idx.headers
        && BuildIndex(g').value.urls == idx.urls[data[UrlHeader] := |g'|]
  {
    var idx := BuildIndex(g).value;
    var u := data[UrlHeader];
    if u !in idx.urls {
      var row := RowData(idx.headers, data);
      assert Upsert(g, idx, data) == g + [row];
      RowDataUrl(idx.headers, idx.urlCol, data);
      IndexSnoc(g, row, u);
    }
  }

  /** The row written for a record carries its stripped, non-empty url in the url column. */
  lemma RowDataUrl(headers: seq<string>, col: nat, data: Record)
    requires col < |headers| && headers[col] == UrlHeader && UrlHeader in data
    requires data[UrlHeader] != "" && IsStripped(data[UrlHeader])
    ensures RowUrl(RowData(headers, data), col) == Some(data[UrlHeader])
  {
    assert RowData(headers, data)[col] == data[UrlHeader];
    StripStripped(data[UrlHeader]);
  }

  /** Rebuilding the index after appending a row that carries `u` maps `u` to the new row. */
  lemma IndexSnoc(g: Grid, row: seq<string>, u: string)
    requires BuildIndex(g).Success? && RowUrl(row, BuildIndex(g).value.urlCol) == Some(u)
    ensures var idx := BuildIndex(g).value;
      BuildIndex(g + [row]) == Success(RawIndex(idx.headers, idx.urlCol, idx.urls[u := |g| + 1]))
  {
    var idx := BuildIndex(g).value;
    var keys := RowUrls(g, idx.urlCol);
    RowUrlsAppend(g, row, idx.urlCol);
    UrlMapSnoc(keys, u);
    BuildIndexAppend(g, row);
  }

  /** A url carried by a new last row is mapped to that row; the rest of the map is as before. */
  lemma UrlMapSnoc(keys: seq<Option<string>>, u: string)
    requires |keys| >= 1
    ensures UrlMap(keys + [Some(u)], |keys| + 1) == UrlMap(keys, |keys|)[u := |keys| + 1]
  {
    UrlMapPrefix(keys, [Some(u)], |keys|);
    assert (keys + [Some(u)])[|keys|] == Some(u);
  }

  lemma RowUrlsAppend(g: Grid, row: seq<string>, col: nat)
    ensures RowUrls(g + [row], col) == RowUrls(g, col) + [RowUrl(row, col)]
  {
  }

  /** Appending a row leaves the header row, and with it the url column, as it was. */
  lemma BuildIndexAppend(g: Grid, row: seq<string>)
    requires BuildIndex(g).Success?
    ensures var idx := BuildIndex(g).value;
      BuildIndex(g + [row]) == Success(RawIndex(idx.headers, idx.urlCol, UrlMap(RowUrls(g + [row], idx.urlCol), |g| + 1)))
  {
    assert (g + [row])[0] == g[0];
  }
}

=== FILE: text.dfy ===
/** String primitives with Python's semantics: `str.strip`, `str.lower`/`upper` (ASCII letters),
    `str.split`/`join` on one separator character, and the two whitespace-collapsing
    substitutions the crawler applies (newline runs and whitespace runs). */
module Text {
  import opened Seqs

  /** Python's `str.isspace` for one character; also what `\s` matches in a `str` regex. */
  predicate IsSpace(c: char) {
    || c == ' '
    || ('\t' <= c <= '\r')
    || ('\U{1C}' <= c <= '\U{1F}')
    || c == '\U{85}' || c == '\U{A0}' || c == '\U{1680}'
    || ('\U{2000}' <= c <= '\U{200A}')
    || c == '\U{2028}' || c == '\U{2029}' || c == '\U{202F}' || c == '\U{205F}' || c == '\U{3000}'
  }

  /** Neither end of `s` is whitespace. */
  predicate IsStripped(s: string) {
    |s| == 0 || (!IsSpace(s[0]) && !IsSpace(s[|s| - 1]))
  }

  /** The number of whitespace characters at the end of `s`. */
  function TrailingSpaceRun(s: string): (k: nat)
    ensures k <= |s|
    ensures forall i :: |s| - k <= i < |s| ==> IsSpace(s[i])
    ensures k < |s| ==> !IsSpace(s[|s| - k - 1])
  {
    if |s| > 0 && IsSpace(s[|s| - 1]) then 1 + TrailingSpaceRun(s[..|s| - 1]) else 0
  }

  /** Python's `str.strip()`: `s` without its leading and trailing whitespace. The result starts
      right after the leading whitespace run, and everything after it is whitespace. */
  function Strip(s: string): (r: string)
    ensures IsStripped(r)
    ensures |r| <= |s| - SpaceRun(s)
    ensures r == s[SpaceRun(s)..SpaceRun(s) + |r|]
    ensures forall k :: SpaceRun(s) + |r| <= k < |s| ==> IsSpace(s[k])
  {
    var a := SpaceRun(s);
    var t := s[a..];
    t[..|t| - TrailingSpaceRun(t)]
  }

  /** Stripping a string that already has no whitespace at either end changes nothing. */
  lemma StripStripped(s: string)
    requires IsStripped(s)
    ensures Strip(s) == s
  {
  }

  /** `str.strip` is idempotent. */
  lemma StripIdempotent(s: string)
    ensures Strip(Strip(s)) == Strip(s)
  {
    StripStripped(Strip(s));
  }

  /** `r` occurs contiguously inside `s`. */
  ghost predicate IsInfix(r: string, s: string) {
    exists i, j :: 0 <= i <= j <= |s| && r == s[i..j]
  }

  lemma InfixRefl(s: string)
    ensures IsInfix(s, s)
  {
    assert s == s[0..|s|];
  }

  lemma InfixTrans(a: string, b: string, c: string)
    requires IsInfix(a, b) && IsInfix(b, c)
    ensures IsInfix(a, c)
  {
    var i, j :| 0 <= i <= j <= |b| && a == b[i..j];
    var k, l :| 0 <= k <= l <= |c| && b == c[k..l];
    SliceSlice(c, k, l, i, j);
  }

  lemma InfixSlice(s: string, i: nat, j: nat)
    requires i <= j <= |s|
    ensures IsInfix(s[i..j], s)
  {
  }

  lemma StripIsInfix(s: string)
    ensures IsInfix(Strip(s), s)
  {
    InfixSlice(s, SpaceRun(s), SpaceRun(s) + |Strip(s)|);
  }

  /** ASCII lower-casing of one character; every other character is left alone. */
  function LowerChar(c: char): char {
    if 'A' <= c <= 'Z' then (c as int + 32) as char else c
  }

  /** ASCII upper-casing of one character. */
  function UpperChar(c: char): char {
    if 'a' <= c <= 'z' then (c as int - 32) as char else c
  }

  /** `str.lower()` restricted to ASCII letters. */
  function Lower(s: string): (r: string)
    ensures |r| == |s| && forall i :: 0 <= i < |s| ==> r[i] == LowerChar(s[i])
  {
    seq(|s|, i requires 0 <= i < |s| => LowerChar(s[i]))
  }

  /** `str.upper()` restricted to ASCII letters. */
  function Upper(s: string): (r: string)
    ensures |r| == |s| && forall i :: 0 <= i < |s| ==> r[i] == UpperChar(s[i])
  {
    seq(|s|, i requires 0 <= i < |s| => UpperChar(s[i]))
  }

  /** `s.startswith(p)`. */
  predicate StartsWith(s: string, p: string) {
    |p| <= |s| && s[..|p|] == p
  }

  /** `p` (given in lower case) is a prefix of `s` ignoring ASCII letter case, as a regex anchored
      at the start with `re.IGNORECASE` matches it. */
  predicate StartsWithCI(s: string, p: string) {
    |p| <= |s| && Lower(s[..|p|]) == p
  }

  /** The position of the first `c` in `s`, or `|s|` when there is none. */
  function IndexOf(s: string, c: char): (i: nat)
    ensures i <= |s|
    ensures i < |s| ==> s[i] == c
    ensures forall k :: 0 <= k < i ==> s[k] != c
  {
    if |s| == 0 then 0
    else if s[0] == c then 0
    else 1 + IndexOf(s[1..], c)
  }

  /** `c` occurs in `s` exactly when its first position is inside `s`. */
  lemma IndexOfIn(s: string, c: char)
    ensures IndexOf(s, c) < |s| <==> c in s
  {
  }

  /** The first `c` of `s` is at `i` when `s[i]` is `c` and no earlier character is. */
  lemma IndexOfAt(s: string, c: char, i: nat)
    requires i < |s| && s[i] == c && forall k :: 0 <= k < i ==> s[k] != c
    ensures IndexOf(s, c) == i
  {
  }

  /** Python's `s.split(c)` for a one-character separator: the maximal `c`-free pieces, always at least one. */
  function Split(s: string, c: char): (r: seq<string>)
    ensures |r| >= 1
    decreases |s|
  {
    var i := IndexOf(s, c);
    if i == |s| then [s] else [s[..i]] + Split(s[i + 1..], c)
  }

  /** No piece of a split contains the separator, and there is more than one piece exactly when
      the separator occurs. */
  lemma {:induction false} SplitPieces(s: string, c: char)
    ensures forall k :: 0 <= k < |Split(s, c)| ==> c !in Split(s, c)[k]
    ensures forall k, d :: 0 <= k < |Split(s, c)| && d in Split(s, c)[k] ==> d in s
    ensures |Split(s, c)| == 1 <==> c !in s
    decreases |s|
  {
    var i := IndexOf(s, c);
    if i < |s| {
      SplitPieces(s[i + 1..], c);
      assert Split(s, c) == [s[..i]] + Split(s[i + 1..], c);
      forall k, d | 0 <= k < |Split(s, c)| && d in Split(s, c)[k]
        ensures d in s
      {
        if k == 0 {
          assert d in s[..i];
        } else {
          assert d in s[i + 1..];
        }
      }
    }
  }

  /** Python's `c.join(xs)`. */
  function Join(xs: seq<string>, c: char): string {
    if |xs| == 0 then ""
    else if |xs| == 1 then xs[0]
    else xs[0] + [c] + Join(xs[1..], c)
  }

  /** Splitting and re-joining on the same separator gives back the original string. */
  lemma {:induction false} JoinSplit(s: string, c: char)
    ensures Join(Split(s, c), c) == s
    decreases |s|
  {
    var i := IndexOf(s, c);
    if i < |s| {
      var tail := s[i + 1..];
      assert Split(s, c) == [s[..i]] + Split(tail, c);
      JoinSplit(tail, c);
      var ys := Split(tail, c);
      var xs := [s[..i]] + ys;
      assert |xs| >= 2 && xs[0] == s[..i] && xs[1..] == ys;
      assert Join(xs, c) == xs[0] + [c] + Join(ys, c);
      assert s == s[..i] + [c] + tail;
    }
  }

  /** Joining separator-free pieces and splitting again gives back the pieces. */
  lemma {:induction false} SplitJoin(xs: seq<string>, c: char)
    requires |xs| >= 1
    requires forall k :: 0 <= k < |xs| ==> c !in xs[k]
    ensures Split(Join(xs, c), c) == xs
  {
    if |xs| > 1 {
      assert Join(xs, c) == xs[0] + ([c] + Join(xs[1..], c));
      SplitAt(xs[0], c, Join(xs[1..], c));
      SplitJoin(xs[1..], c);
      assert [xs[0]] + xs[1..] == xs;
    }
  }

  /** Splitting at a first separator that follows a separator-free piece. */
  lemma SplitAt(a: string, c: char, b: string)
    requires c !in a
    ensures Split(a + ([c] + b), c) == [a] + Split(b, c)
  {
    var j := a + ([c] + b);
    assert forall k :: 0 <= k < |a| ==> j[k] == a[k];
    IndexOfAt(j, c, |a|);
    assert j[|a| + 1..] == b;
    assert j[..|a|] == a;
  }

  /** A character that does not occur in any piece does not occur in their join, unless it is the separator. */
  lemma {:induction false} JoinFree(xs: seq<string>, c: char, d: char)
    requires d != c
    requires forall k :: 0 <= k < |xs| ==> d !in xs[k]
    ensures d !in Join(xs, c)
  {
    if |xs| > 1 {
      JoinFree(xs[1..], c, d);
    }
  }

  /** Nowhere in `s` do three newlines follow one another. */
  predicate NoTripleNewline(s: string) {
    forall i :: 0 <= i && i + 2 < |s| ==> !(s[i] == '\n' && s[i + 1] == '\n' && s[i + 2] == '\n')
  }

  /** The number of newlines at the start of `s`. */
  function NewlineRun(s: string): (k: nat)
    ensures k <= |s|
    ensures forall i :: 0 <= i < k ==> s[i] == '\n'
    ensures k < |s| ==> s[k] != '\n'
  {
    if |s| > 0 && s[0] == '\n' then 1 + NewlineRun(s[1..]) else 0
  }

  /** Python's `re.sub(r'\n{3,}', '\n\n', s)`: every run of three or more newlines becomes exactly two. */
  function CollapseNewlines(s: string): (r: string)
    ensures NoTripleNewline(r)
    ensures |r| <= |s|
    ensures |s| > 0 && s[0] != '\n' ==> |r| > 0 && r[0] == s[0]
    ensures |s| == 0 <==> |r| == 0
    decreases |s|
  {
    if |s| == 0 then ""
    else if s[0] != '\n' then
      var rest := CollapseNewlines(s[1..]);
      var r := [s[0]] + rest;
      assert NoTripleNewline(r) by {
        forall i | 0 <= i && i + 2 < |r|
          ensures !(r[i] == '\n' && r[i + 1] == '\n' && r[i + 2] == '\n')
        {
          if i > 0 {
            assert r[i] == rest[i - 1] && r[i + 1] == rest[i] && r[i + 2] == rest[i + 1];
          }
        }
      }
      r
    else
      var k := NewlineRun(s);
      var rest := CollapseNewlines(s[k..]);
      var lead := if k >= 3 then "\n\n" else s[..k];
      var r := lead + rest;
      var l := |lead|;
      assert 1 <= l <= 2;
      assert NoTripleNewline(r) by {
        forall i | 0 <= i && i + 2 < |r|
          ensures !(r[i] == '\n' && r[i + 1] == '\n' && r[i + 2] == '\n')
        {
          if i >= l {
            assert r[i] == rest[i - l] && r[i + 1] == rest[i - l + 1] && r[i + 2] == rest[i - l + 2];
          } else {
            assert r[l] == rest[0] && rest[0] != '\n';
          }
        }
      }
      r
  }

  /** An infix of a string without three consecutive newlines has none either. */
  lemma NoTripleInfix(s: string, i: nat, j: nat)
    requires i <= j <= |s| && NoTripleNewline(s)
    ensures NoTripleNewline(s[i..j])
  {
    var t := s[i..j];
    forall k | 0 <= k && k + 2 < |t|
      ensures !(t[k] == '\n' && t[k + 1] == '\n' && t[k + 2] == '\n')
    {
      assert t[k] == s[i + k] && t[k + 1] == s[i + k + 1] && t[k + 2] == s[i + k + 2];
    }
  }

  /** `re.sub(r'\n{3,}', '\n\n', s).strip()`, the normalisation applied to every rendered page. */
  function CollapseAndStrip(s: string): (r: string)
    ensures NoTripleNewline(r)
    ensures IsStripped(r)
    ensures |r| <= |s|
  {
    var c := CollapseNewlines(s);
    StripNoTriple(c);
    Strip(c)
  }

  /** Stripping keeps a text free of three consecutive newlines. */
  lemma StripNoTriple(c: string)
    requires NoTripleNewline(c)
    ensures NoTripleNewline(Strip(c))
  {
    NoTripleInfix(c, SpaceRun(c), SpaceRun(c) + |Strip(c)|);
  }

  /** A character other than a newline. */
  predicate NotNewline(c: char) { c != '\n' }

  /** A character other than whitespace. */
  predicate NotSpace(c: char) { !IsSpace(c) }

  /** The newline collapse changes exactly the texts that hold three newlines in a row;
      every other text is its own fixed point. */
  lemma CollapseNewlinesFixed(s: string)
    ensures CollapseNewlines(s) == s <==> NoTripleNewline(s)
  {
    if NoTripleNewline(s) {
      CollapseLeaves(s);
    }
  }

  /** The fixed-point half of `CollapseNewlinesFixed`, by induction on the text. */
  lemma {:induction false} CollapseLeaves(s: string)
    requires NoTripleNewline(s)
    ensures CollapseNewlines(s) == s
    decreases |s|
  {
    if |s| == 0 {
    } else if s[0] != '\n' {
      NoTripleSuffix(s, 1);
      CollapseLeaves(s[1..]);
      CollapseOther(s);
      Rejoin(s, 1, [s[0]], CollapseNewlines(s), CollapseNewlines(s[1..]));
    } else {
      ShortRun(s);
      var lead, rest := CollapseRun(s);
      NoTripleSuffix(s, NewlineRun(s));
      CollapseLeaves(rest);
      Rejoin(s, NewlineRun(s), lead, CollapseNewlines(s), CollapseNewlines(rest));
    }
  }

  /** A text without three newlines in a row starts with at most two. */
  lemma ShortRun(s: string)
    requires NoTripleNewline(s)
    ensures NewlineRun(s) < 3
  {
    if |s| >= 3 {
      assert !(s[0] == '\n' && s[1] == '\n' && s[2] == '\n');
    }
  }

  /** A text glued back from its own first `k` characters and the rest is the text. */
  lemma Rejoin(s: string, k: nat, lead: string, c: string, d: string)
    requires k <= |s| && lead == s[..k] && c == lead + d && d == s[k..]
    ensures c == s
  {
  }

  /** A suffix of a string without three consecutive newlines has none either. */
  lemma NoTripleSuffix(s: string, i: nat)
    requires i <= |s| && NoTripleNewline(s)
    ensures NoTripleNewline(s[i..])
  {
    NoTripleInfix(s, i, |s|);
    assert s[i..|s|] == s[i..];
  }

  /** The newline collapse only removes newlines: whatever test no newline passes picks the
      same characters, in the same order, out of the collapsed text as out of the original. */
  lemma {:induction false} CollapseNewlinesKeeps(p: char -> bool, s: string)
    requires !p('\n')
    ensures Filter(p, CollapseNewlines(s)) == Filter(p, s)
    decreases |s|
  {
    if |s| == 0 {
    } else if s[0] != '\n' {
      CollapseNewlinesKeeps(p, s[1..]);
      KeepsOther(p, s);
    } else {
      var lead, rest := CollapseRun(s);
      CollapseNewlinesKeeps(p, rest);
      KeepsRun(p, s, NewlineRun(s), lead, CollapseNewlines(s), CollapseNewlines(rest));
    }
  }

  /** The step of `CollapseNewlinesKeeps` for a text that starts with another character. */
  lemma {:induction false} KeepsOther(p: char -> bool, s: string)
    requires |s| > 0 && s[0] != '\n'
    requires Filter(p, CollapseNewlines(s[1..])) == Filter(p, s[1..])
    ensures Filter(p, CollapseNewlines(s)) == Filter(p, s)
  {
    CollapseOther(s);
    KeepsAcross(p, [s[0]], [s[0]], CollapseNewlines(s[1..]), s[1..]);
    assert [s[0]] + s[1..] == s;
  }

  /** The step of `CollapseNewlinesKeeps` for a text that starts with a newline run of length
      `k` that became `lead`; `d` is the collapse of what follows the run. */
  lemma {:induction false} KeepsRun(p: char -> bool, s: string, k: nat, lead: string, c: string, d: string)
    requires !p('\n') && k <= |s|
    requires forall i :: 0 <= i < k ==> s[i] == '\n'
    requires forall i :: 0 <= i < |lead| ==> lead[i] == '\n'
    requires c == lead + d && Filter(p, d) == Filter(p, s[k..])
    ensures Filter(p, c) == Filter(p, s)
  {
    FilterNone(p, lead);
    FilterNone(p, s[..k]);
    KeepsAcross(p, lead, s[..k], d, s[k..]);
    assert s[..k] + s[k..] == s;
  }

  /** One step of the newline collapse on a text that starts with another character. */
  lemma CollapseOther(s: string)
    requires |s| > 0 && s[0] != '\n'
    ensures CollapseNewlines(s) == [s[0]] + CollapseNewlines(s[1..])
  {
  }

  /** One step of the newline collapse on a text that starts with a newline run: the run
      becomes `lead`, at most two newlines, and `rest` is what follows the run. */
  lemma CollapseRun(s: string) returns (lead: string, rest: string)
    requires |s| > 0 && s[0] == '\n'
    ensures rest == s[NewlineRun(s)..]
    ensures forall i :: 0 <= i < |lead| ==> lead[i] == '\n'
    ensures NewlineRun(s) < 3 ==> lead == s[..NewlineRun(s)]
    ensures CollapseNewlines(s) == lead + CollapseNewlines(rest)
  {
    var k := NewlineRun(s);
    lead := if k >= 3 then "\n\n" else s[..k];
    rest := s[k..];
  }

  /** Two concatenations whose matching parts filter alike filter alike. */
  lemma {:induction false} KeepsAcross(p: char -> bool, a: string, a': string, b: string, b': string)
    requires Filter(p, a) == Filter(p, a') && Filter(p, b) == Filter(p, b')
    ensures Filter(p, a + b) == Filter(p, a' + b')
  {
    FilterAppend(p, a, b);
    FilterAppend(p, a', b');
  }

  /** Stripping removes whitespace only: the non-whitespace characters of `s` survive in order. */
  lemma {:induction false} StripKeepsText(s: string)
    ensures Filter(NotSpace, Strip(s)) == Filter(NotSpace, s)
  {
    var a := SpaceRun(s);
    var r := Strip(s);
    var b := a + |r|;
    var front, back := s[..a], s[b..];
    assert s[..b] == front + r;
    assert s == s[..b] + back;
    forall i | 0 <= i < |front| ensures !NotSpace(front[i]) {
      assert front[i] == s[i];
    }
    forall i | 0 <= i < |back| ensures !NotSpace(back[i]) {
      assert back[i] == s[b + i];
    }
    FilterNone(NotSpace, front);
    FilterNone(NotSpace, back);
    FilterAppend(NotSpace, front, r);
    FilterAppend(NotSpace, s[..b], back);
  }

  /** The page normalisation drops whitespace only: the non-whitespace characters of the page
      appear in the normalised text in the same order, and nothing else does. */
  lemma CollapseAndStripKeepsText(s: string)
    ensures Filter(NotSpace, CollapseAndStrip(s)) == Filter(NotSpace, s)
  {
    CollapseNewlinesKeeps(NotSpace, s);
    StripKeepsText(CollapseNewlines(s));
  }

  /** A regex word character (`\w`), restricted to ASCII. */
  predicate IsWordChar(c: char) {
    ('a' <= c <= 'z') || ('A' <= c <= 'Z') || ('0' <= c <= '9') || c == '_'
  }

  /** A regex word boundary (`\b`) at position `i` of `s`: word and non-word characters meet there. */
  predicate Boundary(s: string, i: nat) {
    (0 < i <= |s| && IsWordChar(s[i - 1])) != (i < |s| && IsWordChar(s[i]))
  }

  /** Python's `re.sub(r'\s+', ' ', s)`: every run of whitespace becomes one space. */
  function CollapseSpaces(s: string): (r: string)
    ensures |r| <= |s|
    ensures forall i :: 0 <= i < |r| && IsSpace(r[i]) ==> r[i] == ' '
    ensures forall i :: 0 <= i && i + 1 < |r| ==> !(r[i] == ' ' && r[i + 1] == ' ')
    ensures |s| > 0 && !IsSpace(s[0]) ==> |r| > 0 && r[0] == s[0]
    ensures |s| > 0 && IsSpace(s[0]) ==> |r| > 0 && r[0] == ' '
    decreases |s|
  {
    if |s| == 0 then ""
    else if !IsSpace(s[0]) then [s[0]] + CollapseSpaces(s[1..])
    else
      var k := SpaceRun(s);
      [' '] + CollapseSpaces(s[k..])
  }

  /** The number of whitespace characters at the start of `s`. */
  function SpaceRun(s: string): (k: nat)
    ensures k <= |s|
    ensures forall i :: 0 <= i < k ==> IsSpace(s[i])
    ensures k < |s| ==> !IsSpace(s[k])
  {
    if |s| > 0 && IsSpace(s[0]) then 1 + SpaceRun(s[1..]) else 0
  }
}

=== FILE: time_window.dfy ===
/** The collection window (core/time_filter.py). Instants are integer seconds since the Unix epoch;
    Asia/Seoul is a fixed UTC+9 offset. */
module TimeWindow {
  import opened Wrappers

  const Day: int := 86400
  const Hour: int := 3600
  const SeoulOffset: int := 9 * Hour
  const CutoverHour: int := 16

  /** A closed interval of instants. */
  datatype Window = Window(start: int, end: int)

  /** The hour of the day on the Seoul wall clock at instant `t`. */
  function LocalHour(t: int): (h: int)
    ensures 0 <= h < 24
  {
    ((t + SeoulOffset) % Day) / Hour
  }

  /** The instant of Seoul midnight that starts the local day of `t`. */
  function LocalMidnight(t: int): (m: int)
    ensures m <= t < m + Day
    ensures (m + SeoulOffset) % Day == 0
  {
    t - (t + SeoulOffset) % Day
  }

  /** An instant at which the Seoul wall clock reads 16:00:00. */
  predicate IsCutover(t: int) {
    (t + SeoulOffset) % Day == CutoverHour * Hour
  }

  /** `get_collection_window`: the window ends at 16:00 Seoul time today when the local hour is
      16 or later, else at 16:00 yesterday, and starts one day before its end. The end is a
      cutover in (now - 1 day, now]. */
  function CollectionWindow(now: int): (w: Window)
    ensures w.end - w.start == Day
    ensures IsCutover(w.end) && IsCutover(w.start)
    ensures w.end <= now < w.end + Day
    ensures LocalHour(now) >= CutoverHour ==> LocalMidnight(w.end) == LocalMidnight(now)
    ensures LocalHour(now) < CutoverHour ==> LocalMidnight(w.end) == LocalMidnight(now) - Day
  {
    var today := LocalMidnight(now) + CutoverHour * Hour;
    var end := if LocalHour(now) >= CutoverHour then today else today - Day;
    Window(end - Day, end)
  }

  /** Two cutovers differ by a whole number of days. */
  lemma CutoverSpacing(a: int, b: int)
    requires IsCutover(a) && IsCutover(b)
    ensures a - b == ((a + SeoulOffset) / Day - (b + SeoulOffset) / Day) * Day
  {
    assert a + SeoulOffset == ((a + SeoulOffset) / Day) * Day + CutoverHour * Hour;
    assert b + SeoulOffset == ((b + SeoulOffset) / Day) * Day + CutoverHour * Hour;
  }

  /** The window end is the most recent cutover: every cutover at or before `now` is at or before
      the end, and the end is the only cutover in (now - 1 day, now]. */
  lemma MostRecentCutover(now: int, c: int)
    requires IsCutover(c) && c <= now
    ensures c <= CollectionWindow(now).end
    ensures c > now - Day ==> c == CollectionWindow(now).end
  {
    var e := CollectionWindow(now).end;
    CutoverSpacing(c, e);
    var q := (c + SeoulOffset) / Day - (e + SeoulOffset) / Day;
    assert c - e == q * Day;
    assert q <= 0;
    if c > now - Day {
      assert q >= 0;
    }
  }

  /** Windows computed one day apart are contiguous: the later starts where the earlier ends. */
  lemma WindowsContiguous(now: int)
    ensures CollectionWindow(now + Day).start == CollectionWindow(now).end
  {
    var e := CollectionWindow(now).end;
    var e' := CollectionWindow(now + Day).end;
    CutoverShift(e);
    CutoverShift(e' - Day);
    MostRecentCutover(now + Day, e + Day);
    MostRecentCutover(now, e' - Day);
  }

  /** A day after a cutover is a cutover. */
  lemma CutoverShift(c: int)
    requires IsCutover(c)
    ensures IsCutover(c + Day)
  {
    assert (c + Day + SeoulOffset) % Day == (c + SeoulOffset) % Day;
  }

  /** `is_within_window`: a missing date is outside; otherwise the test is inclusive at both ends.
      Converting the date to Seoul time first does not move the instant. */
  function IsWithinWindow(pub: Option<int>, w: Window): (b: bool)
    ensures pub.None? ==> !b
    ensures pub.Some? ==> (b <==> w.start <= pub.value <= w.end)
  {
    match pub
    case None => false
    case Some(t) => w.start <= t && t <= w.end
  }

  /** Of two consecutive windows, exactly the shared boundary instant lies in both. */
  lemma ConsecutiveWindowsOverlap(now: int, t: int)
    ensures var w := CollectionWindow(now);
      IsWithinWindow(Some(t), w) && IsWithinWindow(Some(t), CollectionWindow(now + Day)) <==> t == w.end
  {
    WindowsContiguous(now);
  }

  /** `parse_date_robust`: the empty string is no date; anything else is up to the date parser,
      which is a parameter (it yields the instant, or nothing when it cannot parse). */
  function ParseDateRobust(parse: string -> Option<int>, s: string): (r: Option<int>)
    ensures s == "" ==> r.None?
    ensures s != "" ==> r == parse(s)
  {
    if s == "" then None else parse(s)
  }
}

=== FILE: url_identity.dfy ===
/** URL identity (core/utils.py): the https upgrade applied to configured URLs, canonicalisation of
    discovered URLs, the content-addressed item id, host extraction and first-occurrence
    de-duplication. */
module UrlIdentity {
  import opened Seqs
  import opened Text

  // ---------------------------------------------------------------------------------------------
  // ensure_https

  /** Forces an https scheme onto a configured URL. The empty string stays empty; otherwise the
      stripped URL gets "https://" in place of its own "https://" or "http://" prefix (matched
      case-sensitively), or in front of it when it has neither. */
  function EnsureHttps(url: string): (r: string)
    ensures url == "" <==> r == ""
    ensures url != "" ==> StartsWith(r, "https://")
    ensures url != "" && StartsWith(Strip(url), "https://") ==> r == Strip(url)
    ensures url != "" && !StartsWith(Strip(url), "https://") && StartsWith(Strip(url), "http://") ==>
      r == "https://" + Strip(url)[7..]
    ensures url != "" && !StartsWith(Strip(url), "https://") && !StartsWith(Strip(url), "http://") ==>
      r == "https://" + Strip(url)
  {
    if url == "" then ""
    else
      var t := Strip(url);
      if StartsWith(t, "https://") then t
      else if StartsWith(t, "http://") then "https://" + t[7..]
      else "https://" + t
  }

  /** Applying the upgrade twice is the same as applying it once. */
  lemma EnsureHttpsIdempotent(url: string)
    ensures EnsureHttps(EnsureHttps(url)) == EnsureHttps(url)
  {
    var r := EnsureHttps(url);
    if url != "" {
      var t := Strip(url);
      assert IsStripped(r) by {
        if StartsWith(t, "https://") {
        } else if StartsWith(t, "http://") {
          assert r[|r| - 1] == if |t| > 7 then t[|t| - 1] else '/';
        } else {
          assert r[|r| - 1] == if |t| > 0 then t[|t| - 1] else '/';
        }
      }
      StripStripped(r);
    }
  }

  // ---------------------------------------------------------------------------------------------
  // normalize_url

  /** A leading "http://", in any letter case, replaced by "https://"; anything else is kept. */
  function UpgradeScheme(s: string): (r: string)
    ensures StartsWithCI(s, "http://") ==> StartsWith(r, "https://") && r[8..] == s[7..]
    ensures !StartsWithCI(s, "http://") ==> r == s
  {
    if StartsWithCI(s, "http://") then "https://" + s[7..] else s
  }

  /** The index just after the last newline of `s`, or 0 when it has none. */
  function LastLineStart(s: string): (k: nat)
    ensures k <= |s|
    ensures '\n' !in s[k..]
    ensures k > 0 ==> s[k - 1] == '\n'
  {
    if |s| == 0 then 0
    else if s[|s| - 1] == '\n' then |s|
    else
      var k := LastLineStart(s[..|s| - 1]);
      assert s[k..] == s[..|s| - 1][k..] + [s[|s| - 1]];
      k
  }

  /** Python's `re.sub(r'#.*$', '', s)` without MULTILINE: `.` stops at a newline and `$` matches
      only at the end or before a final newline, so the only '#' that can start a fragment is the
      first one on the last line. That '#' and the rest of its line are removed. */
  function DropFragment(s: string): (r: string)
    ensures |r| <= |s|
    ensures (|s| == 0 || s[|s| - 1] != '\n') ==> r == s[..|r|]
    ensures (|s| == 0 || s[|s| - 1] != '\n') && |r| < |s| ==> s[|r|] == '#'
    ensures '\n' !in s ==> r == s[..IndexOf(s, '#')]
  {
    var e := if |s| > 0 && s[|s| - 1] == '\n' then |s| - 1 else |s|;
    var k := LastLineStart(s[..e]);
    var h := k + IndexOf(s[k..e], '#');
    assert '\n' !in s ==> k == 0 && s[k..e] == s;
    if h == e then s else s[..h] + s[e..]
  }

  /** A query parameter whose lower-cased key is a tracking key: it starts with "utm_" or is
      "fbclid" or "gclid". The key is the text before the first '='. */
  predicate IsTrackingParam(kv: string) {
    var key := Lower(Split(kv, '=')[0]);
    StartsWith(key, "utm_") || key == "fbclid" || key == "gclid"
  }

  predicate KeepParam(kv: string) {
    !IsTrackingParam(kv)
  }

  /** The URL after the three string rewrites that precede query filtering: strip, scheme upgrade,
      fragment removal. */
  function Defragmented(u: string): string {
    DropFragment(UpgradeScheme(Strip(u)))
  }

  /** The part of a URL before its first '?'. */
  function PathPart(s: string): string {
    Split(s, '?')[0]
  }

  /** The '&'-separated items between the first and the second '?' of a URL, or none when the URL
      has no '?'. */
  function QueryParams(s: string): seq<string> {
    var parts := Split(s, '?');
    if |parts| == 1 then [] else Split(parts[1], '&')
  }

  /** `c` occurs at most once in `s`. */
  predicate AtMostOnce(s: string, c: char) {
    forall i, j :: 0 <= i < j < |s| && s[i] == c ==> s[j] != c
  }

  /** The non-tracking parameters of the first query segment, in order. */
  function KeptParams(url: string): seq<string> {
    Filter(KeepParam, QueryParams(url))
  }

  /** The query-filtering half of `normalize_url`: a URL without '?' is returned as is; otherwise
      its path, followed by '?' and the '&'-joined kept parameters when there are any. */
  function FilterQuery(url: string): (r: string)
    ensures '?' !in url ==> r == url
  {
    var parts := Split(url, '?');
    SplitPieces(url, '?');
    if |parts| == 1 then url
    else
      var kept := KeptParams(url);
      if |kept| > 0 then parts[0] + "?" + Join(kept, '&') else parts[0]
  }

  /** Python's `normalize_url`: strip, upgrade a leading http:// to https://, drop the fragment,
      keep the path before the first '?', and keep only the non-tracking parameters of the query
      that follows it (dropping the '?' when none are left). */
  function NormalizeUrl(u: string): (r: string)
    ensures '\n' !in u ==> '#' !in r
    ensures AtMostOnce(r, '?')
  {
    var url := Defragmented(u);
    NoNewlineNoHash(u);
    FilterQueryChars(url);
    FilterQuery(url)
  }

  /** Query filtering adds no character except one '?', and leaves at most one '?'. */
  lemma FilterQueryChars(url: string)
    ensures AtMostOnce(FilterQuery(url), '?')
    ensures forall c :: c != '?' && c !in url ==> c !in FilterQuery(url)
  {
    var parts := Split(url, '?');
    SplitPieces(url, '?');
    if |parts| == 1 {
      assert AtMostOnce(url, '?');
    } else {
      var kept := KeptParams(url);
      if |kept| > 0 {
        QueryFree(parts[1], '?');
        OnceAround(parts[0], Join(kept, '&'), '?');
        forall c | c != '?' && c !in url
          ensures c !in FilterQuery(url)
        {
          assert c !in parts[0];
          assert c !in parts[1];
          if c != '&' {
            QueryFree(parts[1], c);
          }
        }
      }
    }
  }

  /** A character (other than '&') absent from a query string is absent from its filtered re-join. */
  lemma QueryFree(q: string, c: char)
    requires c != '&'
    ensures c !in q ==> c !in Join(Filter(KeepParam, Split(q, '&')), '&')
  {
    if c !in q {
      var xs := Split(q, '&');
      SplitPieces(q, '&');
      var kept := Filter(KeepParam, xs);
      forall k | 0 <= k < |kept|
        ensures c !in kept[k]
      {
        var m := FirstIndex(xs, kept[k]);
        assert xs[m] == kept[k];
      }
      JoinFree(kept, '&', c);
    }
  }

  lemma OnceAround(a: string, b: string, c: char)
    requires c !in a && c !in b
    ensures AtMostOnce(a + [c] + b, c)
  {
    var s := a + [c] + b;
    forall i, j | 0 <= i < j < |s|
      ensures !(s[i] == c && s[j] == c)
    {
      if i < |a| {
        assert s[i] == a[i];
      } else if i > |a| {
        assert s[i] == b[i - |a| - 1];
      } else {
        assert s[j] == b[j - |a| - 1];
      }
    }
  }

  /** Without newlines, fragment removal leaves no '#' and nothing after it in any split piece. */
  lemma NoNewlineNoHash(u: string)
    ensures '\n' !in u ==> '#' !in Defragmented(u) && '\n' !in Defragmented(u)
  {
    if '\n' !in u {
      var t := Strip(u);
      StripKeepsOut(u, '\n');
      var v := UpgradeScheme(t);
      UpgradeKeepsOut(t, '\n');
      var d := DropFragment(v);
      assert d == v[..IndexOf(v, '#')];
    }
  }

  /** Stripping adds no character. */
  lemma StripKeepsOut(u: string, c: char)
    requires c !in u
    ensures c !in Strip(u)
  {
    var t := Strip(u);
    assert forall i :: 0 <= i < |t| ==> t[i] == u[SpaceRun(u) + i];
  }

  /** The scheme upgrade adds no character outside "https://". */
  lemma UpgradeKeepsOut(t: string, c: char)
    requires c !in t && c !in "https://"
    ensures c !in UpgradeScheme(t)
  {
    var v := UpgradeScheme(t);
    if StartsWithCI(t, "http://") {
      assert forall i :: 8 <= i < |v| ==> v[i] == t[i - 1];
    }
  }

  /** The first piece of a split is the text before the first separator. */
  lemma SplitHead(s: string, c: char)
    ensures Split(s, c)[0] == s[..IndexOf(s, c)]
  {
  }

  /** Query filtering keeps the path (everything before the first '?') and keeps exactly the
      non-tracking parameters of the first query segment, in their original order. */
  lemma FilterQueryLaw(url: string)
    ensures PathPart(FilterQuery(url)) == PathPart(url)
    ensures QueryParams(FilterQuery(url)) == KeptParams(url)
  {
    var parts := Split(url, '?');
    SplitPieces(url, '?');
    if |parts| > 1 {
      var params := Split(parts[1], '&');
      var kept := KeptParams(url);
      if |kept| > 0 {
        QueryFree(parts[1], '?');
        SplitJoinPair(parts[0], Join(kept, '&'), '?');
        KeptSplitBack(parts[1]);
      } else {
        SplitPieces(parts[0], '?');
      }
    }
  }

  /** Re-splitting the joined kept parameters of a query gives them back. */
  lemma KeptSplitBack(q: string)
    requires |Filter(KeepParam, Split(q, '&'))| > 0
    ensures Split(Join(Filter(KeepParam, Split(q, '&')), '&'), '&') == Filter(KeepParam, Split(q, '&'))
  {
    var params := Split(q, '&');
    var kept := Filter(KeepParam, params);
    SplitPieces(q, '&');
    forall k | 0 <= k < |kept|
      ensures '&' !in kept[k]
    {
      var m := FirstIndex(params, kept[k]);
      assert params[m] == kept[k];
    }
    SplitJoin(kept, '&');
  }

  /** Normalisation keeps the path of the defragmented URL and exactly its non-tracking query
      parameters, in order. */
  lemma NormalizeFiltersQuery(u: string)
    ensures PathPart(NormalizeUrl(u)) == PathPart(Defragmented(u))
    ensures QueryParams(NormalizeUrl(u)) == Filter(KeepParam, QueryParams(Defragmented(u)))
  {
    FilterQueryLaw(Defragmented(u));
  }

  /** Splitting "a?b" where neither part holds the separator gives back the two parts. */
  lemma SplitJoinPair(a: string, b: string, c: char)
    requires c !in a && c !in b
    ensures Split(a + [c] + b, c) == [a, b]
  {
    assert Join([a, b], c) == a + [c] + b;
    SplitJoin([a, b], c);
  }

  lemma PrefixTrans(a: string, b: string, c: string)
    requires StartsWith(a, b) && StartsWith(b, c)
    ensures StartsWith(a, c)
  {
    assert a[..|c|] == b[..|c|];
  }

  /** A query-filtered URL starts with the path of its input. */
  lemma FilterQueryStartsWithPath(url: string)
    ensures StartsWith(FilterQuery(url), PathPart(url))
  {
    FilterQueryShape(url);
    FilterQueryLaw(url);
  }

  /** The path of a URL is a prefix of it, and so is every '?'-free prefix of the URL. */
  lemma PathPrefix(url: string, p: string)
    ensures StartsWith(url, PathPart(url))
    ensures StartsWith(url, p) && '?' !in p ==> StartsWith(PathPart(url), p)
  {
    SplitHead(url, '?');
    if StartsWith(url, p) && '?' !in p {
      assert forall i :: 0 <= i < |p| ==> url[i] == p[i] != '?';
    }
  }

  /** Fragment removal keeps every '#'-free prefix of a string that does not end in a newline. */
  lemma DropFragmentPrefix(v: string, p: string)
    requires |v| == 0 || v[|v| - 1] != '\n'
    requires StartsWith(v, p) && '#' !in p
    ensures StartsWith(DropFragment(v), p)
  {
    assert forall i :: 0 <= i < |p| ==> v[i] == p[i] != '#';
  }

  /** Only a leading "http://" (any case) is rewritten, to "https://": the result then starts
      with "https://". */
  lemma NormalizeUpgradesHttp(u: string)
    requires StartsWithCI(Strip(u), "http://")
    ensures StartsWith(NormalizeUrl(u), "https://")
  {
    var t := Strip(u);
    var v := UpgradeScheme(t);
    UpgradedEnd(t);
    assert '#' !in "https://" && '?' !in "https://";
    DropFragmentPrefix(v, "https://");
    var url := DropFragment(v);
    PathPrefix(url, "https://");
    FilterQueryStartsWithPath(url);
    PrefixTrans(FilterQuery(url), PathPart(url), "https://");
    assert NormalizeUrl(u) == FilterQuery(url);
  }

  /** The upgraded form of a stripped "http://" URL does not end in a newline. */
  lemma UpgradedEnd(t: string)
    requires IsStripped(t) && StartsWithCI(t, "http://")
    ensures var v := UpgradeScheme(t); |v| > 0 && v[|v| - 1] != '\n'
  {
    var v := UpgradeScheme(t);
    if |t| > 7 {
      assert v[|v| - 1] == t[|t| - 1];
      assert IsSpace('\n');
    } else {
      assert v == "https://";
    }
  }

  /** A URL that does not start with "http://" gets no scheme added: the normalised URL's path is
      a prefix of the stripped input. */
  lemma NormalizeAddsNoScheme(u: string)
    requires !StartsWithCI(Strip(u), "http://")
    ensures StartsWith(Strip(u), PathPart(NormalizeUrl(u)))
  {
    var t := Strip(u);
    var url := DropFragment(t);
    FilterQueryLaw(url);
    PathPrefix(url, "");
    PrefixTrans(t, url, PathPart(url));
  }

  /** A query-filtered URL is its path, optionally followed by '?' and more text. */
  lemma FilterQueryShape(url: string)
    ensures var r := FilterQuery(url); var base := PathPart(r);
      r == base || (|r| > |base| && r[..|base|] == base && r[|base|] == '?')
  {
    var parts := Split(url, '?');
    SplitPieces(url, '?');
    if |parts| > 1 {
      var kept := KeptParams(url);
      if |kept| > 0 {
        QueryFree(parts[1], '?');
        SplitJoinPair(parts[0], Join(kept, '&'), '?');
      } else {
        SplitPieces(parts[0], '?');
      }
    }
  }

  /** Query filtering is idempotent: a filtered URL keeps its path and all of its (already
      non-tracking) parameters. */
  lemma FilterQueryIdempotent(url: string)
    ensures FilterQuery(FilterQuery(url)) == FilterQuery(url)
  {
    var parts := Split(url, '?');
    SplitPieces(url, '?');
    if |parts| > 1 {
      var kept := KeptParams(url);
      if |kept| > 0 {
        QueryFree(parts[1], '?');
        SplitJoinPair(parts[0], Join(kept, '&'), '?');
        KeptSplitBack(parts[1]);
        FilterKeepsAll(KeepParam, kept);
      }
    }
  }

  /** A string whose path is a prefix of a string not starting with "http://" (any case) does not
      start with "http://" either. */
  lemma NoSchemeAfterPath(r: string, t: string)
    requires !StartsWithCI(t, "http://") && StartsWith(t, PathPart(r))
    ensures !StartsWithCI(r, "http://")
  {
    SplitHead(r, '?');
    var q := IndexOf(r, '?');
    if q >= 7 {
      assert r[..7] == t[..7];
    } else if q < |r| && |r| >= 7 {
      assert Lower(r[..7])[q] == '?';
    }
  }

  /** The normal form of a newline-free URL holds neither a newline nor a '#'. */
  lemma NormalFormChars(u: string)
    requires '\n' !in u
    ensures '\n' !in NormalizeUrl(u) && '#' !in NormalizeUrl(u)
  {
    NoNewlineNoHash(u);
    FilterQueryChars(Defragmented(u));
  }

  /** A normal form never starts with "http://" in any letter case. */
  lemma NormalFormNoHttp(u: string)
    ensures !StartsWithCI(NormalizeUrl(u), "http://")
  {
    if StartsWithCI(Strip(u), "http://") {
      NormalizeUpgradesHttp(u);
      HttpsNotHttp(NormalizeUrl(u));
    } else {
      NormalizeAddsNoScheme(u);
      NoSchemeAfterPath(NormalizeUrl(u), Strip(u));
    }
  }

  lemma HttpsNotHttp(r: string)
    requires StartsWith(r, "https://")
    ensures !StartsWithCI(r, "http://")
  {
    assert Lower(r[..7])[4] == 's';
  }

  /** Strip, scheme upgrade and fragment removal leave alone a stripped string with no
      "http://" prefix, no newline and no '#'. */
  lemma DefragmentedFixed(r: string)
    requires IsStripped(r) && !StartsWithCI(r, "http://") && '\n' !in r && '#' !in r
    ensures Defragmented(r) == r
  {
    StripStripped(r);
    assert DropFragment(r) == r[..IndexOf(r, '#')];
  }

  /** Normalisation is idempotent on newline-free URLs whose normal form has no surrounding
      whitespace: the normal form has no "http://" prefix, no fragment, and only non-tracking
      parameters, so every step of a second pass leaves it unchanged. */
  lemma NormalizeIdempotent(u: string)
    ensures '\n' !in u && IsStripped(NormalizeUrl(u)) ==> NormalizeUrl(NormalizeUrl(u)) == NormalizeUrl(u)
  {
    if '\n' !in u && IsStripped(NormalizeUrl(u)) {
      var r := NormalizeUrl(u);
      NormalFormChars(u);
      NormalFormNoHttp(u);
      DefragmentedFixed(r);
      assert NormalizeUrl(r) == FilterQuery(r);
      FilterQueryIdempotent(Defragmented(u));
    }
  }

  /** Without the whitespace condition idempotence fails: dropping a fragment can expose
      whitespace that only a second pass strips. */
  lemma NormalizeNotIdempotentExample()
    ensures NormalizeUrl("a #b") == "a "
    ensures NormalizeUrl("a ") == "a"
  {
    FragmentExample();
    StripExample();
    assert '?' !in "a ";
    assert '?' !in "a";
  }

  lemma FragmentExample()
    ensures Defragmented("a #b") == "a "
  {
    var u := "a #b";
    assert u[0] == 'a' && u[1] == ' ' && u[2] == '#' && u[3] == 'b';
    assert !StartsWithCI(u, "http://");
    PlainDefragmented(u);
    IndexOfAt(u, '#', 2);
    assert u[..2] == "a ";
  }

  /** A stripped newline-free string without "http://" loses only what follows its first '#'. */
  lemma PlainDefragmented(u: string)
    requires IsStripped(u) && '\n' !in u && !StartsWithCI(u, "http://")
    ensures Defragmented(u) == u[..IndexOf(u, '#')]
  {
    StripStripped(u);
  }

  lemma StripExample()
    ensures Defragmented("a ") == "a"
  {
    assert Strip("a ") == "a" by {
      assert SpaceRun("a ") == 0;
      assert TrailingSpaceRun("a ") == 1;
    }
    assert UpgradeScheme("a") == "a";
    assert '\n' !in "a";
    assert IndexOf("a", '#') == 1;
  }

  // ---------------------------------------------------------------------------------------------
  // make_item_uuid

  predicate IsHexChar(c: char) {
    '0' <= c <= '9' || 'a' <= c <= 'f'
  }

  /** A lower-case hexadecimal SHA-256 digest: 64 hex characters. */
  predicate IsHexDigest(s: string) {
    |s| == 64 && forall i :: 0 <= i < |s| ==> IsHexChar(s[i])
  }

  type HexDigest = s: string | IsHexDigest(s)
    witness seq(64, i => '0')

  /** The item id: "ITEM_" followed by the first 8 characters of the hex digest of the normalised
      URL's UTF-8 bytes. The digest itself is a parameter. */
  function MakeItemUuid(digest: string -> HexDigest, u: string): (r: string)
    ensures |r| == 13 && StartsWith(r, "ITEM_")
    ensures forall i :: 5 <= i < 13 ==> IsHexChar(r[i])
    ensures r[5..] == digest(u)[..8]
  {
    "ITEM_" + digest(u)[..8]
  }

  /** Two URLs get the same item id exactly when their digests agree on the first 8 characters;
      in particular equal URLs always get the same id. */
  lemma ItemUuidCollision(digest: string -> HexDigest, u: string, v: string)
    ensures MakeItemUuid(digest, u) == MakeItemUuid(digest, v) <==> digest(u)[..8] == digest(v)[..8]
  {
    if MakeItemUuid(digest, u) == MakeItemUuid(digest, v) {
      assert MakeItemUuid(digest, u)[5..] == MakeItemUuid(digest, v)[5..];
    }
  }

  // ---------------------------------------------------------------------------------------------
  // get_host

  /** The length of a leading "https://" or "http://" (any letter case), or 0 when there is none. */
  function SchemeLength(u: string): (k: nat)
    ensures k <= |u|
    ensures k == 8 <==> StartsWithCI(u, "https://")
    ensures k == 7 <==> !StartsWithCI(u, "https://") && StartsWithCI(u, "http://")
    ensures k == 0 <==> !StartsWithCI(u, "https://") && !StartsWithCI(u, "http://")
  {
    if StartsWithCI(u, "https://") then 8 else if StartsWithCI(u, "http://") then 7 else 0
  }

  /** Python's `get_host`: the lower-cased run of non-'/' characters right after an http(s)
      scheme, or "" when there is no scheme or the run is empty. */
  function GetHost(u: string): (r: string)
    ensures SchemeLength(u) == 0 ==> r == ""
    ensures '/' !in r
    ensures r == Lower(r)
    ensures r != "" ==> var k := SchemeLength(u);
      k > 0 && k + |r| <= |u| && r == Lower(u[k..k + |r|]) && (k + |r| == |u| || u[k + |r|] == '/')
    ensures SchemeLength(u) > 0 && SchemeLength(u) < |u| && u[SchemeLength(u)] != '/' ==> r != ""
  {
    var k := SchemeLength(u);
    if k == 0 then ""
    else
      var rest := u[k..];
      var h := rest[..IndexOf(rest, '/')];
      assert forall i :: 0 <= i < |h| ==> h[i] != '/';
      assert h == u[k..k + |h|];
      Lower(h)
  }

  /** Lower-casing twice is lower-casing once. */
  lemma LowerIdempotent(s: string)
    ensures Lower(Lower(s)) == Lower(s)
  {
  }

  /** A host read back from "https://" + host is the same host. */
  lemma HostRoundTrip(u: string)
    ensures GetHost(u) != "" ==> GetHost("https://" + GetHost(u)) == GetHost(u)
  {
    var h := GetHost(u);
    if h != "" {
      var w := "https://" + h;
      assert w[..8] == "https://";
      assert Lower(w[..8]) == "https://";
      assert SchemeLength(w) == 8;
      assert w[8..] == h;
      assert IndexOf(h, '/') == |h|;
      LowerIdempotent(h);
    }
  }

  // ---------------------------------------------------------------------------------------------
  // unique_preserve_order

  /** Python's `unique_preserve_order`: the non-empty elements in first-occurrence order, each
      once. Written as the state of the loop after each prefix of the input. */
  function UniquePreserveOrder(a: seq<string>): (r: seq<string>)
    ensures NoDups(r)
    ensures forall i :: 0 <= i < |r| ==> r[i] != "" && r[i] in a
    ensures forall i :: 0 <= i < |a| && a[i] != "" ==> a[i] in r
  {
    if |a| == 0 then []
    else
      var init := a[..|a| - 1];
      var x := a[|a| - 1];
      var r := UniquePreserveOrder(init);
      assert a == init + [x];
      if x == "" || x in r then r else r + [x]
  }

  /** What de-duplication keeps is a subsequence of its input. */
  lemma {:induction false} UniqueIsSubseq(a: seq<string>)
    ensures IsSubseq(UniquePreserveOrder(a), a)
  {
    if |a| == 0 {
      SubseqEmpty(a);
    } else {
      var init, x := a[..|a| - 1], a[|a| - 1];
      assert a == init + [x];
      UniqueIsSubseq(init);
      var r := UniquePreserveOrder(init);
      if x == "" || x in r {
        SubseqExtend(r, init, x);
      } else {
        SubseqExtendBoth(r, init, x);
      }
    }
  }

  /** The output holds exactly the non-empty strings of the input. */
  lemma UniqueMembers(a: seq<string>)
    ensures forall u :: u in UniquePreserveOrder(a) <==> u != "" && u in a
  {
    var r := UniquePreserveOrder(a);
    forall u | u != "" && u in a
      ensures u in r
    {
      var l :| 0 <= l < |a| && a[l] == u;
    }
    forall u | u in r
      ensures u != "" && u in a
    {
      var l :| 0 <= l < |r| && r[l] == u;
    }
  }

  /** The output lists its elements in the order of their first occurrences in the input. */
  lemma {:induction false} UniqueFirstOccurrenceOrder(a: seq<string>)
    ensures forall i, j :: 0 <= i < j < |UniquePreserveOrder(a)| ==>
      FirstIndex(a, UniquePreserveOrder(a)[i]) < FirstIndex(a, UniquePreserveOrder(a)[j])
  {
    if |a| > 0 {
      var n := |a| - 1;
      var init := a[..n];
      var x := a[n];
      var r0 := UniquePreserveOrder(init);
      var r := UniquePreserveOrder(a);
      UniqueFirstOccurrenceOrder(init);
      assert a == init + [x];
      forall i, j | 0 <= i < j < |r|
        ensures FirstIndex(a, r[i]) < FirstIndex(a, r[j])
      {
        FirstIndexPrefix(a, n, r0[i]);
        if j < |r0| {
          FirstIndexPrefix(a, n, r0[j]);
        } else {
          assert forall k :: 0 <= k < n ==> a[k] == init[k] != x;
        }
      }
    }
  }

  /** A duplicate-free sequence of non-empty strings is its own de-duplication. */
  lemma {:induction false} UniqueOfDistinct(a: seq<string>)
    requires NoDups(a) && forall i :: 0 <= i < |a| ==> a[i] != ""
    ensures UniquePreserveOrder(a) == a
  {
    if |a| > 0 {
      var n := |a| - 1;
      var init := a[..n];
      var x := a[n];
      DistinctInit(a);
      UniqueOfDistinct(init);
      UniqueSnoc(init, x);
    }
  }

  lemma DistinctInit(a: seq<string>)
    requires |a| > 0 && NoDups(a) && forall i :: 0 <= i < |a| ==> a[i] != ""
    ensures var init := a[..|a| - 1];
      && NoDups(init) && (forall i :: 0 <= i < |init| ==> init[i] != "")
      && a[|a| - 1] != "" && a[|a| - 1] !in init && a == init + [a[|a| - 1]]
  {
    NoDupsInit(a);
    assert forall i :: 0 <= i < |a| - 1 ==> a[..|a| - 1][i] == a[i];
  }

  /** A new non-empty string at the end is kept, at the end. */
  lemma UniqueSnoc(init: seq<string>, x: string)
    requires x != "" && x !in UniquePreserveOrder(init)
    ensures UniquePreserveOrder(init + [x]) == UniquePreserveOrder(init) + [x]
  {
    assert (init + [x])[..|init|] == init;
  }

  /** De-duplicating twice is de-duplicating once. */
  lemma UniqueIdempotent(a: seq<string>)
    ensures UniquePreserveOrder(UniquePreserveOrder(a)) == UniquePreserveOrder(a)
  {
    UniqueOfDistinct(UniquePreserveOrder(a));
  }

  /** The loop of `unique_preserve_order` with its `seen` set. */
  method UniqueLoop(a: seq<string>) returns (out: seq<string>)
    ensures out == UniquePreserveOrder(a)
    ensures NoDups(out)
  {
    var seen: set<string> := {};
    out := [];
    var i := 0;
    while i < |a|
      invariant i <= |a|
      invariant out == UniquePreserveOrder(a[..i])
      invariant seen == set k | 0 <= k < |out| :: out[k]
    {
      var x := a[i];
      assert a[..i + 1][..i] == a[..i];
      if x != "" && x !in seen {
        seen := seen + {x};
        out := out + [x];
      }
      i := i + 1;
    }
    assert a[..|a|] == a;
  }
}

=== FILE: wrappers.dfy ===
/** Failure-carrying result types shared by every module of the harvesting model. */
module Wrappers {

  /** A value that may be absent: Python's `None` versus a present value. */
  datatype Option<+T> = None | Some(value: T) {

    /** The held value, or `default` when absent. */
    function GetOr(default: T): T {
      match this
      case Some(v) => v
      case None => default
    }
  }

  /** The outcome of an operation that can fail with an error of type E. */
  datatype Result<+R, +E> = Success(value: R) | Failure(error: E)
}
